=== FILE: README.md ===
# CARLA lane ground truth in OpenLane form — a Dafny model

This project models the core of a generator of 3D/2D lane-marking ground truth
driven by the CARLA simulator, written in the OpenLane dataset's on-disk schema
and axis conventions, and proves properties of that model. The modelled parts:

- **The frame algebra** (`Frames`, `LinAlg`). This is the chain of rigid
  transforms between the CARLA vehicle frame, the ground frame (x right,
  y forward, z up), the CARLA camera, the Apollo camera and the OpenLane camera.
  It also covers the re-expression of the extrinsic for the downstream
  preprocessing (R_json).
- **The generator's per-frame pipeline** (`Generator`, `RoadSampler`,
  `Monotonic`, `Projection`, `Marking`). A frame goes through these steps:
  - locate the road and skip junctions;
  - walk each lane boundary forward and backward along the road graph;
  - sort by forward distance and keep a strictly increasing run;
  - project to pixels with a visibility flag;
  - classify the marking into a category code;
  - drop duplicates;
  - assemble the record.
- **The depth-buffer occlusion test** (`Visibility`).
- **The frame-aligned three-camera acquisition** (`Sensors`). Old frames are
  dropped. A frame is handed out only when all three cameras deliver it. The
  depth image and the segmentation class map are decoded.
- **The camera helpers of the simulation side** (`Geometry`).
- **The rejection-sampling dataset balancer** (`Sampler`).
- **The offline validator of written frames** (`Validate`). It covers parsing,
  ground recovery, reprojection, the lane loop with its exception paths and
  the ok/reason decision.
- **The multi-map helpers** (`MapUtils`): town tables and look-ups, name
  normalisation, segment names, the towns argument, episode scheduling and the
  look-up cache.
- **The actor display name** (`Common`).
- **Resuming a collection run** from the files already on disk (`Progress`).

`Text` holds the Python string operations the source relies on:
- `split`, `join`, `strip`, `lower` and `title`;
- `int()` on a string;
- zero-padded formatting.

`Wrappers` holds `Option` and `Result`.

Geometry is over `real`. A 4x4 homogeneous matrix whose last row is
`[0, 0, 0, 1]` is an `Affine` (rotation and translation). `np.linalg.inv` of a
rigid transform is `RigidInverse` (transposed rotation, `-Rᵀt`). It is proved to
be the two-sided inverse when the rotation is orthonormal, and every constant
matrix of the source is proved orthonormal. The validator inverts the extrinsic
it reads from a file. That matrix need not be rigid. `np.linalg.inv` raises
LinAlgError for it exactly when its determinant, fourth row included, is zero
(`LinAlg.Det4`, `Validate.Singular`). The extrinsic the generator writes for a
rigid camera pose is proved never to be singular. NaN statistics are `Option<real>`,
with `None` standing for NaN. Random draws, directory listings and the
simulator's road graph are parameters.

Where the code and its design description disagree, the model follows the
code:
- **De-duplication** compares `xyz[1][0]`. That is the second OpenLane
  coordinate of a lane's first point: its lateral (left) offset, not its forward
  distance.
- **Depth decoding.** The sensor manager decodes depth with channel 0 as the
  least significant byte, and `decode_carla_depth` with channel 0 (blue) as
  the most significant. `Sensors.DecodersDisagree` exhibits a pixel the two
  read differently.
- **Validator thresholds.** `x_out_of_expected`, `y_too_short` and
  `vis_uv_mismatch` add a reason without clearing `ok`, so a frame can pass
  while they are reported. `failed_thresholds` is never produced.

## Model

| member | source | states |
|---|---|---|
| LinAlg.RigidInverseRoundTrip | core/generator.py:197 | for an orthonormal rotation, the modelled inverse undoes the transform on both sides |
| LinAlg.RigidInverseCompose | core/generator.py:221 | for an orthonormal rotation, the transform composed with its modelled inverse is the identity, both ways round |
| LinAlg.ApplyCompose | core/generator.py:232 | applying a matrix product is applying the right factor, then the left |
| LinAlg.Rows4 | core/generator.py:338-346 | a transform is written as four rows of four with last row [0,0,0,1] and its translation in column 3 |
| LinAlg.Rows4Det | core/generator.py:338-346 | the written 4x4 matrix has the determinant of its rotation, as its last row is [0,0,0,1] |
| LinAlg.OrthonormalDet | core/generator.py:197 | an orthonormal rotation has determinant 1 or -1, so np.linalg.inv never finds it singular |
| LinAlg.CrossOfOrthonormal | core/generator.py:197 | for an orthonormal matrix, the cross product of rows 1 and 2 is the determinant times row 0 |
| LinAlg.Rows3 | core/generator.py:344 | the intrinsic is written as three rows of three |
| Frames.SwapVehicleToGroundApply | core/generator.py:34-47 | S_v2g maps vehicle (X, Y, Z) to ground (Y, X, Z) |
| Frames.SwapVehicleToGroundIsInvolution | core/generator.py:218-220 | S_v2g composed with itself is the identity |
| Frames.SwapInverse | core/generator.py:220 | inv(S_v2g) is S_v2g itself |
| Frames.CarlaCamToApolloCamApply | core/generator.py:49-65 | x_apollo = Y, y_apollo = -Z, z_apollo = X |
| Frames.ApolloCamToCarlaCamApply | core/generator.py:229-231 | inv(S) maps an Apollo point (x, y, z) to the CARLA point (z, x, -y) |
| Frames.CarlaApolloCamInverse | core/generator.py:229-231 | the two camera axis swaps are inverse to each other, both ways round |
| Frames.CarlaCamToApolloCamInverse | core/generator.py:231 | np.linalg.inv of the camera swap is the Apollo-to-CARLA swap |
| Frames.ApolloToOpenLaneApply | core/generator.py:67-76 | T_A2O maps Apollo (x, y, z) to OpenLane (z, -x, -y) |
| Frames.OpenLaneToApolloApply | core/generator.py:121-123 | T_O2A maps OpenLane (x, y, z) to Apollo (-y, -z, x) |
| Frames.OpenLaneRoundTrip | core/generator.py:121-123 | T_O2A undoes T_A2O on every point |
| Frames.OpenLaneApolloInverse | core/generator.py:121-123 | T_A2O and T_O2A compose to the identity, both ways round |
| Frames.ApolloToOpenLaneInverse | core/generator.py:123 | np.linalg.inv(T_A2O) is T_O2A |
| Frames.SwapRotOrthonormal | core/generator.py:34-47 | the S_v2g rotation is orthonormal, so its numeric inverse is its transpose |
| Frames.CarlaToApolloRotOrthonormal | core/generator.py:49-65 | the camera swap rotation is orthonormal |
| Frames.ApolloToOpenLaneRotOrthonormal | core/generator.py:67-76 | the T_A2O rotation is orthonormal |
| Frames.FixedRotationsOrthonormal | core/generator.py:318-324 | R_vg and R_gc are orthonormal, so inv(R_gc) and inv(R_vg) are transposes |
| Frames.CompatibleExtrinsic | core/generator.py:334-340 | the stored extrinsic keeps E's translation |
| Frames.ReexpressRotation | core/generator.py:326-332 | the preprocessing's inv(R_vg)·R_json·R_vg·R_gc gives back the target rotation for the R_json written |
| Frames.ConsumerRotation | core/generator.py:312-324 | the rotation the preprocessing reads from a stored rotation; an identity stored rotation is read as R_gc |
| Frames.ReexpressDet | core/generator.py:326-332 | re-expressing a rotation for the preprocessing keeps its determinant |
| Frames.CompatibleExtrinsicRecovered | core/generator.py:326-340 | the preprocessing recovers E's rotation from the stored extrinsic |
| Frames.ReexpressInjective | core/generator.py:332 | different target rotations are stored as different R_json |
| Marking.PairedIndex | core/generator.py:134-146 | the position of a paired marking type in the white/yellow blocks, 0 for other types, within 0..6 |
| Marking.GetCategory | core/generator.py:128-148 | the category code is one of 0..12 or 20 |
| Marking.CategoryByBlocks | core/generator.py:128-148 | white types give 1..6 and yellow types 7..12 in the same order; a curb gives 20 in any colour; 0 exactly for a non-curb that is unpaired or neither white nor yellow |
| Marking.DecodeCategory | core/generator.py:133-146 | codes 1..12 read back as (is yellow, type) |
| Marking.CategoryRoundTrip | core/generator.py:128-148 | a code in 1..12 determines the marking type and whether it is yellow |
| Projection.ProjectPoint | core/generator.py:88-104 | flag 1 exactly when the camera depth exceeds zmin and the pixel lies within W×H; a hidden point gets (-1, -1) |
| Projection.VisibleIsPinholeImage | core/generator.py:92-101 | a visible point's uv is its perspective image (image-plane point = depth × (u, v, 1)) inside the image |
| Projection.SentinelIsOutside | core/generator.py:100-104 | a point is flagged visible exactly when its u is not negative, so the sentinel is never a visible pixel |
| Projection.ProjectGroundToUv | core/generator.py:78-105 | one uv and one flag per point, each that of the point alone; no points give empty arrays |
| Projection.VisibleCount | core/generator.py:275 | the number of visible points is at most the number of points |
| Projection.SumOfFlags | core/generator.py:275 | np.sum of 0/1 flags equals the number of visible points |
| Visibility.DecodePixel | core/visibility.py:16-20 | a byte pixel decodes to a depth between 0 and 1000 metres |
| Visibility.DepthCode | core/visibility.py:19 | R + 256·G + 256²·B; for a byte pixel it lies in 0..256³-1 |
| Visibility.DecodePixelInjective | core/visibility.py:16-20 | byte pixels with equal decoded depth are equal |
| Visibility.DecodeCarlaDepth | core/visibility.py:16-20 | the depth image has the pixel image's shape and every entry is that pixel's depth |
| Visibility.Trunc | core/visibility.py:32 | int() truncates toward zero: the floor for non-negative values, the ceiling for negative ones |
| Visibility.TruncSmallNegative | core/visibility.py:32-35 | a coordinate in (-1, 0) truncates to 0 and passes the bounds check |
| Visibility.PointVisibility | core/visibility.py:30-51 | 0 outside the image or at non-positive depth; otherwise IndexError exactly when the depth map lacks the pixel, and else 1 exactly when z ≤ sensed depth + threshold |
| Visibility.ThresholdMonotone | core/visibility.py:48 | raising the tolerance never hides a visible point |
| Visibility.CoveringMapNeverRaises | core/visibility.py:44 | with a depth map covering the image no point raises IndexError |
| Visibility.ComputeVisibility | core/visibility.py:23-53 | raises exactly when some point raises (a missing z value or depth pixel); otherwise one flag per uv point, in order, each the point's PointVisibility |
| Monotonic.SubsequenceMultiset | core/generator.py:164-175 | a kept subsequence holds no point that the input lacks (multiset inclusion) |
| Monotonic.InsertByY | core/generator.py:160-162 | inserting a point adds exactly that point to the multiset |
| Monotonic.InsertByYSorted | core/generator.py:160-162 | inserting into a y-sorted sequence keeps it sorted |
| Monotonic.SortByY | core/generator.py:160-162 | the sort is a permutation of its input |
| Monotonic.SortByYSorted | core/generator.py:160-162 | the sort's result is ordered by y |
| Monotonic.KeepAhead | core/generator.py:164-170 | the first point is always kept, and never more points than given |
| Monotonic.KeepAheadProperties | core/generator.py:164-170 | the kept points are a subsequence, each more than min_dy ahead of the previous one |
| Monotonic.KeepAheadDrops | core/generator.py:167-170 | a new last point is dropped exactly when it is not more than min_dy beyond the last kept point |
| Monotonic.KeepAheadStep | core/generator.py:167-170 | one loop iteration appends the point exactly when y > last_y + min_dy |
| Monotonic.YMonotonicShape | core/generator.py:149-175 | fewer than two points pass through; otherwise the result is empty or has at least two points, is a subsequence of the y-sorted input, and adds no point |
| Monotonic.YMonotonicStartsAtMinimum | core/generator.py:160-166 | a non-empty result starts at the smallest y of the input |
| Monotonic.YMonotonicGaps | core/generator.py:164-173 | consecutive output points are more than min_dy apart in y |
| Monotonic.ScanAhead | core/generator.py:164-170 | the keep loop computes KeepAhead |
| Monotonic.EnforceYMonotonic | core/generator.py:149-175 | _enforce_y_monotonic computes YMonotonic |
| RoadSampler.Side.Sign | core/generator.py:385-387 | a side is -1 (left) or +1 (right) |
| RoadSampler.MaxLoops | core/generator.py:370 | int(target / step) + 20, at least 20 |
| RoadSampler.MaxLoopsValues | core/generator.py:115-119 | the forward walk allows 226 iterations and the backward walk 60 |
| RoadSampler.SideMarking | core/generator.py:376 | side -1 reads the left lane marking, any other side the right one |
| RoadSampler.BoundariesStraddleCentre | core/generator.py:380-388 | the left and right boundary points of a waypoint have the lane centre as midpoint and lie a lane width apart along the right vector |
| RoadSampler.InBoxMirror | core/generator.py:397-398 | the box bounds the ground y to (-back_dist, max_dist) and x to (-lateral_range, lateral_range); it ignores z and is the same on both sides |
| RoadSampler.Advance | core/generator.py:401-411 | a forward walk steps to next(step), a backward one to previous(step); None when there is none |
| RoadSampler.Emitted | core/generator.py:380-399 | at most one point per waypoint, and only inside the forward/back/lateral box |
| RoadSampler.Walk | core/generator.py:373-413 | every collected point lies in the box; the walk collects at most max_loops - guard points, all within the target distance |
| RoadSampler.WalkStopsAtNone | core/generator.py:376-378 | a NONE marking on the current waypoint ends the walk with nothing collected |
| RoadSampler.Collected | core/generator.py:357-415 | every collected point lies in the box; at most 206 forward and 39 backward points |
| RoadSampler.WalkUnfold | core/generator.py:373-413 | one iteration emits the current waypoint's point and then continues from the next waypoint, or stops when there is none |
| RoadSampler.BoundaryPointInBox | core/generator.py:380-399 | the point of one waypoint is the boundary point, kept only inside the box |
| RoadSampler.CollectPoints | core/generator.py:357-415 | collect_points computes the walk from the start (backward: from its predecessor) |
| RoadSampler.Reverse | core/generator.py:419 | bwd_points[::-1] holds the same points in reverse order |
| RoadSampler.ReverseMember | core/generator.py:419 | reversing adds no point |
| RoadSampler.SampledBoundary | core/generator.py:417-427 | the boundary is empty or has at least two points, each more than min_dy ahead of the previous one |
| RoadSampler.SampleLaneBoundary | core/generator.py:350-427 | _sample_lane_boundary_in_ground computes SampledBoundary |
| RoadSampler.SampledBoundaryProperties | core/generator.py:417-427 | the sampled boundary is empty or has at least two points, all inside the box, strictly increasing in forward distance by more than min_dy |
| Generator.ApolloCamToGroundMeaning | core/generator.py:210-232 | E maps an Apollo-camera point p to the ground frame as T_ground_w · T_w_c applied to the CARLA point (p.z, p.x, -p.y) |
| Generator.VehicleToWorld | core/generator.py:195-197 | T_w_v = T_w_c · inv(T_v_c) takes the camera's mounting position to the camera's world position |
| Generator.GroundFromWorld | core/generator.py:209-221 | T_ground_w takes the vehicle's position lowered to the road height to the ground origin |
| Generator.ApolloCamToGround | core/generator.py:223-232 | E's translation is the camera position in the ground frame |
| Generator.StartKey | core/generator.py:301-302 | the de-duplication key is the lateral offset of the first point, read back through T_O2A |
| Generator.WellFormedLane | core/generator.py:256-295 | a well-formed lane has at least ten points |
| Generator.Candidates | core/generator.py:240-252 | two to six candidates: the current waypoint's left and right boundaries first; then each existing left lane, nearest first, with its left boundary; then each existing right lane, nearest first, with its right boundary. Every existing neighbour up to two lanes away is a candidate, and no other lane is |
| Generator.LanesOf | core/generator.py:254-295 | at most one lane line per candidate |
| Generator.LaneFor | core/generator.py:255-295 | a candidate is skipped exactly when its marking is NONE, it has fewer than five sampled points, or fewer than ten of them project as visible. An emitted lane stores that projection's uv and flags, the marking's category and each point converted to the OpenLane camera frame, and is well formed |
| Generator.GroundToOpenLaneRecovered | core/generator.py:279-286 | a stored xyz point, read back OpenLane -> Apollo and then through E, is the ground point again |
| Generator.LanesOfMembers | core/generator.py:254-295 | a lane line is in the frame's list exactly when some candidate yields it |
| Generator.LanesOfOne | core/generator.py:255-295 | one candidate contributes its lane, or nothing when it is skipped |
| Generator.LanesOfAppend | core/generator.py:254-295 | the lanes of two runs of candidates are those of the first run followed by those of the second, so lanes keep candidate order |
| Generator.LanesOfWellFormed | core/generator.py:254-295 | every emitted lane is well formed and has points |
| Generator.LaneForCandidate | core/generator.py:255-295 | one loop body yields the candidate's lane, or nothing when it is skipped |
| Generator.BuildLaneLines | core/generator.py:254-295 | the candidate loop yields exactly the lanes of LanesOf, in order |
| Generator.Deduplicated | core/generator.py:297-308 | the kept lanes are lanes of the input and no more of them |
| Generator.DedupKeepsFirst | core/generator.py:298-308 | the first lane is always kept |
| Generator.DedupKeepsOrder | core/generator.py:297-308 | the kept lanes are a subsequence of the input |
| Generator.DedupSpaced | core/generator.py:301-308 | kept lanes start at least 0.2 apart in xyz[1][0] |
| Generator.DuplicateExtends | core/generator.py:303-306 | a lane duplicating a kept lane stays a duplicate as more lanes are kept |
| Generator.DedupCovers | core/generator.py:297-308 | every input lane starts within 0.2 of some kept lane |
| Generator.ScanForDuplicate | core/generator.py:301-306 | the inner loop reports a duplicate exactly when some kept lane starts within 0.2 |
| Generator.Dedup | core/generator.py:297-308 | the de-duplication loop computes Deduplicated |
| Generator.FrameOf | core/generator.py:178-348 | the file path is empty; the record is empty or carries K as three rows and a four-row extrinsic with last row [0,0,0,1] |
| Generator.ProcessFrame | core/generator.py:178-348 | process_frame computes FrameOf |
| Generator.FrameWithoutLane | core/generator.py:205-208 | no waypoint, or a junction, gives the empty record |
| Generator.FrameContents | core/generator.py:210-348 | on a road: the record's lanes are the de-duplicated lanes the candidates yield; at most six lanes, all well formed, starting 0.2 apart; intrinsic K; stored extrinsic from which the preprocessing recovers E's rotation, with E's translation and last row [0,0,0,1]; empty file path |
| Geometry.BuildProjectionMatrix | core/geometry.py:7-14 | K has last row (0, 0, 1) and no skew |
| Geometry.ProjectionMatrixPinhole | core/geometry.py:7-14 | K keeps camera depth and maps a point in front of the camera to focal·(x/z, y/z) plus the image centre |
| Geometry.Ue4ToCvIsCarlaToApollo | core/geometry.py:30-35 | the UE4-to-camera swap is the generator's CARLA-to-Apollo camera swap |
| Geometry.WorldToCameraMatrix | core/geometry.py:16-39 | the extrinsic applies the world-to-sensor transform, then the axis swap |
| Geometry.WorldToCameraOfSensor | core/geometry.py:24-38 | with the sensor's inverse pose, the sensor sits at the camera origin and a point d ahead lies at depth d on the optical axis |
| Geometry.ProjectOne | core/geometry.py:53-72 | a point's camera position is the extrinsic applied to it; it is valid exactly when its image-plane depth is positive |
| Geometry.ProjectOneUv | core/geometry.py:66-72 | a valid point's uv is its perspective image; any other uv is its image-plane x, y divided by 1e-5 |
| Geometry.Project3dTo2d | core/geometry.py:41-74 | one uv, camera point and mask entry per point, each that of the point alone |
| Geometry.AgreesWithGenerator | core/geometry.py:41-74 | a point the generator projects as visible is valid here with the same pixel, given the inverse of the same extrinsic |
| Sensors.Consume | simulation/sensor_manager.py:43-64 | an item is returned only for the target frame and from the queue; what remains is a suffix of the queue, shorter unless it was empty |
| Sensors.ConsumeAt | simulation/sensor_manager.py:43-64 | frames older than the target are dropped; the first frame not older is consumed and returned only when it is the target; an exhausted queue returns nothing |
| Sensors.ConsumeFindsTarget | simulation/sensor_manager.py:49-60 | when no frame is newer than the target, an item is returned exactly when the queue holds the target frame |
| Sensors.ConsumeEmpty | simulation/sensor_manager.py:62-64 | an empty queue times out with nothing |
| Sensors.SensorWrapper.constructor | simulation/sensor_manager.py:18-26 | a new wrapper holds its sensor and the given queue |
| Sensors.SensorWrapper.GetData | simulation/sensor_manager.py:37-64 | get_data returns and leaves what Consume says; the sensor is untouched |
| Sensors.SensorWrapper.Destroy | simulation/sensor_manager.py:66-73 | the sensor is gone and the queue is empty |
| Sensors.SensorDepthCode | simulation/sensor_manager.py:122-124 | a byte pixel's code lies in 0..256³-1 |
| Sensors.SensorDepth | simulation/sensor_manager.py:120-125 | a byte pixel's depth lies between 0 and 1000 metres |
| Sensors.SensorDepthSwapsChannels | simulation/sensor_manager.py:122-124 | the manager's decoder is decode_carla_depth with channels 0 and 2 exchanged |
| Sensors.DecodersDisagree | simulation/sensor_manager.py:122-125 | a blue-only pixel is under 1 mm in the manager's decoder and over 3 m in decode_carla_depth |
| Sensors.DepthImage | simulation/sensor_manager.py:120-125 | the depth map has the image's shape and each entry is its pixel's depth |
| Sensors.SegClassMap | simulation/sensor_manager.py:128-130 | the class map has the image's shape and each entry is channel 2 of its pixel |
| Sensors.SyncSensorManager.constructor | simulation/sensor_manager.py:98-101 | the manager owns three distinct wrappers |
| Sensors.SyncSensorManager.GetSyncedFrames | simulation/sensor_manager.py:103-133 | every camera is asked for the frame and keeps its sensor; a result exists exactly when all three delivered it, and holds the RGB data, decoded depth, class map and RGB pose |
| Sensors.SyncSensorManager.Destroy | simulation/sensor_manager.py:135-138 | all three wrappers are destroyed |
| Sensors.SyncAllOrNothing | simulation/sensor_manager.py:103-115 | a camera that delivered the target after older frames hands it out; a camera that never reached it gives nothing |
| Sampler.Bump | core/sampler.py:90-91 | exactly the named counter grows by one |
| Sampler.UpdateStat | core/sampler.py:90-91 | _update_stat bumps one counter of one entry and changes nothing else |
| Sampler.FrameIds | core/sampler.py:34-39 | a frame touches distinct entries: its lane count, weather and road, plus the junction entry exactly for a junction |
| Sampler.Record | core/sampler.py:34-39 | recording never touches global_lane_counts |
| Sampler.RecordEffect | core/sampler.py:34-39 | recording distinct entries bumps each of them once and every other entry not at all |
| Sampler.RecordUnfold | core/sampler.py:82-86 | the three or four _update_stat calls are Record over the frame's entries |
| Sampler.TouchCount | core/sampler.py:60 | a defaultdict read adds the key with 0 and changes no count; a new key goes at the end of the insertion order |
| Sampler.TouchStat | core/sampler.py:46 | a defaultdict read adds the entry with zero counters and changes no counter |
| Sampler.AddLane | core/sampler.py:88 | the frame's lane count grows by one and no other |
| Sampler.SumCountsTouch | core/sampler.py:60-62 | inserting a zero key leaves sum(values()) unchanged |
| Sampler.CommitSave | core/sampler.py:81-88 | one save for each entry of the frame, and one more saved frame for its lane count |
| Sampler.Scan | core/sampler.py:34-39 | without simulate, one scan for each entry of the frame; with simulate nothing changes |
| Sampler.QuotaReached | core/sampler.py:45-48 | never reached without a quota; always reached with a zero quota |
| Sampler.QuotaCheck | core/sampler.py:45-48 | rejects exactly when a quota is set and the saved count reached it; no counter changes |
| Sampler.BalanceCheck | core/sampler.py:59-69 | rejects exactly as the balancing rule says; no count changes |
| Sampler.Accept | core/sampler.py:52-55 | acceptance commits the save unless simulating |
| Sampler.CheckAndUpdatePaths | core/sampler.py:25-75 | the call ends by quota rejection, junction acceptance, balance rejection or default acceptance, with the state each path leaves |
| Sampler.CheckAndUpdate | core/sampler.py:25-75 | save exactly when the quota is not reached and either a preferred junction or balancing does not reject |
| Sampler.CheckAndUpdateStats | core/sampler.py:25-75 | without simulate, each entry of the frame gets one scan, and one save when the frame is kept; every other entry is unchanged |
| Sampler.CheckAndUpdateLaneCounts | core/sampler.py:25-75 | the frame's lane count grows by one exactly on a kept, non-simulated frame |
| Sampler.SimulateChangesNoCounter | core/sampler.py:25-75 | a simulated call changes no counter |
| Sampler.QuotaRejects | core/sampler.py:45-48 | a reached weather quota rejects the frame and saves nothing |
| Sampler.JunctionAccepted | core/sampler.py:52-55 | with junction preference, a junction frame within the quota is saved |
| Sampler.BalanceRejects | core/sampler.py:59-69 | balancing rejects only when it is on, some lane count was saved, and the frame's count exceeds 15 |
| Sampler.DataSampler.constructor | core/sampler.py:8-23 | the sampler starts with the options and empty statistics |
| Sampler.DataSampler.UpdateStatOf | core/sampler.py:90-91 | the new state is UpdateStat of the old one |
| Sampler.DataSampler.RecordFrame | core/sampler.py:34-39 | the new state is Record over the frame's entries |
| Sampler.DataSampler.ReadStat | core/sampler.py:46 | returns the entry's counters and inserts it if missing |
| Sampler.DataSampler.ReadLaneCount | core/sampler.py:60 | returns the lane count's saves and inserts it if missing |
| Sampler.DataSampler.QuotaStep | core/sampler.py:45-48 | performs QuotaCheck on the state |
| Sampler.DataSampler.BalanceStep | core/sampler.py:59-69 | performs BalanceCheck on the state |
| Sampler.DataSampler.CommitSaveOf | core/sampler.py:81-88 | performs CommitSave on the state |
| Sampler.DataSampler.Commit | core/sampler.py:77-79 | commit is _commit_save |
| Sampler.DataSampler.CheckAndUpdateOf | core/sampler.py:25-75 | check_and_update returns the decision and leaves the state CheckAndUpdate gives |
| Validate.ParseRows | tools/batch_validate_openlane.py:50-78 | a 2D array is accepted exactly when it has k rows (taken as is) or k columns (transposed); an array float() rejects by type raises TypeError, any other ValueError |
| Validate.ParseXyz | tools/batch_validate_openlane.py:50-63 | accepted exactly for 3×N or N×3 arrays; 3×N gives N points |
| Validate.ParseUv | tools/batch_validate_openlane.py:66-78 | accepted exactly for 2×N or N×2 arrays |
| Validate.XyzRows | core/generator.py:290 | the generator's 3×N xyz layout is a well-shaped array |
| Validate.XyzColumns | tools/batch_validate_openlane.py:58-62 | the N×3 layout is a well-shaped array |
| Validate.ParseXyzRoundTrip | tools/batch_validate_openlane.py:50-60 | parsing the generator's 3×N layout gives back its points |
| Validate.ParseXyzColumns | tools/batch_validate_openlane.py:50-63 | N×3 input gives back its points unless N = 3, where the 3×N reading wins and the points come back transposed |
| Validate.ConsumerMatrixAgrees | tools/batch_validate_openlane.py:35-40 | the validator's T_apollo_to_openlane is the generator's, and its inverse is T_O2A |
| Validate.OpenLaneToGround | tools/batch_validate_openlane.py:85-97 | each OpenLane point becomes the Apollo point (-y, -z, x), and then E applied to it |
| Validate.GroundRoundTrip | tools/batch_validate_openlane.py:85-97 | recovery with the E the generator used gives back the generator's ground point |
| Validate.LevelCameraSees | core/generator.py:231-232 | a level camera at height h maps its camera point to the road point |
| Validate.LevelCameraStoredIdentity | core/generator.py:326-340 | a level camera's stored rotation is the identity |
| Validate.IdentityStoredRecovers | tools/batch_validate_openlane.py:85-97 | with an identity stored rotation, recovery returns the Apollo camera point shifted by the translation, whatever the ground point |
| Validate.RecoveryExtrinsic | core/generator.py:322-332 | the corrected half of the finding below (not what line 197 of the validator does): the recovery extrinsic keeps the stored translation and takes the rotation the preprocessing derives |
| Validate.CorrectedGroundRoundTrip | tools/batch_validate_openlane.py:85-97 | recovering with the preprocessing's rotation undoes the re-expression and gives back every ground point |
| Validate.LevelCameraStored | core/generator.py:326-340 | a level camera at height h is stored with the identity rotation and translation (0, 0, h) |
| Validate.IdentityStoredLevel | tools/batch_validate_openlane.py:85-97 | with that stored extrinsic the as-written recovery turns the road point (x, y, 0) into (x, h, y + h) |
| Validate.LevelCameraRecoveredPoint | tools/batch_validate_openlane.py:85-97 | the as-written recovery of a level camera's road point (x, y, 0) is (x, h, y + h) |
| Validate.IdentityStoredRoad | tools/batch_validate_openlane.py:85-97 | the same, point by point, for a whole lane of road points |
| Validate.LevelCameraLaneGrounds | tools/batch_validate_openlane.py:176-236 | the lane loop as written gives (x, h, y + h) for every road point (x, y, 0) of a lane the generator wrote for a level camera |
| Validate.ReprojectPoint | tools/batch_validate_openlane.py:100-115 | the depth is the image-plane z, and uv is x/z, y/z, with z replaced by 1e-9 when exactly zero |
| Validate.ProjectGroundToUvRaw | tools/batch_validate_openlane.py:100-115 | one uv and one depth per point, each that of the point alone |
| Validate.ReprojectionAgrees | tools/batch_validate_openlane.py:210-219 | a point the generator saw at a pixel, recovered and reprojected with the same stored extrinsic, lands on that pixel, whatever orthonormal extrinsic is stored |
| Validate.CountAbove | tools/batch_validate_openlane.py:236 | the count of flags above 0.5 is at most the number of flags |
| Validate.Ones | tools/batch_validate_openlane.py:184-188 | the default visibility is N ones |
| Validate.Flatten | tools/batch_validate_openlane.py:184-188 | np.array(...).reshape(-1): TypeError or ValueError for an unconvertible array; otherwise all entries; a 2D array gives rows times columns of them in row-major order, entry j of row i at i * cols + j |
| Validate.ConcatRowMajor | tools/batch_validate_openlane.py:185 | rows of c entries, concatenated, put entry j of row i at i * c + j |
| Validate.ConcatLength | tools/batch_validate_openlane.py:185 | rows of c entries flatten to rows times c entries |
| Validate.ConcatMembers | tools/batch_validate_openlane.py:185 | flattening keeps exactly the rows' entries |
| Validate.LaneStep | tools/batch_validate_openlane.py:176-236 | a lane that is not an object is skipped only when the membership test says no, otherwise TypeError; parse errors propagate; a usable lane gives its recovered ground points, at least two points and no more visible points than points (LaneStepOfPoints adds the LinAlgError of a singular E) |
| Validate.LaneVisibility | tools/batch_validate_openlane.py:184-188 | the flags a lane is counted with: N ones when visibility is absent or has another length than N, the flattened values otherwise; it raises exactly when flattening raises |
| Validate.LaneStepWithoutXyz | tools/batch_validate_openlane.py:177-178 | an object lane without "xyz" is skipped |
| Validate.LaneStepOfPoints | tools/batch_validate_openlane.py:181-236 | an object lane with parsed xyz: fewer than two points skip it; a visibility or uv that fails raises its error; a uv of N columns with a singular E raises LinAlgError at np.linalg.inv (line 108, reached from line 212); otherwise the lane adds its ground points, its N and the count of its flags above 0.5 |
| Validate.LaneLoopPointCount | tools/batch_validate_openlane.py:176-236 | the point total is the number of recovered ground points |
| Validate.LaneLoop | tools/batch_validate_openlane.py:176-236 | the first lane that raises decides the error; otherwise visible points never outnumber points, at most one ground list per lane, each of at least two points |
| Validate.LaneLoopErrorPersists | tools/batch_validate_openlane.py:176-236 | once a lane raises, the whole loop raises that error |
| Validate.LaneLoopSnoc | tools/batch_validate_openlane.py:176-236 | one more lane: an error ends the loop, a skipped lane leaves the totals, a usable one adds its points |
| Validate.LaneLoopPrefixStep | tools/batch_validate_openlane.py:176-236 | the loop over one more lane folds that lane's step into the totals so far |
| Validate.SingularLaneRaises | tools/batch_validate_openlane.py:176-212 | with a singular E, the first lane that reaches the reprojection check (parsed xyz of at least two points, flattening visibility, uv of N columns) ends the loop with LinAlgError |
| Validate.LaneLoopInvertible | tools/batch_validate_openlane.py:176-236 | with an invertible E the loop never raises LinAlgError |
| Validate.LaneBody | tools/batch_validate_openlane.py:176-236 | one iteration of the loop computes LaneStep |
| Validate.RunLaneLoop | tools/batch_validate_openlane.py:176-236 | the lane loop computes LaneLoop, recovering ground points with the stored extrinsic as line 197 does, including its exception path and the LinAlgError of a singular E at line 108 |
| Validate.Checks | tools/batch_validate_openlane.py:278-294 | six checks, in the source's order |
| Validate.FailedChecksFilter | tools/batch_validate_openlane.py:274-294 | the reasons appended are those of the failing checks, in order |
| Validate.FailedSnoc | tools/batch_validate_openlane.py:278-294 | one more check appends its reason exactly when it fails |
| Validate.FailedMembers | tools/batch_validate_openlane.py:278-294 | a reason appears exactly when its check fails |
| Validate.FailedOrdered | tools/batch_validate_openlane.py:278-294 | failing reasons keep the order of their checks |
| Validate.CheckListOrdered | tools/batch_validate_openlane.py:278-294 | every reason is justified by the metrics, reasons are in check order, and a threshold failure puts a blocking reason first |
| Validate.CheckListComplete | tools/batch_validate_openlane.py:278-294 | each threshold that is exceeded contributes its reason (the x and y checks exactly when they are exceeded) |
| Validate.FailedChecksOrdered | tools/batch_validate_openlane.py:273-296 | the decision's reasons are justified, ordered, and led by a blocking one on failure |
| Validate.FailedChecksComplete | tools/batch_validate_openlane.py:273-296 | the decision lists every exceeded threshold |
| Validate.ThresholdFailureListed | tools/batch_validate_openlane.py:274-294 | a frame fails the thresholds exactly when a reprojection or monotonicity reason is listed |
| Validate.Decide | tools/batch_validate_openlane.py:273-296 | ok exactly when no reprojection or monotonicity threshold fails; the reason is "ok" or the failing reasons joined |
| Validate.SafeNp | tools/batch_validate_openlane.py:43-47 | a missing key raises KeyError, an array float() rejects by type TypeError, any other wrong shape ValueError; the right shape is returned as is |
| Validate.FrameSetup | tools/batch_validate_openlane.py:149-164 | K is read first, then E, then the lanes; the first that raises decides the error; otherwise the transform read from E, whether E is singular, and the lanes (none when the key is missing) |
| Validate.ExtrinsicOf | tools/batch_validate_openlane.py:161 | the transform read from E: its rotation and translation are E's top three rows; the fourth row only matters to Singular |
| Validate.ExtrinsicOfRows4 | tools/batch_validate_openlane.py:161 | reading back the four rows the generator writes gives the transform again |
| Validate.GeneratedExtrinsicInvertible | tools/batch_validate_openlane.py:108 | the extrinsic the generator writes for a camera pose with an orthonormal rotation is never singular, so np.linalg.inv(E) does not raise for it |
| Validate.ZeroLastRowSingular | tools/batch_validate_openlane.py:108 | a 4x4 matrix with a zero last row is singular, whatever its top three rows |
| Validate.ValidateFrame | tools/batch_validate_openlane.py:149-326 | shape errors, parse errors and the LinAlgError of a singular E give an exception report with zero counts, LinAlgError only for a singular E; no usable lane gives no_valid_lanes; otherwise the lane and point counts of the loop and the decision; ok exactly when the reason is "ok"; never failed_thresholds |
| MapUtils.Range | utils/map_utils.py:256 | range(n) is 0..n-1 |
| MapUtils.GetTownInfo | utils/map_utils.py:15-33 | Town10HD maps to Town10; any other name succeeds exactly when it has a table |
| MapUtils.AvailableTownsHaveTables | utils/map_utils.py:9 | every advertised town has a table |
| MapUtils.FirstMatch | utils/map_utils.py:56-60 | no match exactly when no entry lists the road |
| MapUtils.FirstMatchMeaning | utils/map_utils.py:56-60 | no match exactly when no entry lists the road; otherwise the count of the first entry that lists it |
| MapUtils.FirstMatchPrefix | utils/map_utils.py:56-60 | a match in a prefix of the entries is the overall answer |
| MapUtils.GetGtLaneCount | utils/map_utils.py:36-60 | an unknown town raises; otherwise the count of the first entry listing the road, or -1 |
| MapUtils.IsBadRoadId | utils/map_utils.py:63-87 | an unknown town raises; otherwise true exactly when the road is listed as bad |
| MapUtils.WordSuffixLength | utils/map_utils.py:116 | the longest run of word characters at the end of the name |
| MapUtils.SplitLast | utils/map_utils.py:115 | the last piece of split('/') is the suffix after the last '/' and holds no '/' |
| MapUtils.WordSuffixAfterDot | utils/map_utils.py:116 | the word suffix of base.ext is ext |
| MapUtils.StripExtensionOf | utils/map_utils.py:116 | a word extension after the last dot is removed |
| MapUtils.NormalizePath | utils/map_utils.py:99-119 | a path dir/base.ext normalises to base |
| MapUtils.StripExtensionBeforeNewline | utils/map_utils.py:116 | `$` also matches before a final newline, so the extension is removed and the newline kept |
| MapUtils.NormalizeTownName | utils/map_utils.py:111-119 | the empty name is returned as is, and no normalised name holds '/' |
| MapUtils.NormalizePlain | utils/map_utils.py:111-119 | a non-empty name without '.' or '/' normalises to itself, bare or after any directories |
| MapUtils.NormalizeBareExample | utils/map_utils.py:104 | 'Town10HD' normalises to 'Town10HD' |
| MapUtils.NormalizeRelativeMapPath | utils/map_utils.py:105 | 'Carla/Maps/' followed by a plain town name, such as Town05, normalises to that name |
| MapUtils.NormalizeAbsoluteMapPath | utils/map_utils.py:106 | '/Game/Carla/Maps/' followed by a plain town name, such as Town04, normalises to that name |
| MapUtils.StripExtensionKeeps | utils/map_utils.py:116 | a name without '.' has no extension to remove and is unchanged |
| MapUtils.StripExtension | utils/map_utils.py:116 | removing the extension never lengthens the name |
| MapUtils.StripExtensionShape | utils/map_utils.py:116 | removing the extension adds no character |
| MapUtils.TownKeyForGt | utils/map_utils.py:122-130 | Town10HD maps to Town10; every other name maps to its normal form |
| MapUtils.TownSlug | utils/map_utils.py:133-139 | the slug is the normal form with every character lower-cased, so it has no upper-case letter and no '/' |
| MapUtils.MakeSegmentName | utils/map_utils.py:142-150 | the segment name holds no '/' and is at least "segment-", the slug, "-" and three digits long |
| MapUtils.SegmentNameParts | utils/map_utils.py:142-150 | "segment-" + slug + "-" + at least three digits that read back as the episode index |
| MapUtils.SegmentNamesDistinct | utils/map_utils.py:142-150 | different episodes of a town get different segment names |
| MapUtils.TownItems | utils/map_utils.py:160 | no more items than comma-separated pieces, and no item exactly when every piece is blank |
| MapUtils.TownItemsMembers | utils/map_utils.py:160 | a name is an item exactly when some non-blank piece strips and normalises to it |
| MapUtils.TownItemsOne | utils/map_utils.py:160 | one piece gives its stripped, normalised text, or nothing when it is blank |
| MapUtils.TownItemsAppend | utils/map_utils.py:160 | the items of two runs of pieces are those of the first followed by those of the second, so items keep piece order |
| MapUtils.ParseTownsArg | utils/map_utils.py:153-161 | never empty; None, or an argument whose comma-separated pieces are all blank (the empty string included), gives the normalised fallback town |
| MapUtils.TownItemsOfClean | utils/map_utils.py:160 | clean names pass through the strip-filter-normalise step unchanged |
| Text.JoinSplit | utils/map_utils.py:160 | splitting a join of separator-free pieces gives back the pieces |
| MapUtils.ParseTownsArgRoundTrip | utils/map_utils.py:153-161 | a comma-joined list of clean town names parses back to that list |
| MapUtils.ParseTownsArgFallback | utils/map_utils.py:156-161 | None, the empty string and " , " give the normalised fallback town |
| MapUtils.ParseTownsArgPlain | utils/map_utils.py:153-161 | a list such as "Town10HD,Town04,Town05", plain names joined by commas, parses back to the same names |
| MapUtils.CleanPlainName | utils/map_utils.py:111-119 | a name without '.', '/' or ',' and not blank at either end is read back unchanged |
| MapUtils.PickTownForEpisode | utils/map_utils.py:164-188 | an empty list raises; otherwise a town of the list; round-robin picks the (episode - start) mod n-th |
| MapUtils.RoundRobinInOrder | utils/map_utils.py:186-188 | episodes start, start+1, … visit the towns in list order |
| MapUtils.RoundRobinPeriodic | utils/map_utils.py:186-188 | round-robin repeats with the list's length as period |
| MapUtils.CountMap | utils/map_utils.py:215-218 | a road has an entry exactly when some table entry lists it |
| MapUtils.TownClass | utils/map_utils.py:15-33 | a town class exists exactly for the advertised names other than Town10HD |
| MapUtils.FastLaneCount | utils/map_utils.py:224-231 | -1 for an unknown town or a road no entry lists; otherwise the count of an entry of the town's table that lists the road |
| MapUtils.FastIsBad | utils/map_utils.py:234-241 | true exactly when the town has a table whose bad-road list holds the road |
| MapUtils.AddIds | utils/map_utils.py:217-218 | every listed road maps to the count; other roads keep their entries |
| MapUtils.CountMapAgrees | utils/map_utils.py:215-218 | with no road listed twice, the dictionary agrees with the first-match search |
| MapUtils.BuildCountMap | utils/map_utils.py:215-218 | the building loops compute the dictionary of all entries, later entries overwriting |
| MapUtils.TownCache.constructor | utils/map_utils.py:196-197 | both caches start empty |
| MapUtils.TownCache.BuildCacheForTown | utils/map_utils.py:200-221 | a cached key is left alone; otherwise the key gets its table's dictionary and bad-road set, or empty ones without a table |
| MapUtils.TownCache.GetGtLaneCountFast | utils/map_utils.py:224-231 | builds the cache (a cached town is left alone; otherwise exactly its key is added to both caches), then returns the cached count or -1 |
| MapUtils.TownCache.IsBadRoadIdFast | utils/map_utils.py:234-241 | builds the cache (a cached town is left alone; otherwise exactly its key is added to both caches), then returns whether the road is in the cached bad set |
| MapUtils.FastUnknownTown | utils/map_utils.py:208-211 | a town without a table gives -1 and false, where the slow look-ups raise |
| MapUtils.FastAgreesWithSlow | utils/map_utils.py:224-241 | for a normalised known town the fast bad-road answer equals the slow one, and the fast count too when no road is listed twice |
| Common.PrefixSlice | utils/common.py:37 | Python's name[:k]: a prefix of length k, clamped, with negative k counting from the end |
| Common.Truncate | utils/common.py:37 | a fitting name is unchanged; a longer one becomes its first truncate-1 characters and an ellipsis, exactly truncate long |
| Common.TruncateNonPositive | utils/common.py:37 | with a non-positive limit the name loses only its last characters, as Python's negative slice does |
| Common.RawDisplayName | utils/common.py:36 | the display name holds no '.' and no '_'; a type id with neither gives the empty name |
| Common.RawDisplayNameOf | utils/common.py:36 | the display name of "p.w1.w2..." (pieces without '.' or '_') is w1, w2, ... each title-cased, joined by spaces |
| Common.GetActorDisplayName | utils/common.py:36-37 | a name that fits is returned unchanged; a longer one, with a positive limit, becomes its first truncate - 1 characters and an ellipsis; with a positive limit the result is at most that long; it holds no '.' and no '_' |
| Progress.Stem | main.py:31-32 | the stem is the text before the first '.' of the file name (all of it when there is none) |
| Progress.Stems | main.py:31-32 | exactly the stems of the listed files with the extension |
| Progress.IdValues | main.py:44 | exactly the integers the ids stand for; non-empty for non-empty ids |
| Progress.LargestOfInsert | main.py:44 | the larger of a new element and the old maximum is the new maximum |
| Progress.LargestExists | main.py:44 | every non-empty finite set of integers has a maximum |
| Progress.Largest | main.py:44 | max() is an element not exceeded by any other |
| Progress.ExistingProgress | main.py:22-50 | a missing directory means starting at frame 0; with all complete frames numeric, the next id is above every one of them |
| Progress.NextFrameId | main.py:38-48 | no complete frame gives 0; with numeric ids the next id is above every id |
| Progress.ProgressNoCompleteFrame | main.py:31-39 | with no frame having both its image and its label, the run starts at 0 |
| Progress.ProgressAfterLargest | main.py:41-45 | with numeric ids, the next id is one past some complete frame's number and above all of them |
| Progress.ProgressFallsBackToCount | main.py:43-48 | when some complete frame's name is not a number, the next id is the number of complete frames |
| Progress.FileId | main.py:333 | the id has at least six characters, all digits |
| Progress.FileIdParses | main.py:333 | int() reads a file id back as its frame number |
| Progress.WrittenNames | main.py:339-342 | one name per frame: its id followed by the extension |
| Progress.StemOfWritten | main.py:31-32 | the stem of a written name is its frame's id |
| Progress.WrittenIds | main.py:333 | exactly the ids of the frames written |
| Progress.WrittenEndsWith | main.py:339-342 | a written name carries its extension |
| Progress.WrittenNameAt | main.py:339-342 | each written name has its frame's id as stem and carries the extension |
| Progress.StemsOfWrittenSub | main.py:31-32 | every stem found among the written names is a written frame's id |
| Progress.StemsOfWrittenSuper | main.py:31-32 | every written frame's id is found among its names |
| Progress.StemsOfWritten | main.py:31-32 | the stems found among the names written with one extension are the written ids |
| Progress.ValidIdsOfWritten | main.py:31-35 | the complete frames found on disk are exactly the frames written with both files |
| Progress.RunIdsParse | main.py:44 | the ids of a run of n frames read as numbers below n |
| Progress.NextIdOfRun | main.py:41-45 | after frames 0..n-1 the next id is n |
| Progress.ResumeAfterWrittenRun | main.py:22-50 | resuming after a run that wrote frames 0..n-1 continues at frame n |
| Text.Lower | utils/map_utils.py:139 | str.lower: same length, each character lower-cased |
| Text.Title | utils/common.py:36 | str.title: same length, each character upper-cased at the start of a cased run and lower-cased inside one |
| Text.TitleCasing | utils/common.py:36 | a cased character stays cased and is upper exactly at the start of a cased run; other characters are unchanged |
| Text.Strip | utils/map_utils.py:160 | str.strip: no longer than the input, and neither starts nor ends with a space |
| Text.StripSlice | utils/map_utils.py:160 | str.strip removes exactly the leading and trailing spaces |
| Text.Split | utils/common.py:36 | str.split(sep) gives one more piece than the separator occurs |
| Text.SplitPiecesFree | utils/map_utils.py:115 | no piece holds the separator |
| Text.SplitFirst | utils/common.py:36 | the first piece is the prefix before the first separator; a string without it splits into itself |
| Text.SplitAppend | utils/map_utils.py:115 | splitting x + sep + y, with no sep in y, adds y as the last piece |
| Text.Join | utils/common.py:36 | str.join starts with the first piece |
| Text.SplitJoin | utils/map_utils.py:160 | joining the pieces of a split with the same separator gives back the string |
| Text.FormatPadded | utils/map_utils.py:150 | at least width characters, all digits except a leading '-' exactly for a negative number |
| Text.FormatPaddedNonNegative | utils/map_utils.py:150 | a non-negative number is written with digits only, and they read back as the number |
| Text.FormatPaddedNegative | utils/map_utils.py:150 | a negative number is a '-' followed by its magnitude padded one narrower |
| Text.NatToDecimalValue | main.py:333 | the decimal writing of n reads back as n |
| Text.ParseInt | main.py:44 | int() of a blank string fails; a negative result has a leading '-' |
| Text.ParseIntOfDigits | main.py:44 | int() of a string of digits is its decimal value |
| Text.ParseIntOfDecimal | main.py:44 | int() reads the decimal writing of n as n, and fails on the empty string |

## Left out

- Projection.ProjectPoint: requires `zmin >= 0`. With a negative zmin, a point at depth exactly 0 would divide by zero, where numpy gives inf or NaN; the source calls it only with zmin = 0.1.
- Projection.ProjectGroundToUv: requires `zmin >= 0`, for the same reason.
- Floating point: every computation is over exact reals. The float32 casts of the stored uv, flags and xyz are not modelled, and neither are NaN and inf arithmetic.
- `np.linalg.inv` of a matrix that is not singular is modelled by the rigid inverse. That is the numeric inverse when the rotation is orthonormal and the last row is [0, 0, 0, 1]. This is proved for the constant matrices, and the poses reported by the simulator are taken as rigid. Singularity is decided in exact arithmetic, with determinant zero. LAPACK's floating-point pivot test, which can differ for nearly singular matrices, is not modelled.
- Validate.ReprojectPoint: inverts E with the rigid inverse. For an extrinsic read from a file that is invertible but not rigid, np.linalg.inv(E) differs, and the pixel is not modelled. Validate.ReprojectionAgrees is stated for orthonormal stored rotations only. The reprojection statistics are inputs of the decision in any case.
- The focal length of `build_projection_matrix` is a parameter. The `tan` of the field of view is not modelled.
- CARLA itself is not modelled: the map, waypoints and their `next`/`previous` and neighbouring lanes are a `RoadGraph` parameter. Actor spawning, the listen callback, weak references and the truthiness of CARLA objects are also outside the model.
- Threads and queue timeouts are not modelled. A sensor queue is a sequence, and a timeout is the empty queue.
- `raw_data` reshaping is not modelled. Pixels arrive as rows of (channel 0, 1, 2), with alpha dropped.
- Validator statistics:
  - The reprojection error, percentiles, y non-monotonicity ratio, x/y ranges, z statistics and vis/uv mismatch of `validate_frame` are taken as inputs of the decision. They are not computed from the lanes.
  - The report's floating-point fields and `save_report` are not modelled.
  - The optional in-bounds check (computed and never used) is not modelled.
- `np.argsort` is not stable. The model sorts with a stable insertion sort, so points of equal y may come out in another order than numpy's.
- Random draws are parameters. These are `random.random()` in the balancer and `rng.choice` in random town scheduling, which is only constrained to pick a town of the list.
- Strings are ASCII for `title`, `lower`, `strip` and `\w`; Unicode case mapping and whitespace are not modelled.
- `normalize_town_name(None)` is not modelled.
- Directory listings are parameters, and `None` stands for a missing directory. A path that exists but is not a directory, and listing errors, are not modelled.
- `target_frames` of `_get_existing_progress` is unused and not modelled.
- Attribute look-ups in the town module (`getattr`, `hasattr`) only find the six town tables. Other module attributes with a town-like name are not modelled.
- MapUtils.FastAgreesWithSlow: the fast lane count is proved equal to the slow one only for tables where no road is listed under two counts. That this holds for each shipped table is not proved.
- A frame file whose top level is not a JSON object (so that reading `frame["intrinsic"]` raises TypeError) is not modelled; a frame is a record of optional fields.
- MapUtils.StripExtension: its own contract states only that the name does not grow. A word extension after a dot is removed (MapUtils.StripExtensionOf, also before a final newline by MapUtils.StripExtensionBeforeNewline), a name without '.' is unchanged (MapUtils.StripExtensionKeeps), and no character is added (MapUtils.StripExtensionShape). That a name whose last '.' is followed by a non-word character, such as "a.b-c", is left unchanged is not stated.
- Generator.VehicleToWorld: its own contract states only where the camera's mounting position goes; the per-point meaning of the chain is stated by Generator.ApolloCamToGroundMeaning.
- Generator.GroundFromWorld: its own contract states only that the vehicle's position at road height goes to the ground origin; see Generator.ApolloCamToGroundMeaning.
- Generator.ApolloCamToGround: its own contract states E's translation; E on every point is stated by Generator.ApolloCamToGroundMeaning.
- Generator.FrameOf: its own contract states the record's path, intrinsic and extrinsic shape. Its lanes are stated by Generator.FrameContents (the de-duplicated lanes of the candidates) with Generator.LaneFor (which candidates yield a lane, and what it holds) and Generator.LanesOfMembers, Generator.LanesOfOne and Generator.LanesOfAppend (kept lanes, in candidate order).
- Generator.LanesOf: its own contract states only that there is at most one lane per candidate. Which lanes are kept, and their candidate order, are stated by Generator.LanesOfMembers, Generator.LanesOfOne and Generator.LanesOfAppend.
- Validate.LaneLoop: its own contract states only bounds on the totals. What each lane adds is stated by Validate.LaneLoopSnoc with Validate.LaneStepOfPoints and Validate.LaneStepWithoutXyz; the stop at the first exception by Validate.LaneLoopErrorPersists; the point total by Validate.LaneLoopPointCount.
- Text.Join: its own contract states only that the result starts with the first piece; the round trip with split is Text.SplitJoin.
- Text.FormatPaddedNegative: the zero-padded formatting of negative numbers is characterised by its shape only.
- Not part of this model:
  - the GUI, traffic and pedestrian population, weather control and the collection main loop beyond resuming and file naming;
  - `get_different_spawn_point`.

## Findings

| source | as written | input that shows it | evidently intended | confidence | as-written member | corrected member |
|---|---|---|---|---|---|---|
| tools/batch_validate_openlane.py:85-97, 197 with core/generator.py:326-340 | The validator recovers ground points with the stored extrinsic as E. The generator stores a rotation re-expressed for the downstream preprocessing (R_json), not E's rotation. | A level camera at height h (E rotation = R_gc, translation (0, 0, h)) stores the identity rotation. The road point (x, y, 0) is seen at camera point (x, h, y) and recovered as (x, h, y + h). | Recover with the rotation the preprocessing derives from the stored one, which gives back (x, y, 0) | medium, not executed | Validate.LevelCameraStoredIdentity, Validate.IdentityStoredRecovers, Validate.LevelCameraSees, Validate.LevelCameraRecoveredPoint, Validate.LevelCameraLaneGrounds | Validate.RecoveryExtrinsic, Validate.CorrectedGroundRoundTrip |

The validator's lane loop in this model (`Validate.LaneStep`,
`Validate.RunLaneLoop`, `Validate.ValidateFrame`) recovers ground points with
the stored extrinsic, as line 197 does. `Validate.LevelCameraLaneGrounds`
shows the lane loop itself returning (x, h, y + h) for a level camera's road
points. `Validate.RecoveryExtrinsic` with `Validate.CorrectedGroundRoundTrip`
is the corrected recovery; the ground points only feed the statistics, which
the decision takes as inputs, so the correction changes no modelled report.
The reprojection check is unaffected by the
discrepancy: `Validate.ReprojectionAgrees` shows that recovery and
reprojection with the same stored matrix land on the generator's pixel,
whatever matrix is stored.

=== FILE: common.dfy ===
// The display name of a simulator actor: its type id with '_' read as '.',
// title-cased, without the first dotted segment, the rest joined by spaces,
// and cut to a maximum length with an ellipsis.

module Common {
  import opened Text

  const Ellipsis: char := '\U{2026}'

  /** Python's s[:k]: a negative k counts from the end, and both ends are clamped. */
  function PrefixSlice(s: string, k: int): (r: string)
    ensures r <= s
    ensures 0 <= k <= |s| ==> |r| == k
    ensures k < 0 ==> |r| == if |s| + k < 0 then 0 else |s| + k
  {
    if k >= |s| then s
    else if k >= 0 then s[..k]
    else if |s| + k < 0 then []
    else s[..|s| + k]
  }

  /** The name before truncation: ' '.join(type_id.replace('_', '.').title().split('.')[1:]). */
  function RawDisplayName(typeId: string): (name: string)
    ensures '.' !in name && '_' !in name
    ensures '.' !in typeId && '_' !in typeId ==> name == ""
  {
    var titled := Title(ReplaceChar(typeId, '_', '.'));
    assert forall i :: 0 <= i < |titled| ==> titled[i] != '_';
    PiecesAfterFirstClean(titled);
    if '.' !in typeId && '_' !in typeId then
      assert '.' !in titled;
      SplitFirst(titled, '.');
      Join(Split(titled, '.')[1..], " ")
    else
      Join(Split(titled, '.')[1..], " ")
  }

  /** The truncation step: the name when it fits, else its first truncate - 1
      characters and an ellipsis. */
  function Truncate(name: string, truncate: int): (r: string)
    ensures |name| <= truncate ==> r == name
    ensures |name| > truncate >= 1 ==> |r| == truncate && r[..truncate - 1] == name[..truncate - 1] && r[truncate - 1] == Ellipsis
    ensures truncate >= 1 ==> |r| <= truncate
  {
    if |name| > truncate then PrefixSlice(name, truncate - 1) + [Ellipsis] else name
  }

  /** get_actor_display_name. */
  function GetActorDisplayName(typeId: string, truncate: int): (display: string)
    ensures |RawDisplayName(typeId)| <= truncate ==> display == RawDisplayName(typeId)
    ensures |RawDisplayName(typeId)| > truncate >= 1 ==>
              display == RawDisplayName(typeId)[..truncate - 1] + [Ellipsis]
    ensures truncate >= 1 ==> |display| <= truncate
    ensures '.' !in display && '_' !in display
  {
    var name := RawDisplayName(typeId);
    var r := Truncate(name, truncate);
    assert forall c :: c in PrefixSlice(name, truncate - 1) ==> c in name;
    assert |name| > truncate >= 1 ==> r == name[..truncate - 1] + [Ellipsis];
    r
  }

  /** The display name of "p.w1.w2...": the pieces after the first, each
      title-cased, joined by spaces, for pieces without '.' or '_'. */
  lemma RawDisplayNameOf(p: string, ws: seq<string>)
    requires '.' !in p && '_' !in p
    requires forall i :: 0 <= i < |ws| ==> '.' !in ws[i] && '_' !in ws[i]
    ensures RawDisplayName(p + "." + Join(ws, ".")) == Join(TitleEach(ws), " ")
  {
    if ws == [] {
      RawDisplayNameOfBare(p);
    } else {
      RawDisplayNameOfWords(p, ws);
    }
  }

  /** "p." has no words after the first piece. */
  lemma RawDisplayNameOfBare(p: string)
    requires '.' !in p && '_' !in p
    ensures RawDisplayName(p + "." + Join([], ".")) == ""
  {
    assert p + "." + Join([], ".") == Join([p, []], ".");
    RawDisplayNameOfParts([p, []]);
    assert TitleEach([p, []])[1..] == [[]];
  }

  lemma RawDisplayNameOfWords(p: string, ws: seq<string>)
    requires ws != []
    requires '.' !in p && '_' !in p
    requires forall i :: 0 <= i < |ws| ==> '.' !in ws[i] && '_' !in ws[i]
    ensures RawDisplayName(p + "." + Join(ws, ".")) == Join(TitleEach(ws), " ")
  {
    var parts := [p] + ws;
    JoinCons(p, ws, ".");
    assert forall i :: 0 <= i < |parts| ==> '.' !in parts[i] && '_' !in parts[i] by {
      forall i | 0 <= i < |parts| ensures '.' !in parts[i] && '_' !in parts[i] {
        if i > 0 { assert parts[i] == ws[i - 1]; }
      }
    }
    RawDisplayNameOfParts(parts);
    TitleEachTail(p, ws);
  }

  /** The display name of a type id joined from at least two '.'- and
      '_'-free pieces is every piece after the first, title-cased, joined by
      spaces. */
  lemma RawDisplayNameOfParts(parts: seq<string>)
    requires |parts| >= 2
    requires forall i :: 0 <= i < |parts| ==> '.' !in parts[i] && '_' !in parts[i]
    ensures RawDisplayName(Join(parts, ".")) == Join(TitleEach(parts)[1..], " ")
  {
    JoinAvoids(parts, ".", '_');
    RawDisplayNameClean(Join(parts, "."));
    TitleJoin(parts);
    TitleEachKeepsDots(parts);
    JoinSplit(TitleEach(parts), '.');
  }

  /** A character found in no piece and not in the separator is not in the join. */
  lemma JoinAvoids(parts: seq<string>, sep: string, x: char)
    requires x !in sep
    requires forall i :: 0 <= i < |parts| ==> x !in parts[i]
    ensures x !in Join(parts, sep)
  {
    if x in Join(parts, sep) {
      JoinChars(parts, sep, x);
    }
  }

  /** Title-casing each piece adds no '.' to any of them. */
  lemma TitleEachKeepsDots(parts: seq<string>)
    requires forall i :: 0 <= i < |parts| ==> '.' !in parts[i]
    ensures forall i :: 0 <= i < |parts| ==> '.' !in TitleEach(parts)[i]
  {
    forall i | 0 <= i < |parts| ensures '.' !in TitleEach(parts)[i] {
      TitleKeepsDots(parts[i]);
    }
  }

  /** Without '_' the replacement changes nothing. */
  lemma RawDisplayNameClean(typeId: string)
    requires '_' !in typeId
    ensures RawDisplayName(typeId) == Join(Split(Title(typeId), '.')[1..], " ")
  {
    assert ReplaceChar(typeId, '_', '.') == typeId;
  }

  /** A name longer than a non-positive limit is not cut to the limit: Python's
      negative slice keeps all but the last characters. */
  lemma TruncateNonPositive(name: string, truncate: int)
    requires truncate <= 0 < |name| + truncate
    ensures |Truncate(name, truncate)| == |name| + truncate
  {}

  /** Every character of a join comes from a piece or from the separator. */
  lemma {:induction false} JoinChars(parts: seq<string>, sep: string, c: char)
    requires c in Join(parts, sep)
    ensures c in sep || exists i :: 0 <= i < |parts| && c in parts[i]
  {
    if |parts| > 1 {
      var init := parts[..|parts| - 1];
      var j := Join(init, sep);
      if c in j && c !in sep {
        JoinChars(init, sep, c);
        var i :| 0 <= i < |init| && c in init[i];
        assert parts[i] == init[i];
      } else if c !in sep {
        assert Join(parts, sep) == j + sep + parts[|parts| - 1];
        assert c in parts[|parts| - 1];
      }
    }
  }

  /** The pieces after the first of a text without '_', joined by spaces, hold
      no '.' and no '_': the dots separate the pieces. */
  lemma PiecesAfterFirstClean(titled: string)
    requires '_' !in titled
    ensures var name := Join(Split(titled, '.')[1..], " ");
            '.' !in name && '_' !in name
  {
    var parts := Split(titled, '.')[1..];
    SplitPiecesFree(titled, '.');
    SplitPiecesChars(titled, '.');
    forall c | c in Join(parts, " ") ensures c != '.' && c != '_' {
      JoinChars(parts, " ", c);
      if c !in " " {
        var i :| 0 <= i < |parts| && c in parts[i];
        assert parts[i] in Split(titled, '.');
      }
    }
  }

  /** Every character of a piece of split(sep) comes from the split text. */
  lemma {:induction false} SplitPiecesChars(s: string, sep: char)
    ensures forall p, c :: p in Split(s, sep) && c in p ==> c in s
  {
    if s != [] {
      var init := Split(s[..|s| - 1], sep);
      SplitPiecesChars(s[..|s| - 1], sep);
      var c := s[|s| - 1];
      forall p, d | p in Split(s, sep) && d in p ensures d in s {
        if c == sep {
          if p != [] {
            assert p in init;
            assert d in s[..|s| - 1];
          }
        } else if p == init[|init| - 1] + [c] {
          if d != c {
            assert init[|init| - 1] in init;
            assert d in s[..|s| - 1];
          }
        } else {
          assert p in init[..|init| - 1];
          assert p in init;
          assert d in s[..|s| - 1];
        }
      }
    }
  }
}

=== FILE: frames.dfy ===
// The fixed axis-convention matrices of the lane generator and the
// re-expression of the extrinsic rotation for the downstream preprocessing.
//
// Frames: Vehicle (CARLA: x forward, y right, z up); Ground (x right,
// y forward, z up); CARLA camera (x forward, y right, z up); Apollo camera
// (x right, y down, z forward); OpenLane camera (x forward, y left, z up).
//
// Products of two constant matrices are proved through lemmas that state
// the product of each constant with an arbitrary matrix: the solver handles
// those far better than products of literals.

module Frames {
  import opened LinAlg

  const SwapRot: Mat3 := Mat3(Vec3(0.0, 1.0, 0.0), Vec3(1.0, 0.0, 0.0), Vec3(0.0, 0.0, 1.0))
  const CarlaToApolloRot: Mat3 := Mat3(Vec3(0.0, 1.0, 0.0), Vec3(0.0, 0.0, -1.0), Vec3(1.0, 0.0, 0.0))
  const ApolloToOpenLaneRot: Mat3 := Mat3(Vec3(0.0, 0.0, 1.0), Vec3(-1.0, 0.0, 0.0), Vec3(0.0, -1.0, 0.0))

  /** Vehicle -> Ground: swaps x and y, keeps z. */
  const SwapVehicleToGround: Affine := Affine(SwapRot, Zero)

  /** CARLA camera -> Apollo camera. */
  const CarlaCamToApolloCam: Affine := Affine(CarlaToApolloRot, Zero)

  /** Apollo camera -> OpenLane camera. */
  const ApolloToOpenLane: Affine := Affine(ApolloToOpenLaneRot, Zero)

  /** OpenLane camera -> Apollo camera: the inverse of ApolloToOpenLane, which
      the generator and the validator obtain with a numeric matrix inverse. */
  const OpenLaneToApollo: Affine := Affine(Transpose(ApolloToOpenLaneRot), Zero)

  /** Apollo camera -> CARLA camera: the inverse of CarlaCamToApolloCam. */
  const ApolloCamToCarlaCam: Affine := Affine(Transpose(CarlaToApolloRot), Zero)

  /** The swap exchanges the forward and lateral coordinates. */
  lemma SwapVehicleToGroundApply(p: Vec3)
    ensures Apply(SwapVehicleToGround, p) == Vec3(p.y, p.x, p.z)
  {}

  /** CARLA camera (X fwd, Y right, Z up) to Apollo camera: (X, Y, Z) goes to (Y, -Z, X). */
  lemma CarlaCamToApolloCamApply(p: Vec3)
    ensures Apply(CarlaCamToApolloCam, p) == Vec3(p.y, -p.z, p.x)
  {}

  /** Apollo camera to OpenLane camera: (x, y, z) goes to (z, -x, -y). */
  lemma ApolloToOpenLaneApply(p: Vec3)
    ensures Apply(ApolloToOpenLane, p) == Vec3(p.z, -p.x, -p.y)
  {}

  lemma OpenLaneToApolloApply(p: Vec3)
    ensures Apply(OpenLaneToApollo, p) == Vec3(-p.y, -p.z, p.x)
  {}

  /** OpenLane -> Apollo undoes Apollo -> OpenLane on every point. */
  lemma OpenLaneRoundTrip(p: Vec3)
    ensures Apply(OpenLaneToApollo, Apply(ApolloToOpenLane, p)) == p
  {
    ApolloToOpenLaneApply(p);
    OpenLaneToApolloApply(Apply(ApolloToOpenLane, p));
  }

  lemma ApolloCamToCarlaCamApply(p: Vec3)
    ensures Apply(ApolloCamToCarlaCam, p) == Vec3(p.z, p.x, -p.y)
  {}

  // Products of each constant with an arbitrary matrix.

  lemma SwapLeft(t: Mat3)
    ensures MatMul(SwapRot, t) == Mat3(t.r1, t.r0, t.r2)
  {}

  lemma SwapRight(t: Mat3)
    ensures MatMul(t, SwapRot) == Mat3(Vec3(t.r0.y, t.r0.x, t.r0.z), Vec3(t.r1.y, t.r1.x, t.r1.z), Vec3(t.r2.y, t.r2.x, t.r2.z))
  {}

  lemma CarlaToApolloLeft(t: Mat3)
    ensures MatMul(CarlaToApolloRot, t) == Mat3(t.r1, Neg(t.r2), t.r0)
  {}

  lemma CarlaToApolloRight(t: Mat3)
    ensures MatMul(t, CarlaToApolloRot) == Mat3(Vec3(t.r0.z, t.r0.x, -t.r0.y), Vec3(t.r1.z, t.r1.x, -t.r1.y), Vec3(t.r2.z, t.r2.x, -t.r2.y))
  {}

  lemma ApolloToOpenLaneLeft(t: Mat3)
    ensures MatMul(ApolloToOpenLaneRot, t) == Mat3(t.r2, Neg(t.r0), Neg(t.r1))
  {}

  lemma ApolloToOpenLaneRight(t: Mat3)
    ensures MatMul(t, ApolloToOpenLaneRot) == Mat3(Vec3(-t.r0.y, -t.r0.z, t.r0.x), Vec3(-t.r1.y, -t.r1.z, t.r1.x), Vec3(-t.r2.y, -t.r2.z, t.r2.x))
  {}

  lemma SwapRotOrthonormal()
    ensures Orthonormal(SwapRot)
  {
    SwapLeft(Transpose(SwapRot));
    SwapRight(Transpose(SwapRot));
  }

  lemma CarlaToApolloRotOrthonormal()
    ensures Orthonormal(CarlaToApolloRot)
  {
    CarlaToApolloLeft(Transpose(CarlaToApolloRot));
    CarlaToApolloRight(Transpose(CarlaToApolloRot));
  }

  lemma ApolloToOpenLaneRotOrthonormal()
    ensures Orthonormal(ApolloToOpenLaneRot)
  {
    var t := Mat3(Vec3(0.0, -1.0, 0.0), Vec3(0.0, 0.0, -1.0), Vec3(1.0, 0.0, 0.0));
    assert Transpose(ApolloToOpenLaneRot) == t;
    ApolloToOpenLaneLeft(t);
    ApolloToOpenLaneRight(t);
  }

  /** The vehicle/ground swap is its own inverse. */
  lemma SwapVehicleToGroundIsInvolution()
    ensures Compose(SwapVehicleToGround, SwapVehicleToGround) == Identity4
  {
    SwapLeft(SwapRot);
    MatVecZero(SwapRot);
  }

  /** ApolloCamToCarlaCam is the exact two-sided inverse of CarlaCamToApolloCam. */
  lemma CarlaApolloCamInverse()
    ensures Compose(ApolloCamToCarlaCam, CarlaCamToApolloCam) == Identity4
    ensures Compose(CarlaCamToApolloCam, ApolloCamToCarlaCam) == Identity4
  {
    CarlaToApolloRotOrthonormal();
    LinearInverseCompose(CarlaToApolloRot);
  }

  /** OpenLaneToApollo is the exact two-sided inverse of ApolloToOpenLane. */
  lemma OpenLaneApolloInverse()
    ensures Compose(OpenLaneToApollo, ApolloToOpenLane) == Identity4
    ensures Compose(ApolloToOpenLane, OpenLaneToApollo) == Identity4
  {
    ApolloToOpenLaneRotOrthonormal();
    LinearInverseCompose(ApolloToOpenLaneRot);
  }

  /** np.linalg.inv of the swap is the swap itself. */
  lemma SwapInverse()
    ensures RigidInverse(SwapVehicleToGround) == SwapVehicleToGround
  {
    RigidInverseOfRotation(SwapRot);
    assert Transpose(SwapRot) == SwapRot;
  }

  /** np.linalg.inv of the CARLA-to-Apollo camera swap is ApolloCamToCarlaCam. */
  lemma CarlaCamToApolloCamInverse()
    ensures RigidInverse(CarlaCamToApolloCam) == ApolloCamToCarlaCam
  {
    RigidInverseOfRotation(CarlaToApolloRot);
  }

  /** np.linalg.inv of T_A2O, the generator's T_O2A, is OpenLaneToApollo. */
  lemma ApolloToOpenLaneInverse()
    ensures RigidInverse(ApolloToOpenLane) == OpenLaneToApollo
  {
    RigidInverseOfRotation(ApolloToOpenLaneRot);
  }

  // ---------------------------------------------------------------------
  // Extrinsic re-expression for the downstream preprocessing, which
  // computes R_final = inv(R_vg) . R_json . R_vg . R_gc.

  const Rvg: Mat3 := Mat3(Vec3(0.0, 1.0, 0.0), Vec3(-1.0, 0.0, 0.0), Vec3(0.0, 0.0, 1.0))
  const Rgc: Mat3 := Mat3(Vec3(1.0, 0.0, 0.0), Vec3(0.0, 0.0, 1.0), Vec3(0.0, -1.0, 0.0))

  lemma RvgLeft(t: Mat3)
    ensures MatMul(Rvg, t) == Mat3(t.r1, Neg(t.r0), t.r2)
  {}

  lemma RvgRight(t: Mat3)
    ensures MatMul(t, Rvg) == Mat3(Vec3(-t.r0.y, t.r0.x, t.r0.z), Vec3(-t.r1.y, t.r1.x, t.r1.z), Vec3(-t.r2.y, t.r2.x, t.r2.z))
  {}

  lemma RgcLeft(t: Mat3)
    ensures MatMul(Rgc, t) == Mat3(t.r0, t.r2, Neg(t.r1))
  {}

  lemma RgcRight(t: Mat3)
    ensures MatMul(t, Rgc) == Mat3(Vec3(t.r0.x, -t.r0.z, t.r0.y), Vec3(t.r1.x, -t.r1.z, t.r1.y), Vec3(t.r2.x, -t.r2.z, t.r2.y))
  {}

  /** The inverses the generator takes of R_vg and R_gc are their transposes. */
  lemma FixedRotationsOrthonormal()
    ensures Orthonormal(Rvg) && Orthonormal(Rgc)
  {
    RvgLeft(Transpose(Rvg));
    RvgRight(Transpose(Rvg));
    RgcLeft(Transpose(Rgc));
    RgcRight(Transpose(Rgc));
  }

  /** The preprocessing reads a stored identity rotation as R_gc. */
  lemma IdentityReadAsRgc()
    ensures MatMul(MatMul(MatMul(Transpose(Rvg), Identity3), Rvg), Rgc) == Rgc
  {
    var tr := Transpose(Rvg);
    MatMulIdentityRight(tr);
    TransposeRvgRvg();
    MatMulIdentityLeft(Rgc);
  }

  lemma TransposeRvgRvg()
    ensures MatMul(Transpose(Rvg), Rvg) == Identity3
  {
    RvgRight(Transpose(Rvg));
  }

  /** The rotation the preprocessing derives from a stored rotation. */
  function ConsumerRotation(stored: Mat3): (target: Mat3)
    ensures stored == Identity3 ==> target == Rgc
  {
    IdentityReadAsRgc();
    MatMul(MatMul(MatMul(Transpose(Rvg), stored), Rvg), Rgc)
  }

  /** R_json = R_vg . R_target . inv(R_gc) . inv(R_vg), evaluated left to right;
      the preprocessing recovers the target rotation from it. */
  function ReexpressRotation(target: Mat3): (stored: Mat3)
    ensures ConsumerRotation(stored) == target
  {
    MatMul(MatMul(MatMul(Rvg, target), Transpose(Rgc)), Transpose(Rvg))
  }

  /** The extrinsic written to the record: re-expressed rotation, translation copied. */
  function CompatibleExtrinsic(e: Affine): (stored: Affine)
    ensures stored.trans == e.trans
  {
    Affine(ReexpressRotation(e.rot), e.trans)
  }

  /** Re-expressing a rotation keeps its determinant: R_vg, inv(R_gc) and inv(R_vg)
      only permute axes with one sign change each. */
  lemma {:induction false} ReexpressDet(target: Mat3)
    ensures Det(ReexpressRotation(target)) == Det(target)
  {
    var a := MatMul(Rvg, target);
    var b := MatMul(a, Transpose(Rgc));
    RvgLeftDet(target);
    TransposeRgcRightDet(a);
    TransposeRvgRightDet(b);
  }

  lemma RvgLeftDet(t: Mat3)
    ensures Det(MatMul(Rvg, t)) == Det(t)
  {
    RvgLeft(t);
  }

  lemma TransposeRgcRightDet(t: Mat3)
    ensures Det(MatMul(t, Transpose(Rgc))) == Det(t)
  {
    assert MatMul(t, Transpose(Rgc)) == Mat3(Vec3(t.r0.x, t.r0.z, -t.r0.y), Vec3(t.r1.x, t.r1.z, -t.r1.y), Vec3(t.r2.x, t.r2.z, -t.r2.y));
  }

  lemma TransposeRvgRightDet(t: Mat3)
    ensures Det(MatMul(t, Transpose(Rvg))) == Det(t)
  {
    assert MatMul(t, Transpose(Rvg)) == Mat3(Vec3(t.r0.y, -t.r0.x, t.r0.z), Vec3(t.r1.y, -t.r1.x, t.r1.z), Vec3(t.r2.y, -t.r2.x, t.r2.z));
  }

  /** The preprocessing recovers the camera-to-ground rotation from the stored extrinsic. */
  lemma CompatibleExtrinsicRecovered(e: Affine)
    ensures ConsumerRotation(CompatibleExtrinsic(e).rot) == e.rot
  {
    assert ConsumerRotation(ReexpressRotation(e.rot)) == e.rot;
  }

  /** Re-expression is injective: distinct targets are stored as distinct rotations. */
  lemma {:induction false} ReexpressInjective(a: Mat3, b: Mat3)
    requires ReexpressRotation(a) == ReexpressRotation(b)
    ensures a == b
  {
    assert ConsumerRotation(ReexpressRotation(a)) == a;
    assert ConsumerRotation(ReexpressRotation(b)) == b;
  }
}

=== FILE: generator.dfy ===
// Per-frame record assembly of the lane generator: the camera and ground
// poses, the candidate lane boundaries around the ego waypoint, the lanes
// that survive sampling and projection, de-duplication, and the extrinsic
// re-expressed for the downstream preprocessing.

module Generator {
  import opened Wrappers
  import opened Seqs
  import opened LinAlg
  import opened Frames
  import opened Marking
  import opened Monotonic
  import opened Projection
  import opened RoadSampler

  /** The generator's fixed camera intrinsics and image size. */
  datatype Camera = Camera(k: Mat3, w: int, h: int)

  /** One lane line of the record: OpenLane-camera points (one per column of
      the 3xN xyz array), their uv, visibility flags and category. */
  datatype LaneLine = LaneLine(xyz: seq<Vec3>, uv: seq<UV>, visibility: seq<real>, category: int)

  datatype FrameRecord = FrameRecord(
    laneLines: seq<LaneLine>,
    intrinsic: seq<seq<real>>,
    extrinsic: seq<seq<real>>,
    filePath: string)

  const EmptyRecord: FrameRecord := FrameRecord([], [], [], "")

  const MinPoints: nat := 5
  const MinVisible: real := 10.0
  const DedupGap: real := 0.2

  // ---------------------------------------------------------------------
  // Poses

  /** Vehicle -> world at capture time: T_w_c . inv(T_v_c). */
  function VehicleToWorld(twc: Affine, tvc: Affine): (twv: Affine)
    ensures Apply(twv, tvc.trans) == twc.trans
  {
    ApplyCompose(twc, RigidInverse(tvc), tvc.trans);
    InverseSendsOriginHome(tvc);
    MatVecZero(twc.rot);
    Compose(twc, RigidInverse(tvc))
  }

  /** World -> ground: the vehicle pose dropped to the road height, composed with
      inv(S_v2g), then inverted. inv(S_v2g) is S_v2g itself (Frames.SwapInverse). */
  function GroundFromWorld(twv: Affine, groundZ: real): (tgw: Affine)
    ensures Apply(tgw, Vec3(twv.trans.x, twv.trans.y, groundZ)) == Zero
  {
    var grounded := Affine(twv.rot, Vec3(twv.trans.x, twv.trans.y, groundZ));
    InverseSendsOriginHome(Compose(grounded, SwapVehicleToGround));
    RigidInverse(Compose(grounded, SwapVehicleToGround))
  }

  /** E_apollo_cam_to_ground: T_ground_w . T_w_c . inv(S_carlaCam2Apollo), where the
      inverse is ApolloCamToCarlaCam (Frames.CarlaCamToApolloCamInverse). */
  function ApolloCamToGround(tgw: Affine, twc: Affine): (e: Affine)
    ensures e.trans == Apply(tgw, twc.trans)
  {
    MatVecZero(twc.rot);
    Compose(tgw, Compose(twc, ApolloCamToCarlaCam))
  }

  /** E takes an Apollo-camera point to the CARLA camera, then to the world, then to the ground. */
  lemma {:induction false} ApolloCamToGroundMeaning(tgw: Affine, twc: Affine, p: Vec3)
    ensures Apply(ApolloCamToGround(tgw, twc), p) ==
            Apply(tgw, Apply(twc, Vec3(p.z, p.x, -p.y)))
  {
    ApolloCamToCarlaCamApply(p);
    ApplyCompose(twc, ApolloCamToCarlaCam, p);
    ApplyCompose(tgw, Compose(twc, ApolloCamToCarlaCam), p);
  }

  // ---------------------------------------------------------------------
  // Candidate boundaries

  /** The (waypoint, side) pairs examined: both boundaries of the ego lane, the
      left boundary of up to two lanes to the left and the right boundary of up
      to two lanes to the right. */
  function Candidates(g: RoadGraph, wp: Waypoint): (c: seq<(Waypoint, Side)>)
    ensures 2 <= |c| <= 6
    ensures c[0] == (wp, LeftSide) && c[1] == (wp, RightSide)
    ensures forall i :: 2 <= i < |c| ==>
              (c[i].1 == LeftSide ==>
                 Some(c[i].0) == g.leftLane(wp) ||
                 (g.leftLane(wp).Some? && Some(c[i].0) == g.leftLane(g.leftLane(wp).value))) &&
              (c[i].1 == RightSide ==>
                 Some(c[i].0) == g.rightLane(wp) ||
                 (g.rightLane(wp).Some? && Some(c[i].0) == g.rightLane(g.rightLane(wp).value)))
    // every existing neighbour is examined, left ones first, each nearer one before the next
    ensures var nl := NeighbourCount(g.leftLane, wp);
            var nr := NeighbourCount(g.rightLane, wp);
            |c| == 2 + nl + nr &&
            (nl >= 1 ==> c[2] == (g.leftLane(wp).value, LeftSide)) &&
            (nl == 2 ==> c[3] == (g.leftLane(g.leftLane(wp).value).value, LeftSide)) &&
            (nr >= 1 ==> c[2 + nl] == (g.rightLane(wp).value, RightSide)) &&
            (nr == 2 ==> c[3 + nl] == (g.rightLane(g.rightLane(wp).value).value, RightSide))
  {
    var left := match g.leftLane(wp)
      case None => []
      case Some(l1) =>
        [(l1, LeftSide)] + match g.leftLane(l1) case None => [] case Some(l2) => [(l2, LeftSide)];
    var right := match g.rightLane(wp)
      case None => []
      case Some(r1) =>
        [(r1, RightSide)] + match g.rightLane(r1) case None => [] case Some(r2) => [(r2, RightSide)];
    [(wp, LeftSide), (wp, RightSide)] + left + right
  }

  /** How many of the next two lanes on one side exist: the first, then the one
      beyond it. */
  function NeighbourCount(step: Waypoint -> Option<Waypoint>, wp: Waypoint): (n: nat)
    ensures n <= 2
    ensures n == 0 <==> step(wp).None?
    ensures n == 2 <==> step(wp).Some? && step(step(wp).value).Some?
  {
    match step(wp)
    case None => 0
    case Some(l1) => if step(l1).Some? then 2 else 1
  }

  // ---------------------------------------------------------------------
  // Lanes

  /** Ground -> Apollo camera -> OpenLane camera, the frame the record stores. */
  function GroundToOpenLane(e: Affine, p: Vec3): Vec3 {
    Apply(ApolloToOpenLane, Apply(RigidInverse(e), p))
  }

  /** The stored point is one the preprocessing reads back: OpenLane -> Apollo,
      then E, gives the ground point again. */
  lemma GroundToOpenLaneRecovered(e: Affine, p: Vec3)
    requires Orthonormal(e.rot)
    ensures Apply(e, Apply(OpenLaneToApollo, GroundToOpenLane(e, p))) == p
  {
    OpenLaneRoundTrip(Apply(RigidInverse(e), p));
    RigidInverseRoundTrip(e, p);
  }

  /** The lane line a candidate yields, or None when its marking is NONE, it has
      fewer than five sampled points, or fewer than ten of them are visible. */
  function LaneFor(g: RoadGraph, cam: Camera, tgw: Affine, e: Affine, cand: (Waypoint, Side)): (r: Option<LaneLine>)
    ensures SideMarking(cand.0, cand.1).kind == NONE ==> r.None?
    ensures |SampledBoundary(g, cand.1, tgw, cand.0)| < MinPoints ==> r.None?
    ensures var pts := SampledBoundary(g, cand.1, tgw, cand.0);
            r.None? <==>
              SideMarking(cand.0, cand.1).kind == NONE || |pts| < MinPoints ||
              Sum(ProjectGroundToUv(pts, e, cam.k, cam.w, cam.h, ZMin).1) < MinVisible
    ensures r.Some? ==>
              var pts := SampledBoundary(g, cand.1, tgw, cand.0);
              (r.value.uv, r.value.visibility) == ProjectGroundToUv(pts, e, cam.k, cam.w, cam.h, ZMin)
    ensures r.Some? ==>
              WellFormedLane(r.value) &&
              r.value.category == GetCategory(SideMarking(cand.0, cand.1).kind, SideMarking(cand.0, cand.1).color) &&
              var pts := SampledBoundary(g, cand.1, tgw, cand.0);
              |r.value.xyz| == |pts| &&
              forall i :: 0 <= i < |pts| ==> r.value.xyz[i] == GroundToOpenLane(e, pts[i])
  {
    var (wp, side) := cand;
    var marking := SideMarking(wp, side);
    if marking.kind == NONE then None
    else
      var category := GetCategory(marking.kind, marking.color);
      var pts := SampledBoundary(g, side, tgw, wp);
      if |pts| < MinPoints then None
      else
        var (uv, vis) := ProjectGroundToUv(pts, e, cam.k, cam.w, cam.h, ZMin);
        if Sum(vis) < MinVisible then None
        else
          SumOfFlags(vis);
          var xyz := seq(|pts|, i requires 0 <= i < |pts| => GroundToOpenLane(e, pts[i]));
          Some(LaneLine(xyz, uv, vis, category))
  }

  /** The lanes the candidate loop appends, in candidate order. */
  function LanesOf(g: RoadGraph, cam: Camera, tgw: Affine, e: Affine, cands: seq<(Waypoint, Side)>): (lanes: seq<LaneLine>)
    ensures |lanes| <= |cands|
  {
    Kept(c => LaneFor(g, cam, tgw, e, c), cands)
  }

  /** A lane line is emitted exactly when some candidate yields it. */
  lemma LanesOfMembers(g: RoadGraph, cam: Camera, tgw: Affine, e: Affine, cands: seq<(Waypoint, Side)>, lane: LaneLine)
    ensures lane in LanesOf(g, cam, tgw, e, cands) <==>
              exists i :: 0 <= i < |cands| && LaneFor(g, cam, tgw, e, cands[i]) == Some(lane)
  {
    KeptMembers(c => LaneFor(g, cam, tgw, e, c), cands, lane);
  }

  /** One candidate contributes its lane, or nothing. */
  lemma LanesOfOne(g: RoadGraph, cam: Camera, tgw: Affine, e: Affine, cand: (Waypoint, Side))
    ensures LanesOf(g, cam, tgw, e, [cand]) == OptionSeq(LaneFor(g, cam, tgw, e, cand))
  {
    assert [cand][..0] == [];
  }

  /** The lanes of two runs of candidates are the lanes of each, in order: with
      LanesOfOne, every candidate whose LaneFor is a lane contributes it, in
      candidate order, and no other lane appears. */
  lemma LanesOfAppend(g: RoadGraph, cam: Camera, tgw: Affine, e: Affine,
                      a: seq<(Waypoint, Side)>, b: seq<(Waypoint, Side)>)
    ensures LanesOf(g, cam, tgw, e, a + b) == LanesOf(g, cam, tgw, e, a) + LanesOf(g, cam, tgw, e, b)
  {
    KeptAppend(c => LaneFor(g, cam, tgw, e, c), a, b);
  }

  /** The lanes of all candidates but the last, then the last one's. */
  lemma LanesOfSnoc(g: RoadGraph, cam: Camera, tgw: Affine, e: Affine, cands: seq<(Waypoint, Side)>)
    requires cands != []
    ensures LanesOf(g, cam, tgw, e, cands) ==
            LanesOf(g, cam, tgw, e, cands[..|cands| - 1]) + OptionSeq(LaneFor(g, cam, tgw, e, cands[|cands| - 1]))
  {}

  /** What every lane line of a record satisfies. */
  ghost predicate WellFormedLane(lane: LaneLine)
    ensures WellFormedLane(lane) ==> |lane.xyz| >= 10
  {
    |lane.xyz| >= MinPoints &&
    |lane.uv| == |lane.xyz| && |lane.visibility| == |lane.xyz| &&
    VisibleCount(lane.visibility) >= 10 &&
    (forall i :: 0 <= i < |lane.visibility| ==>
       (lane.visibility[i] == 1.0 || lane.visibility[i] == 0.0) &&
       (lane.visibility[i] == 0.0 ==> lane.uv[i] == Hidden)) &&
    lane.category in {0, 1, 2, 3, 4, 5, 6, 7, 8, 9, 10, 11, 12, 20}
  }

  lemma {:induction false} LanesOfWellFormed(g: RoadGraph, cam: Camera, tgw: Affine, e: Affine, cands: seq<(Waypoint, Side)>)
    ensures forall lane :: lane in LanesOf(g, cam, tgw, e, cands) ==> WellFormedLane(lane)
    ensures NonEmptyXyz(LanesOf(g, cam, tgw, e, cands))
  {
    if cands != [] {
      LanesOfWellFormed(g, cam, tgw, e, cands[..|cands| - 1]);
      LanesOfSnoc(g, cam, tgw, e, cands);
    }
  }

  /** One candidate of the loop: None where the source continues, the lane otherwise. */
  method LaneForCandidate(g: RoadGraph, cam: Camera, tgw: Affine, e: Affine, cand: (Waypoint, Side))
    returns (lane: Option<LaneLine>)
    ensures lane == LaneFor(g, cam, tgw, e, cand)
  {
    var (wp, side) := cand;
    var marking := SideMarking(wp, side);
    if marking.kind == NONE {
      return None;
    }
    var category := GetCategory(marking.kind, marking.color);
    var pts := SampleLaneBoundary(g, side, tgw, wp);
    if |pts| < MinPoints {
      return None;
    }
    var (uv, vis) := ProjectGroundToUv(pts, e, cam.k, cam.w, cam.h, ZMin);
    if Sum(vis) < MinVisible {
      return None;
    }
    var xyz := seq(|pts|, j requires 0 <= j < |pts| => GroundToOpenLane(e, pts[j]));
    return Some(LaneLine(xyz, uv, vis, category));
  }

  /** The candidate loop of process_frame. */
  method BuildLaneLines(g: RoadGraph, cam: Camera, tgw: Affine, e: Affine, cands: seq<(Waypoint, Side)>)
    returns (lanes: seq<LaneLine>)
    ensures lanes == LanesOf(g, cam, tgw, e, cands)
  {
    lanes := [];
    for i := 0 to |cands|
      invariant lanes == LanesOf(g, cam, tgw, e, cands[..i])
    {
      assert cands[..i + 1][..i] == cands[..i];
      LanesOfSnoc(g, cam, tgw, e, cands[..i + 1]);
      var lane := LaneForCandidate(g, cam, tgw, e, cands[i]);
      if lane.Some? {
        lanes := lanes + [lane.value];
      }
    }
    assert cands[..|cands|] == cands;
  }

  // ---------------------------------------------------------------------
  // De-duplication

  /** xyz[1][0]: the second coordinate of the first OpenLane point, the lateral
      (left) offset of the lane's start. */
  function StartKey(lane: LaneLine): (key: real)
    requires |lane.xyz| > 0
    ensures key == -Apply(OpenLaneToApollo, lane.xyz[0]).x
  {
    OpenLaneToApolloApply(lane.xyz[0]);
    lane.xyz[0].y
  }

  ghost predicate NonEmptyXyz(lanes: seq<LaneLine>) {
    forall i :: 0 <= i < |lanes| ==> |lanes[i].xyz| > 0
  }

  /** Some kept lane starts less than the gap away from `lane`. */
  ghost predicate IsDuplicate(kept: seq<LaneLine>, lane: LaneLine)
    requires NonEmptyXyz(kept) && |lane.xyz| > 0
  {
    exists j :: 0 <= j < |kept| && Abs(StartKey(kept[j]) - StartKey(lane)) < DedupGap
  }

  /** The lanes the de-duplication keeps, scanning in order. */
  ghost function Deduplicated(lanes: seq<LaneLine>): (kept: seq<LaneLine>)
    requires NonEmptyXyz(lanes)
    ensures NonEmptyXyz(kept)
    ensures |kept| <= |lanes|
    ensures forall k :: k in kept ==> k in lanes
  {
    if lanes == [] then []
    else
      var init := Deduplicated(lanes[..|lanes| - 1]);
      if IsDuplicate(init, lanes[|lanes| - 1]) then init else init + [lanes[|lanes| - 1]]
  }

  /** The first lane is always kept. */
  lemma {:induction false} DedupKeepsFirst(lanes: seq<LaneLine>)
    requires NonEmptyXyz(lanes) && lanes != []
    ensures Deduplicated(lanes) != [] && Deduplicated(lanes)[0] == lanes[0]
  {
    var init := lanes[..|lanes| - 1];
    if init != [] {
      DedupKeepsFirst(init);
      assert init[0] == lanes[0];
    }
  }

  /** Input order is preserved. */
  lemma {:induction false} DedupKeepsOrder(lanes: seq<LaneLine>)
    requires NonEmptyXyz(lanes)
    ensures IsSubsequence(Deduplicated(lanes), lanes)
  {
    if lanes != [] {
      var init := lanes[..|lanes| - 1];
      DedupKeepsOrder(init);
      var k := Deduplicated(init);
      var kept := Deduplicated(lanes);
      if kept != k {
        assert kept[..|kept| - 1] == k;
      }
    }
  }

  ghost predicate Spaced(kept: seq<LaneLine>)
    requires NonEmptyXyz(kept)
  {
    forall i, j :: 0 <= i < j < |kept| ==> Abs(StartKey(kept[i]) - StartKey(kept[j])) >= DedupGap
  }

  /** Kept lanes start at least the gap apart. */
  lemma {:induction false} DedupSpaced(lanes: seq<LaneLine>)
    requires NonEmptyXyz(lanes)
    ensures Spaced(Deduplicated(lanes))
  {
    if lanes != [] {
      var init := lanes[..|lanes| - 1];
      var last := lanes[|lanes| - 1];
      DedupSpaced(init);
      var k := Deduplicated(init);
      var kept := Deduplicated(lanes);
      if !IsDuplicate(k, last) {
        assert kept == k + [last];
        forall i, j | 0 <= i < j < |kept|
          ensures Abs(StartKey(kept[i]) - StartKey(kept[j])) >= DedupGap
        {
          assert kept[i] == k[i];
          if j < |kept| - 1 {
            assert kept[j] == k[j];
          } else {
            assert kept[j] == last;
            assert !(0 <= i < |k| && Abs(StartKey(k[i]) - StartKey(last)) < DedupGap);
            assert Abs(StartKey(k[i]) - StartKey(last)) >= DedupGap;
          }
        }
      }
    }
  }

  /** A lane close to some kept lane stays close to one when more lanes are kept. */
  lemma DuplicateExtends(k: seq<LaneLine>, extra: seq<LaneLine>, x: LaneLine)
    requires NonEmptyXyz(k) && NonEmptyXyz(extra) && |x.xyz| > 0 && IsDuplicate(k, x)
    ensures NonEmptyXyz(k + extra) && IsDuplicate(k + extra, x)
  {
    var j :| 0 <= j < |k| && Abs(StartKey(k[j]) - StartKey(x)) < DedupGap;
    assert (k + extra)[j] == k[j];
  }

  /** The lane just considered is within the gap of a kept lane, kept or not. */
  lemma LastCovered(k: seq<LaneLine>, last: LaneLine)
    requires NonEmptyXyz(k) && |last.xyz| > 0
    ensures var extra := if IsDuplicate(k, last) then [] else [last];
            NonEmptyXyz(k + extra) && IsDuplicate(k + extra, last)
  {
    if !IsDuplicate(k, last) {
      assert (k + [last])[|k|] == last;
    } else {
      assert k + [] == k;
    }
  }

  /** Every lane, kept or dropped, starts within the gap of some kept lane. */
  lemma {:induction false} DedupCovers(lanes: seq<LaneLine>)
    requires NonEmptyXyz(lanes)
    ensures var kept := Deduplicated(lanes);
            forall i :: 0 <= i < |lanes| ==> IsDuplicate(kept, lanes[i])
  {
    if lanes != [] {
      var init := lanes[..|lanes| - 1];
      var last := lanes[|lanes| - 1];
      DedupCovers(init);
      var k := Deduplicated(init);
      var extra := if IsDuplicate(k, last) then [] else [last];
      var kept := Deduplicated(lanes);
      assert kept == k + extra;
      forall i | 0 <= i < |lanes| ensures IsDuplicate(kept, lanes[i]) {
        if i < |lanes| - 1 {
          assert lanes[i] == init[i];
          DuplicateExtends(k, extra, init[i]);
        } else {
          LastCovered(k, last);
        }
      }
    }
  }

  /** The inner scan of the de-duplication: is a kept lane within the gap? */
  method ScanForDuplicate(unique: seq<LaneLine>, lane: LaneLine) returns (isDup: bool)
    requires NonEmptyXyz(unique) && |lane.xyz| > 0
    ensures isDup == IsDuplicate(unique, lane)
  {
    isDup := false;
    var curr := StartKey(lane);
    var j := 0;
    while j < |unique|
      invariant 0 <= j <= |unique|
      invariant forall m :: 0 <= m < j ==> Abs(StartKey(unique[m]) - curr) >= DedupGap
    {
      if Abs(StartKey(unique[j]) - curr) < DedupGap {
        return true;
      }
      j := j + 1;
    }
  }

  /** The de-duplication loop: a lane is dropped when a kept lane starts within the gap. */
  method Dedup(lanes: seq<LaneLine>) returns (unique: seq<LaneLine>)
    requires NonEmptyXyz(lanes)
    ensures unique == Deduplicated(lanes)
  {
    unique := [];
    for i := 0 to |lanes|
      invariant unique == Deduplicated(lanes[..i])
    {
      assert lanes[..i + 1][..i] == lanes[..i];
      var lane := lanes[i];
      var isDup := false;
      if |unique| > 0 {
        isDup := ScanForDuplicate(unique, lane);
      }
      if !isDup {
        unique := unique + [lane];
      }
    }
    assert lanes[..|lanes|] == lanes;
  }

  // ---------------------------------------------------------------------
  // The frame

  /** The record process_frame returns for the sensor pose `twc`, the static mount `tvc`. */
  ghost function FrameOf(g: RoadGraph, cam: Camera, twc: Affine, tvc: Affine): (rec: FrameRecord)
    ensures rec.filePath == ""
    ensures rec == EmptyRecord ||
            (rec.intrinsic == Rows3(cam.k) && |rec.extrinsic| == 4 && rec.extrinsic[3] == [0.0, 0.0, 0.0, 1.0])
  {
    var twv := VehicleToWorld(twc, tvc);
    match g.locate(twv.trans)
    case None => EmptyRecord
    case Some(wp) =>
      if wp.isJunction then EmptyRecord
      else
        var tgw := GroundFromWorld(twv, wp.center.z);
        var e := ApolloCamToGround(tgw, twc);
        var lanes := LanesOf(g, cam, tgw, e, Candidates(g, wp));
        LanesOfWellFormed(g, cam, tgw, e, Candidates(g, wp));
        FrameRecord(Deduplicated(lanes), Rows3(cam.k), Rows4(CompatibleExtrinsic(e)), "")
  }

  method ProcessFrame(g: RoadGraph, cam: Camera, twc: Affine, tvc: Affine) returns (rec: FrameRecord)
    ensures rec == FrameOf(g, cam, twc, tvc)
  {
    var twv := VehicleToWorld(twc, tvc);
    var current := g.locate(twv.trans);
    if current.None? || current.value.isJunction {
      return EmptyRecord;
    }
    var wp := current.value;
    var tgw := GroundFromWorld(twv, wp.center.z);
    var e := ApolloCamToGround(tgw, twc);
    var cands := Candidates(g, wp);
    var lanes := BuildLaneLines(g, cam, tgw, e, cands);
    LanesOfWellFormed(g, cam, tgw, e, cands);
    var unique := Dedup(lanes);
    rec := FrameRecord(unique, Rows3(cam.k), Rows4(CompatibleExtrinsic(e)), "");
  }

  /** No waypoint, or a junction waypoint, gives the empty record. */
  lemma FrameWithoutLane(g: RoadGraph, cam: Camera, twc: Affine, tvc: Affine)
    requires var loc := g.locate(VehicleToWorld(twc, tvc).trans);
             loc.None? || loc.value.isJunction
    ensures FrameOf(g, cam, twc, tvc) == EmptyRecord
  {}

  /** Otherwise the record holds at most six well-formed lanes starting at least
      the gap apart, the rows of K, and an extrinsic with E's translation and last
      row [0, 0, 0, 1] from which the preprocessing recovers E's rotation. */
  lemma {:induction false} FrameContents(g: RoadGraph, cam: Camera, twc: Affine, tvc: Affine, wp: Waypoint)
    requires g.locate(VehicleToWorld(twc, tvc).trans) == Some(wp) && !wp.isJunction
    ensures var rec := FrameOf(g, cam, twc, tvc);
            var e := ApolloCamToGround(GroundFromWorld(VehicleToWorld(twc, tvc), wp.center.z), twc);
            |rec.laneLines| <= 6 &&
            (forall i :: 0 <= i < |rec.laneLines| ==> WellFormedLane(rec.laneLines[i])) &&
            rec.intrinsic == Rows3(cam.k) &&
            rec.extrinsic == Rows4(CompatibleExtrinsic(e)) &&
            rec.extrinsic[3] == [0.0, 0.0, 0.0, 1.0] &&
            ConsumerRotation(CompatibleExtrinsic(e).rot) == e.rot &&
            CompatibleExtrinsic(e).trans == e.trans &&
            rec.filePath == ""
    ensures var rec := FrameOf(g, cam, twc, tvc);
            NonEmptyXyz(rec.laneLines) && Spaced(rec.laneLines)
    ensures var tgw := GroundFromWorld(VehicleToWorld(twc, tvc), wp.center.z);
            var e := ApolloCamToGround(tgw, twc);
            var lanes := LanesOf(g, cam, tgw, e, Candidates(g, wp));
            NonEmptyXyz(lanes) && FrameOf(g, cam, twc, tvc).laneLines == Deduplicated(lanes)
  {
    var twv := VehicleToWorld(twc, tvc);
    var tgw := GroundFromWorld(twv, wp.center.z);
    var e := ApolloCamToGround(tgw, twc);
    var cands := Candidates(g, wp);
    var lanes := LanesOf(g, cam, tgw, e, cands);
    LanesOfWellFormed(g, cam, tgw, e, cands);
    CompatibleExtrinsicRecovered(e);
    DedupSpaced(lanes);
    var kept := Deduplicated(lanes);
    assert FrameOf(g, cam, twc, tvc).laneLines == kept;
    forall i | 0 <= i < |kept| ensures WellFormedLane(kept[i]) {
      assert kept[i] in lanes;
    }
  }
}

=== FILE: geometry.dfy ===
// The camera helpers of the simulation side: the intrinsic matrix, the
// world-to-camera extrinsic with the UE4-to-camera axis swap, and the
// projection of world points to pixels with a front-of-camera mask.
//
// The focal length, which the source computes from the field of view with a
// tangent, is a parameter.

module Geometry {
  import opened LinAlg
  import opened Frames
  import opened Projection

  /** build_projection_matrix: focal on the diagonal, the image centre as the
      principal point, 1 in the corner, 0 elsewhere. */
  function BuildProjectionMatrix(w: real, h: real, focal: real): (k: Mat3)
    ensures k.r2 == Vec3(0.0, 0.0, 1.0)
    ensures k.r0.y == 0.0 && k.r1.x == 0.0
  {
    Mat3(Vec3(focal, 0.0, w / 2.0), Vec3(0.0, focal, h / 2.0), Vec3(0.0, 0.0, 1.0))
  }

  /** The camera frame depth is preserved by K, and a point in front of the
      camera lands at focal * (x/z, y/z) from the image centre. */
  lemma ProjectionMatrixPinhole(w: real, h: real, focal: real, p: Vec3)
    requires p.z > 0.0
    ensures var q := MatVec(BuildProjectionMatrix(w, h, focal), p);
            q.z == p.z && q.x / q.z == focal * (p.x / p.z) + w / 2.0 && q.y / q.z == focal * (p.y / p.z) + h / 2.0
  {
    var q := MatVec(BuildProjectionMatrix(w, h, focal), p);
    assert q.x == focal * p.x + (w / 2.0) * p.z;
    assert q.x / p.z == focal * (p.x / p.z) + w / 2.0;
    assert q.y == focal * p.y + (h / 2.0) * p.z;
    assert q.y / p.z == focal * (p.y / p.z) + h / 2.0;
  }

  /** ue4_to_cv: camera x = UE y, camera y = -UE z, camera z = UE x. */
  const Ue4ToCv: Affine := Affine(Mat3(Vec3(0.0, 1.0, 0.0), Vec3(0.0, 0.0, -1.0), Vec3(1.0, 0.0, 0.0)), Zero)

  /** The axis swap is the generator's CARLA-to-Apollo camera swap. */
  lemma Ue4ToCvIsCarlaToApollo(p: Vec3)
    ensures Ue4ToCv == CarlaCamToApolloCam
    ensures Apply(Ue4ToCv, p) == Vec3(p.y, -p.z, p.x)
  {
    CarlaCamToApolloCamApply(p);
  }

  /** world_to_camera_matrix: the axis swap after the world-to-sensor transform. */
  function WorldToCameraMatrix(worldToSensor: Affine): (extrinsic: Affine)
    ensures forall p :: Apply(extrinsic, p) == Apply(Ue4ToCv, Apply(worldToSensor, p))
  {
    ApplyComposeAll(Ue4ToCv, worldToSensor);
    Compose(Ue4ToCv, worldToSensor)
  }

  lemma ApplyComposeAll(s: Affine, t: Affine)
    ensures forall p :: Apply(Compose(s, t), p) == Apply(s, Apply(t, p))
  {
    forall p ensures Apply(Compose(s, t), p) == Apply(s, Apply(t, p)) {
      ApplyCompose(s, t, p);
    }
  }

  /** With the sensor's inverse pose, the sensor's own position is the camera
      origin and a point ahead of the sensor lies in front of the camera. */
  lemma WorldToCameraOfSensor(sensor: Affine, d: real)
    requires Orthonormal(sensor.rot)
    ensures Apply(WorldToCameraMatrix(RigidInverse(sensor)), sensor.trans) == Zero
    ensures Apply(WorldToCameraMatrix(RigidInverse(sensor)), Apply(sensor, Vec3(d, 0.0, 0.0))) == Vec3(0.0, 0.0, d)
  {
    RigidInverseRoundTrip(sensor, Zero);
    RigidInverseRoundTrip(sensor, Vec3(d, 0.0, 0.0));
    MatVecZero(sensor.rot);
    assert Apply(sensor, Zero) == sensor.trans;
  }

  /** The stand-in depth used where z <= 0. */
  const TinyDepth: real := 0.00001

  /** One point of project_3d_to_2d: its uv, its camera-frame position and its mask. */
  datatype Projected = Projected(uv: UV, cam: Vec3, valid: bool)

  function ProjectOne(p: Vec3, k: Mat3, extrinsic: Affine): (r: Projected)
    ensures r.cam == Apply(extrinsic, p)
    ensures r.valid <==> MatVec(k, r.cam).z > 0.0
  {
    var cam := Apply(extrinsic, p);
    var img := MatVec(k, cam);
    var zSafe := if img.z <= 0.0 then TinyDepth else img.z;
    Projected(UV(img.x / zSafe, img.y / zSafe), cam, img.z > 0.0)
  }

  /** A valid point's uv is its perspective image; any other point's uv is its image
      plane position scaled by the stand-in depth, with no sentinel. */
  lemma ProjectOneUv(p: Vec3, k: Mat3, extrinsic: Affine)
    ensures var r := ProjectOne(p, k, extrinsic);
            var img := MatVec(k, r.cam);
            (r.valid ==> img == Scale(img.z, Vec3(r.uv.u, r.uv.v, 1.0))) &&
            (!r.valid ==> img.x == r.uv.u * TinyDepth && img.y == r.uv.v * TinyDepth)
  {}

  /** project_3d_to_2d: empty arrays for no points; otherwise one uv, camera
      point and mask entry per point. */
  function Project3dTo2d(points: seq<Vec3>, k: Mat3, extrinsic: Affine): (r: (seq<UV>, seq<Vec3>, seq<bool>))
    ensures |r.0| == |points| && |r.1| == |points| && |r.2| == |points|
    ensures forall i :: 0 <= i < |points| ==>
              Projected(r.0[i], r.1[i], r.2[i]) == ProjectOne(points[i], k, extrinsic)
  {
    if |points| == 0 then ([], [], [])
    else
      (seq(|points|, i requires 0 <= i < |points| => ProjectOne(points[i], k, extrinsic).uv),
       seq(|points|, i requires 0 <= i < |points| => ProjectOne(points[i], k, extrinsic).cam),
       seq(|points|, i requires 0 <= i < |points| => ProjectOne(points[i], k, extrinsic).valid))
  }

  /** Where the generator's projection flags a ground point visible, this
      projection, given the inverse of the same extrinsic, marks it valid and
      gives it the same pixel. */
  lemma AgreesWithGenerator(p: Vec3, e: Affine, k: Mat3, w: int, h: int, zmin: real)
    requires zmin >= 0.0 && ProjectPoint(p, e, k, w, h, zmin).1 == 1.0
    ensures ProjectOne(p, k, RigidInverse(e)).valid
    ensures ProjectOne(p, k, RigidInverse(e)).uv == ProjectPoint(p, e, k, w, h, zmin).0
  {}
}

=== FILE: linalg.dfy ===
// Exact real linear algebra for the frame transforms: 3-vectors, 3x3
// matrices and 4x4 homogeneous transforms whose last row is [0, 0, 0, 1].

module LinAlg {

  datatype Vec3 = Vec3(x: real, y: real, z: real)

  /** A 3x3 matrix, stored by rows. */
  datatype Mat3 = Mat3(r0: Vec3, r1: Vec3, r2: Vec3)

  /** The 4x4 matrix [rot | trans; 0 0 0 1]. */
  datatype Affine = Affine(rot: Mat3, trans: Vec3)

  const Zero: Vec3 := Vec3(0.0, 0.0, 0.0)
  const Identity3: Mat3 := Mat3(Vec3(1.0, 0.0, 0.0), Vec3(0.0, 1.0, 0.0), Vec3(0.0, 0.0, 1.0))
  const Identity4: Affine := Affine(Identity3, Zero)

  function Add(a: Vec3, b: Vec3): Vec3 { Vec3(a.x + b.x, a.y + b.y, a.z + b.z) }
  function Neg(a: Vec3): Vec3 { Vec3(-a.x, -a.y, -a.z) }
  function Scale(k: real, a: Vec3): Vec3 { Vec3(k * a.x, k * a.y, k * a.z) }
  function Dot(a: Vec3, b: Vec3): real { a.x * b.x + a.y * b.y + a.z * b.z }

  function MatVec(m: Mat3, v: Vec3): Vec3 { Vec3(Dot(m.r0, v), Dot(m.r1, v), Dot(m.r2, v)) }

  function Transpose(m: Mat3): Mat3 { Mat3(Col0(m), Col1(m), Col2(m)) }

  function Col0(m: Mat3): Vec3 { Vec3(m.r0.x, m.r1.x, m.r2.x) }
  function Col1(m: Mat3): Vec3 { Vec3(m.r0.y, m.r1.y, m.r2.y) }
  function Col2(m: Mat3): Vec3 { Vec3(m.r0.z, m.r1.z, m.r2.z) }

  /** Row r of A times B: the dot products of r with the columns of B. */
  function RowTimes(r: Vec3, b: Mat3): Vec3 {
    Vec3(Dot(r, Col0(b)), Dot(r, Col1(b)), Dot(r, Col2(b)))
  }

  function MatMul(a: Mat3, b: Mat3): Mat3 {
    Mat3(RowTimes(a.r0, b), RowTimes(a.r1, b), RowTimes(a.r2, b))
  }

  /** The 4x4 matrix applied to the homogeneous point [p; 1], first three rows. */
  function Apply(t: Affine, p: Vec3): Vec3 { Add(MatVec(t.rot, p), t.trans) }

  /** The 4x4 product s @ t. */
  function Compose(s: Affine, t: Affine): Affine {
    Affine(MatMul(s.rot, t.rot), Add(MatVec(s.rot, t.trans), s.trans))
  }

  /** Inverse of a rigid transform: [R^T | -R^T t]. */
  function RigidInverse(t: Affine): Affine {
    var rt := Transpose(t.rot);
    Affine(rt, Neg(MatVec(rt, t.trans)))
  }

  /** The rows of the 4x4 matrix, as the output record stores it. */
  function Rows4(t: Affine): (rows: seq<seq<real>>)
    ensures |rows| == 4 && forall i :: 0 <= i < 4 ==> |rows[i]| == 4
    ensures rows[3] == [0.0, 0.0, 0.0, 1.0]
    ensures rows[0][3] == t.trans.x && rows[1][3] == t.trans.y && rows[2][3] == t.trans.z
  {
    [[t.rot.r0.x, t.rot.r0.y, t.rot.r0.z, t.trans.x],
     [t.rot.r1.x, t.rot.r1.y, t.rot.r1.z, t.trans.y],
     [t.rot.r2.x, t.rot.r2.y, t.rot.r2.z, t.trans.z],
     [0.0, 0.0, 0.0, 1.0]]
  }

  function Rows3(m: Mat3): (rows: seq<seq<real>>)
    ensures |rows| == 3 && forall i :: 0 <= i < 3 ==> |rows[i]| == 3
  {
    [[m.r0.x, m.r0.y, m.r0.z], [m.r1.x, m.r1.y, m.r1.z], [m.r2.x, m.r2.y, m.r2.z]]
  }

  /** Both products with the transpose are the identity: the inverse is the transpose. */
  ghost predicate Orthonormal(m: Mat3) {
    MatMul(m, Transpose(m)) == Identity3 && MatMul(Transpose(m), m) == Identity3
  }

  function Cross(a: Vec3, b: Vec3): Vec3 {
    Vec3(a.y * b.z - a.z * b.y, a.z * b.x - a.x * b.z, a.x * b.y - a.y * b.x)
  }

  /** The determinant of a 3x3 matrix: r0 . (r1 x r2). */
  function Det(m: Mat3): real { Dot(m.r0, Cross(m.r1, m.r2)) }

  /** The 3x3 matrix of columns a, b and c of the top three rows of a 4x4 matrix. */
  function Minor(rows: seq<seq<real>>, a: nat, b: nat, c: nat): Mat3
    requires |rows| == 4 && forall i :: 0 <= i < 4 ==> |rows[i]| == 4
    requires a < 4 && b < 4 && c < 4
  {
    Mat3(Vec3(rows[0][a], rows[0][b], rows[0][c]),
         Vec3(rows[1][a], rows[1][b], rows[1][c]),
         Vec3(rows[2][a], rows[2][b], rows[2][c]))
  }

  /** The determinant of a 4x4 matrix given by its rows, expanded along the last row. */
  function Det4(rows: seq<seq<real>>): real
    requires |rows| == 4 && forall i :: 0 <= i < 4 ==> |rows[i]| == 4
  {
    - rows[3][0] * Det(Minor(rows, 1, 2, 3))
    + rows[3][1] * Det(Minor(rows, 0, 2, 3))
    - rows[3][2] * Det(Minor(rows, 0, 1, 3))
    + rows[3][3] * Det(Minor(rows, 0, 1, 2))
  }

  // ---------------------------------------------------------------------
  // Algebraic laws

  lemma MatVecIdentity(v: Vec3)
    ensures MatVec(Identity3, v) == v
  {}

  lemma MatMulIdentityRight(m: Mat3)
    ensures MatMul(m, Identity3) == m
  {}

  lemma MatMulIdentityLeft(m: Mat3)
    ensures MatMul(Identity3, m) == m
  {}

  lemma MatVecZero(m: Mat3)
    ensures MatVec(m, Zero) == Zero
  {}

  lemma {:induction false} MatVecMul(a: Mat3, b: Mat3, v: Vec3)
    ensures MatVec(MatMul(a, b), v) == MatVec(a, MatVec(b, v))
  {
    RowTimesDot(a.r0, b, v);
    RowTimesDot(a.r1, b, v);
    RowTimesDot(a.r2, b, v);
  }

  lemma RowTimesDot(r: Vec3, b: Mat3, v: Vec3)
    ensures Dot(RowTimes(r, b), v) == Dot(r, MatVec(b, v))
  {
    calc {
      Dot(RowTimes(r, b), v);
    ==
      (r.x * b.r0.x + r.y * b.r1.x + r.z * b.r2.x) * v.x
      + (r.x * b.r0.y + r.y * b.r1.y + r.z * b.r2.y) * v.y
      + (r.x * b.r0.z + r.y * b.r1.z + r.z * b.r2.z) * v.z;
    ==
      r.x * (b.r0.x * v.x + b.r0.y * v.y + b.r0.z * v.z)
      + r.y * (b.r1.x * v.x + b.r1.y * v.y + b.r1.z * v.z)
      + r.z * (b.r2.x * v.x + b.r2.y * v.y + b.r2.z * v.z);
    ==
      Dot(r, MatVec(b, v));
    }
  }

  lemma MatVecAdd(m: Mat3, a: Vec3, b: Vec3)
    ensures MatVec(m, Add(a, b)) == Add(MatVec(m, a), MatVec(m, b))
  {}

  lemma MatVecNeg(m: Mat3, a: Vec3)
    ensures MatVec(m, Neg(a)) == Neg(MatVec(m, a))
  {}

  /** Applying a composition is applying its factors in turn. */
  lemma {:induction false} ApplyCompose(s: Affine, t: Affine, p: Vec3)
    ensures Apply(Compose(s, t), p) == Apply(s, Apply(t, p))
  {
    MatVecMul(s.rot, t.rot, p);
    MatVecAdd(s.rot, MatVec(t.rot, p), t.trans);
  }

  /** For an orthonormal rotation, RigidInverse undoes the transform on every point. */
  lemma {:induction false} RigidInverseRoundTrip(t: Affine, p: Vec3)
    requires Orthonormal(t.rot)
    ensures Apply(t, Apply(RigidInverse(t), p)) == p
    ensures Apply(RigidInverse(t), Apply(t, p)) == p
  {
    var rt := Transpose(t.rot);
    // t(inv(t)(p)) = R (R^T p - R^T tr) + tr
    MatVecAdd(t.rot, MatVec(rt, p), Neg(MatVec(rt, t.trans)));
    MatVecNeg(t.rot, MatVec(rt, t.trans));
    MatVecMul(t.rot, rt, p);
    MatVecMul(t.rot, rt, t.trans);
    MatVecIdentity(p);
    MatVecIdentity(t.trans);
    // inv(t)(t(p)) = R^T (R p + tr) - R^T tr
    MatVecAdd(rt, MatVec(t.rot, p), t.trans);
    MatVecMul(rt, t.rot, p);
  }

  /** RigidInverse(t) takes t's translation, the image of the origin, back to the origin. */
  lemma InverseSendsOriginHome(t: Affine)
    ensures Apply(RigidInverse(t), t.trans) == Zero
  {
    MatVecAdd(Transpose(t.rot), t.trans, Neg(t.trans));
  }

  /** For an orthonormal rotation, RigidInverse is a two-sided inverse of the 4x4 matrix. */
  lemma {:induction false} RigidInverseCompose(t: Affine)
    requires Orthonormal(t.rot)
    ensures Compose(t, RigidInverse(t)) == Identity4
    ensures Compose(RigidInverse(t), t) == Identity4
  {
    var rt := Transpose(t.rot);
    MatVecNeg(t.rot, MatVec(rt, t.trans));
    MatVecMul(t.rot, rt, t.trans);
    MatVecIdentity(t.trans);
  }

  /** A pure rotation by an orthonormal matrix is undone by the rotation by its transpose. */
  lemma {:induction false} LinearInverseCompose(r: Mat3)
    requires Orthonormal(r)
    ensures Compose(Affine(r, Zero), Affine(Transpose(r), Zero)) == Identity4
    ensures Compose(Affine(Transpose(r), Zero), Affine(r, Zero)) == Identity4
  {
    MatVecZero(r);
    MatVecZero(Transpose(r));
  }

  /** A homogeneous transform has the determinant of its rotation. */
  lemma Rows4Det(t: Affine)
    ensures Det4(Rows4(t)) == Det(t.rot)
  {
    assert Minor(Rows4(t), 0, 1, 2) == t.rot;
  }

  lemma CrossOrthogonal(a: Vec3, b: Vec3)
    ensures Dot(a, Cross(a, b)) == 0.0 && Dot(b, Cross(a, b)) == 0.0
  {}

  /** Lagrange's identity: |a x b|^2 = |a|^2 |b|^2 - (a . b)^2. */
  lemma Lagrange(a: Vec3, b: Vec3)
    ensures Dot(Cross(a, b), Cross(a, b)) == Dot(a, a) * Dot(b, b) - Dot(a, b) * Dot(a, b)
  {}

  /** The rows of an orthonormal matrix are unit vectors, r1 and r2 orthogonal. */
  lemma OrthonormalRows(m: Mat3)
    requires Orthonormal(m)
    ensures Dot(m.r0, m.r0) == 1.0 && Dot(m.r1, m.r1) == 1.0 && Dot(m.r2, m.r2) == 1.0
    ensures Dot(m.r1, m.r2) == 0.0
  {
    assert MatMul(m, Transpose(m)) == Identity3;
  }

  /** For an orthonormal matrix, r1 x r2 is the determinant times r0: it is orthogonal
      to r1 and r2, so m maps it to (det, 0, 0), which m^T maps back to det r0. */
  lemma {:induction false} CrossOfOrthonormal(m: Mat3)
    requires Orthonormal(m)
    ensures Cross(m.r1, m.r2) == Scale(Det(m), m.r0)
  {
    var c := Cross(m.r1, m.r2);
    CrossOrthogonal(m.r1, m.r2);
    assert MatVec(m, c) == Vec3(Det(m), 0.0, 0.0);
    MatVecMul(Transpose(m), m, c);
    MatVecIdentity(c);
  }

  /** An orthonormal matrix has determinant 1 or -1, so it is never singular. */
  lemma {:induction false} OrthonormalDet(m: Mat3)
    requires Orthonormal(m)
    ensures Det(m) * Det(m) == 1.0
  {
    var c := Cross(m.r1, m.r2);
    var d := Det(m);
    CrossOfOrthonormal(m);
    OrthonormalRows(m);
    // |c|^2 is d^2 |r0|^2 = d^2, and 1 by Lagrange's identity.
    Lagrange(m.r1, m.r2);
    DotScale(d, m.r0);
  }

  lemma DotScale(k: real, a: Vec3)
    ensures Dot(Scale(k, a), Scale(k, a)) == k * k * Dot(a, a)
  {}

  /** The inverse of a pure rotation is the rotation by the transpose. */
  lemma RigidInverseOfRotation(r: Mat3)
    ensures RigidInverse(Affine(r, Zero)) == Affine(Transpose(r), Zero)
  {
    MatVecZero(Transpose(r));
  }
}

=== FILE: maputils.dfy ===
// Multi-map helpers of the dataset generator: town-name normalisation, folder
// and segment naming, the --towns list, per-episode town scheduling, the
// per-town road-id tables (lane count including both curbs, and roads with
// known marking errors) and the cache that speeds up their lookups.

module MapUtils {
  import opened Wrappers
  import opened Seqs
  import opened Text

  // ---------------------------------------------------------------------
  // Town tables

  /** A town's prior: lane_count as (count, road ids) entries in dictionary
      order, and bad_road_ids. */
  datatype TownTable = TownTable(laneCount: seq<(int, seq<int>)>, badRoadIds: seq<int>)

  const AvailableTownInfo: seq<string> := ["Town01", "Town03", "Town04", "Town05", "Town07", "Town10", "Town10HD"]

  /** range(n). */
  function Range(n: nat): (r: seq<int>)
    ensures |r| == n && forall i :: 0 <= i < n ==> r[i] == i
  {
    seq(n, i => i)
  }

  const Town01: TownTable := TownTable([(3, Range(26))], [])

  const Town03: TownTable := TownTable(
    [(5, [59, 62]),
     (7, [17, 18, 19, 20, 21, 22, 23, 41, 42, 43, 74, 75]),
     (8, [0, 1, 2, 3, 4, 5, 6, 7, 8, 65, 66, 67, 68, 69])],
    [7, 9, 10, 11, 12, 13, 14, 15, 16, 17, 18, 24, 25, 28, 29, 30, 31, 32, 33, 34, 35, 36, 37, 38, 44, 46,
     47, 48, 49, 50, 51, 52, 60, 61, 65, 66, 73, 75, 76, 77, 78, 79, 80])

  const Town04: TownTable := TownTable(
    [(2, [31, 33, 34, 44]),
     (3, [5, 14, 22, 23, 25]),
     (4, [1, 7, 8, 9, 18, 19, 20, 24, 32]),
     (5, [10, 11, 15, 16, 17, 26, 27, 28, 29, 30]),
     (10, [6, 35, 36, 38, 39, 40, 41, 45, 46, 47, 48, 49, 50])],
    [0, 2, 3, 4, 12, 13, 37, 42, 43, 51, 52])

  const Town05: TownTable := TownTable(
    [(5, [19, 20, 48]),
     (7, [0, 1, 2, 3, 4, 5, 6, 7, 8, 9, 10, 11, 13, 14, 15, 16, 17, 18, 21, 22, 23, 24, 25, 26, 27, 28, 29, 30, 31,
          32, 33, 39, 40, 41, 42, 43, 44, 45, 46, 47, 49, 50, 51, 52]),
     (10, [12, 34, 35, 36, 37, 38])],
    [7, 8, 19, 20, 22, 23, 48])

  const Town07: TownTable := TownTable(
    [(0, [0, 1, 36, 37, 46, 47]),
     (2, [6, 9, 10, 31, 32, 40, 45, 49, 50]),
     (3, [7, 11, 20, 21, 34, 39, 41, 42, 43, 44, 52, 57, 58, 59, 60, 61, 62]),
     (4, [3, 12, 13, 14, 17, 23, 24, 25, 29, 38, 55, 56]),
     (5, [15])],
    [4, 5, 8, 16, 18, 25, 26, 27, 28, 33, 35, 51, 53])

  const Town10: TownTable := TownTable(
    [(5, [12]),
     (7, [0, 1, 2, 3, 4, 5, 6, 7, 8, 10, 13, 14, 15, 16, 17, 22]),
     (8, [18, 19, 20, 21])],
    [4, 9, 11, 18, 19, 20, 21])

  /** The town class of the module with the given name, as getattr finds it. */
  function TownClass(name: string): (r: Option<TownTable>)
    ensures r.Some? <==> name in AvailableTownInfo && name != "Town10HD"
  {
    if name == "Town01" then Some(Town01)
    else if name == "Town03" then Some(Town03)
    else if name == "Town04" then Some(Town04)
    else if name == "Town05" then Some(Town05)
    else if name == "Town07" then Some(Town07)
    else if name == "Town10" then Some(Town10)
    else None
  }

  /** get_town_info: Town10HD shares Town10's table; a name without a class raises. */
  function GetTownInfo(townName: string): (r: Result<TownTable, string>)
    ensures townName == "Town10HD" ==> r == Ok(Town10)
    ensures townName != "Town10HD" ==> (r.Ok? <==> TownClass(townName).Some?)
  {
    var name := if townName == "Town10HD" then "Town10" else townName;
    match TownClass(name)
    case None => Err("AttributeError")
    case Some(t) => Ok(t)
  }

  /** Every town the generator advertises has a table. */
  lemma AvailableTownsHaveTables()
    ensures forall name :: name in AvailableTownInfo ==> GetTownInfo(name).Ok?
  {}

  // ---------------------------------------------------------------------
  // Look-ups on one table

  /** The count of the first lane_count entry, in dictionary order, listing the road. */
  function FirstMatch(lc: seq<(int, seq<int>)>, roadId: int): (r: Option<int>)
    ensures r.None? <==> forall i :: 0 <= i < |lc| ==> roadId !in lc[i].1
  {
    if lc == [] then None
    else
      assert forall i :: 0 <= i < |lc| - 1 ==> lc[..|lc| - 1][i] == lc[i];
      match FirstMatch(lc[..|lc| - 1], roadId)
      case Some(c) => Some(c)
      case None => if roadId in lc[|lc| - 1].1 then Some(lc[|lc| - 1].0) else None
  }

  /** FirstMatch finds the first entry listing the road, and finds nothing only
      when no entry lists it. */
  lemma {:induction false} FirstMatchMeaning(lc: seq<(int, seq<int>)>, roadId: int)
    ensures FirstMatch(lc, roadId).None? <==> forall i :: 0 <= i < |lc| ==> roadId !in lc[i].1
    ensures FirstMatch(lc, roadId).Some? ==>
              exists i :: 0 <= i < |lc| && roadId in lc[i].1 && lc[i].0 == FirstMatch(lc, roadId).value &&
                          forall j :: 0 <= j < i ==> roadId !in lc[j].1
  {
    if lc != [] {
      var init := lc[..|lc| - 1];
      FirstMatchMeaning(init, roadId);
      if FirstMatch(init, roadId).Some? {
        var i :| 0 <= i < |init| && roadId in init[i].1 && init[i].0 == FirstMatch(init, roadId).value &&
                 forall j :: 0 <= j < i ==> roadId !in init[j].1;
        assert lc[i] == init[i];
        forall j | 0 <= j < i ensures roadId !in lc[j].1 {
          assert lc[j] == init[j];
        }
      } else {
        forall j | 0 <= j < |lc| - 1 ensures roadId !in lc[j].1 {
          assert lc[j] == init[j];
        }
      }
    }
  }

  lemma {:induction false} FirstMatchPrefix(lc: seq<(int, seq<int>)>, k: nat, roadId: int)
    requires k <= |lc| && FirstMatch(lc[..k], roadId).Some?
    ensures FirstMatch(lc, roadId) == FirstMatch(lc[..k], roadId)
    decreases |lc|
  {
    if k < |lc| {
      assert lc[..|lc| - 1][..k] == lc[..k];
      FirstMatchPrefix(lc[..|lc| - 1], k, roadId);
    } else {
      assert lc[..k] == lc;
    }
  }

  /** The search loop of get_gt_lane_count: the first count whose road ids hold
      the road, -1 when none does; an unknown town raises. */
  method GetGtLaneCount(townName: string, roadId: int) returns (r: Result<int, string>)
    ensures GetTownInfo(townName).Err? ==> r.Err?
    ensures GetTownInfo(townName).Ok? ==>
              r == Ok(match FirstMatch(GetTownInfo(townName).value.laneCount, roadId)
                      case None => -1
                      case Some(c) => c)
  {
    var info := GetTownInfo(townName);
    if info.Err? {
      return Err(info.error);
    }
    var lc := info.value.laneCount;
    for i := 0 to |lc|
      invariant FirstMatch(lc[..i], roadId).None?
    {
      assert lc[..i + 1][..i] == lc[..i];
      var (count, roadIds) := lc[i];
      if roadId in roadIds {
        FirstMatchPrefix(lc, i + 1, roadId);
        return Ok(count);
      }
    }
    assert lc[..|lc|] == lc;
    return Ok(-1);
  }

  /** is_bad_road_id: membership in the town's bad_road_ids; an unknown town raises. */
  function IsBadRoadId(townName: string, roadId: int): (r: Result<bool, string>)
    ensures r.Ok? <==> GetTownInfo(townName).Ok?
    ensures r.Ok? ==> (r.value <==> roadId in GetTownInfo(townName).value.badRoadIds)
  {
    match GetTownInfo(townName)
    case Err(e) => Err(e)
    case Ok(t) => Ok(roadId in t.badRoadIds)
  }

  // ---------------------------------------------------------------------
  // Names

  /** The length of the longest suffix of word characters. */
  function WordSuffixLength(s: string): (n: nat)
    ensures n <= |s| && forall i :: |s| - n <= i < |s| ==> IsWordChar(s[i])
    ensures n < |s| ==> !IsWordChar(s[|s| - n - 1])
  {
    if s == [] || !IsWordChar(s[|s| - 1]) then 0 else WordSuffixLength(s[..|s| - 1]) + 1
  }

  /** re.sub(r'\.\w+$', '', t): removes a final '.' followed by word characters. As
      `$` also matches just before a final newline, that newline is kept. */
  function StripExtension(t: string): (r: string)
    ensures |r| <= |t|
  {
    var nl := if t != [] && t[|t| - 1] == '\n' then 1 else 0;
    CutExtension(t, nl, WordSuffixLength(t[..|t| - nl]))
  }

  /** Removes the '.' and the k word characters that end t before its last nl
      characters, when there is such a '.' and something before it. */
  function CutExtension(t: string, nl: nat, k: nat): (r: string)
    requires nl + k <= |t|
    ensures |r| <= |t|
  {
    if 0 < k < |t| - nl && t[|t| - nl - k - 1] == '.' then t[..|t| - nl - k - 1] + t[|t| - nl..]
    else t
  }

  /** normalize_town_name: the empty name is returned as is; otherwise the text
      after the last '/', with one extension removed. */
  function NormalizeTownName(townName: string): (name: string)
    ensures townName == [] ==> name == []
    ensures '/' !in name
  {
    if townName == [] then []
    else
      var parts := Split(townName, '/');
      SplitLast(townName, '/');
      StripExtensionShape(parts[|parts| - 1]);
      StripExtension(parts[|parts| - 1])
  }

  /** The last piece of split(sep) is the text after the last separator. */
  lemma {:induction false} SplitLast(s: string, sep: char)
    ensures var parts := Split(s, sep);
            var p := parts[|parts| - 1];
            sep !in p && |p| <= |s| && p == s[|s| - |p|..] && (|p| < |s| ==> s[|s| - |p| - 1] == sep)
  {
    if s != [] {
      var init := s[..|s| - 1];
      SplitLast(init, sep);
      assert s == init + [s[|s| - 1]];
    }
  }

  /** After a '.', a run of word characters is exactly the word suffix. */
  lemma {:induction false} WordSuffixAfterDot(base: string, ext: string)
    requires forall i :: 0 <= i < |ext| ==> IsWordChar(ext[i])
    ensures WordSuffixLength(base + "." + ext) == |ext|
    decreases |ext|
  {
    var t := base + "." + ext;
    if ext != [] {
      var e' := ext[..|ext| - 1];
      WordSuffixAfterDot(base, e');
      assert t[..|t| - 1] == base + "." + e';
    }
  }

  /** A file name "base.ext" loses its extension. */
  lemma StripExtensionOf(base: string, ext: string)
    requires ext != [] && forall i :: 0 <= i < |ext| ==> IsWordChar(ext[i])
    ensures StripExtension(base + "." + ext) == base
  {
    var t := base + "." + ext;
    assert t[|t| - 1] == ext[|ext| - 1];
    assert t[..|t|] == t;
    WordSuffixAfterDot(base, ext);
    assert t[..|t| - |ext| - 1] == base;
  }

  /** A path ".../base.ext" normalises to base, whatever the directories before it. */
  lemma NormalizePath(dir: string, base: string, ext: string)
    requires '/' !in base && '/' !in ext
    requires ext != [] && forall i :: 0 <= i < |ext| ==> IsWordChar(ext[i])
    ensures NormalizeTownName(dir + "/" + base + "." + ext) == base
  {
    var file := base + "." + ext;
    assert '/' !in file;
    assert dir + "/" + base + "." + ext == dir + ['/'] + file;
    SplitAppend(dir, file, '/');
    StripExtensionOf(base, ext);
  }

  /** A name without '.' has no extension to remove. */
  lemma StripExtensionKeeps(t: string)
    requires '.' !in t
    ensures StripExtension(t) == t
  {
    var nl := if t != [] && t[|t| - 1] == '\n' then 1 else 0;
    var k := WordSuffixLength(t[..|t| - nl]);
    if 0 < k < |t| - nl {
      assert t[|t| - nl - k - 1] in t;
    }
  }

  /** A plain name, bare or after any directories, normalises to itself. */
  lemma NormalizePlain(dir: string, base: string)
    requires base != [] && '.' !in base && '/' !in base
    ensures NormalizeTownName(base) == base
    ensures NormalizeTownName(dir + "/" + base) == base
  {
    SplitFirst(base, '/');
    StripExtensionKeeps(base);
    assert dir + "/" + base == dir + ['/'] + base;
    SplitAppend(dir, base, '/');
  }

  /** The documented examples of normalize_town_name: a bare name is kept ... */
  lemma NormalizeBareExample()
    ensures NormalizeTownName("Town10HD") == "Town10HD"
  {
    NormalizePlain([], "Town10HD");
  }

  /** ... a relative map path such as "Carla/Maps/Town05" keeps its last component ... */
  lemma NormalizeRelativeMapPath(town: string)
    requires town != [] && '.' !in town && '/' !in town
    ensures NormalizeTownName("Carla/Maps/" + town) == town
  {
    assert "Carla/Maps/" + town == "Carla/Maps" + "/" + town;
    NormalizePlain("Carla/Maps", town);
  }

  /** ... and so does an absolute one such as "/Game/Carla/Maps/Town04". */
  lemma NormalizeAbsoluteMapPath(town: string)
    requires town != [] && '.' !in town && '/' !in town
    ensures NormalizeTownName("/Game/Carla/Maps/" + town) == town
  {
    assert "/Game/Carla/Maps/" + town == "/Game/Carla/Maps" + "/" + town;
    NormalizePlain("/Game/Carla/Maps", town);
  }

  /** With the newline quirk of `$`: "base.ext\n" normalises to "base\n". */
  lemma StripExtensionBeforeNewline(base: string, ext: string)
    requires ext != [] && forall i :: 0 <= i < |ext| ==> IsWordChar(ext[i])
    ensures StripExtension(base + "." + ext + "\n") == base + "\n"
  {
    var body := base + "." + ext;
    var t := body + "\n";
    assert t[..|t| - 1] == body;
    WordSuffixAfterDot(base, ext);
    assert t[|base|] == '.';
    assert t[..|base|] == base;
    assert t[|t| - 1..] == "\n";
  }

  lemma StripExtensionShape(t: string)
    ensures forall c :: c in StripExtension(t) ==> c in t
  {
    var nl := if t != [] && t[|t| - 1] == '\n' then 1 else 0;
    var k := WordSuffixLength(t[..|t| - nl]);
    if 0 < k < |t| - nl && t[|t| - nl - k - 1] == '.' {
      var r := t[..|t| - nl - k - 1] + t[|t| - nl..];
      forall c | c in r ensures c in t {
        var i :| 0 <= i < |r| && r[i] == c;
        if i < |t| - nl - k - 1 {
          assert r[i] == t[i];
        } else {
          assert r[i] == t[|t| - nl + (i - (|t| - nl - k - 1))];
        }
      }
    }
  }

  /** town_key_for_gt: the normalised name, with Town10HD mapped to Town10. */
  function TownKeyForGt(townName: string): (key: string)
    ensures NormalizeTownName(townName) == "Town10HD" ==> key == "Town10"
    ensures NormalizeTownName(townName) != "Town10HD" ==> key == NormalizeTownName(townName)
  {
    var t := NormalizeTownName(townName);
    if t == "Town10HD" then "Town10" else t
  }

  /** town_slug: the normalised name in lower case. */
  function TownSlug(townName: string): (slug: string)
    ensures |slug| == |NormalizeTownName(townName)|
    ensures forall i :: 0 <= i < |slug| ==> slug[i] == ToLower(NormalizeTownName(townName)[i])
    ensures forall i :: 0 <= i < |slug| ==> !IsUpper(slug[i])
    ensures '/' !in slug
  {
    Lower(NormalizeTownName(townName))
  }

  /** A name whose normal form is already lower case is its own slug. */
  lemma TownSlugOfLowerCase(townName: string)
    requires forall i :: 0 <= i < |NormalizeTownName(townName)| ==> !IsUpper(NormalizeTownName(townName)[i])
    ensures TownSlug(townName) == NormalizeTownName(townName)
  {}

  /** The slug ignores case: lower-casing the name first gives the same slug. */
  lemma TownSlugIgnoresCase(townName: string)
    ensures TownSlug(Lower(townName)) == TownSlug(townName)
  {
    NormalizeLower(townName);
    var n := NormalizeTownName(townName);
    assert Lower(Lower(n)) == Lower(n);
  }

  /** Lower-casing commutes with normalisation: '/', '.', '\n' and word characters
      keep their kind in lower case. */
  lemma NormalizeLower(townName: string)
    ensures NormalizeTownName(Lower(townName)) == Lower(NormalizeTownName(townName))
  {
    if townName != [] {
      var lt := Lower(townName);
      var ps := Split(townName, '/');
      var qs := Split(lt, '/');
      assert NormalizeTownName(lt) == StripExtension(qs[|qs| - 1]) by {
        NormalizeOfNonEmpty(lt);
      }
      assert NormalizeTownName(townName) == StripExtension(ps[|ps| - 1]) by {
        NormalizeOfNonEmpty(townName);
      }
      assert qs[|qs| - 1] == Lower(ps[|ps| - 1]) by {
        LastPieceLower(townName, '/');
      }
      StripExtensionLower(ps[|ps| - 1]);
    }
  }

  lemma NormalizeOfNonEmpty(townName: string)
    requires townName != []
    ensures var parts := Split(townName, '/');
            NormalizeTownName(townName) == StripExtension(parts[|parts| - 1])
  {}

  /** The last piece of split(sep) of the lower-cased text is the lower-cased last
      piece, for a separator that is not a letter. */
  lemma {:induction false} LastPieceLower(s: string, sep: char)
    requires !IsCased(sep)
    ensures var ps := Split(s, sep);
            var qs := Split(Lower(s), sep);
            qs[|qs| - 1] == Lower(ps[|ps| - 1])
  {
    if s != [] {
      var init := s[..|s| - 1];
      var c := s[|s| - 1];
      var ls := Lower(s);
      LastPieceLower(init, sep);
      assert ls[..|s| - 1] == Lower(init);
      assert ls[|ls| - 1] == ToLower(c);
      assert ToLower(c) == sep <==> c == sep;
      if c != sep {
        var ps := Split(init, sep);
        LowerConcat(ps[|ps| - 1], [c]);
      }
    }
  }

  /** The word suffix has the same length in the lower-cased text. */
  lemma {:induction false} WordSuffixLengthLower(s: string)
    ensures WordSuffixLength(Lower(s)) == WordSuffixLength(s)
  {
    if s != [] {
      WordSuffixLengthLower(s[..|s| - 1]);
      assert Lower(s)[..|s| - 1] == Lower(s[..|s| - 1]);
    }
  }

  lemma LowerPrefix(s: string, j: nat)
    requires j <= |s|
    ensures Lower(s)[..j] == Lower(s[..j])
  {}

  lemma LowerSlice(s: string, i: nat, j: nat)
    requires i <= j <= |s|
    ensures Lower(s)[i..j] == Lower(s[i..j])
  {}

  lemma LowerConcat(a: string, b: string)
    ensures Lower(a + b) == Lower(a) + Lower(b)
  {}

  /** Removing the extension commutes with lower-casing. */
  lemma StripExtensionLower(t: string)
    ensures StripExtension(Lower(t)) == Lower(StripExtension(t))
  {
    var nl := if t != [] && t[|t| - 1] == '\n' then 1 else 0;
    var k := WordSuffixLength(t[..|t| - nl]);
    assert StripExtension(Lower(t)) == CutExtension(Lower(t), nl, k) by {
      LowerStripFacts(t, nl, k);
      StripExtensionIsCut(Lower(t), nl, k);
    }
    assert StripExtension(t) == CutExtension(t, nl, k) by {
      StripExtensionIsCut(t, nl, k);
    }
    CutExtensionLower(t, nl, k);
  }

  /** The newline and the word suffix are where they were. */
  lemma LowerStripFacts(t: string, nl: nat, k: nat)
    requires nl == if t != [] && t[|t| - 1] == '\n' then 1 else 0
    requires k == WordSuffixLength(t[..|t| - nl])
    ensures var lt := Lower(t);
            (nl == if lt != [] && lt[|lt| - 1] == '\n' then 1 else 0) &&
            k == WordSuffixLength(lt[..|lt| - nl])
  {
    var lt := Lower(t);
    assert nl == if lt != [] && lt[|lt| - 1] == '\n' then 1 else 0 by {
      if t != [] {
        LowerKeepsKind(t[|t| - 1]);
      }
    }
    LowerPrefix(t, |t| - nl);
    WordSuffixLengthLower(t[..|t| - nl]);
  }

  lemma StripExtensionIsCut(t: string, nl: nat, k: nat)
    requires nl == if t != [] && t[|t| - 1] == '\n' then 1 else 0
    requires k == WordSuffixLength(t[..|t| - nl])
    ensures StripExtension(t) == CutExtension(t, nl, k)
  {}

  /** Lower-casing keeps '.', '\n' and '/' and changes no other character into them. */
  lemma LowerKeepsKind(c: char)
    ensures ToLower(c) == '.' <==> c == '.'
    ensures ToLower(c) == '\n' <==> c == '\n'
    ensures ToLower(c) == '/' <==> c == '/'
    ensures IsWordChar(ToLower(c)) <==> IsWordChar(c)
  {}

  /** Cutting at the same place commutes with lower-casing. */
  lemma CutExtensionLower(t: string, nl: nat, k: nat)
    requires nl + k <= |t|
    ensures CutExtension(Lower(t), nl, k) == Lower(CutExtension(t, nl, k))
  {
    var cut := |t| - nl - k - 1;
    if 0 < k < |t| - nl && t[cut] == '.' {
      assert Lower(t)[cut] == '.';
      LowerCutPieces(t, cut, |t| - nl);
    } else if 0 < k < |t| - nl {
      assert Lower(t)[cut] != '.' by {
        LowerKeepsKind(t[cut]);
      }
    }
  }

  /** Lower-casing the text with t[i..j] removed. */
  lemma LowerCutPieces(t: string, i: nat, j: nat)
    requires i <= j <= |t|
    ensures Lower(t)[..i] + Lower(t)[j..] == Lower(t[..i] + t[j..])
  {
    LowerConcat(t[..i], t[j..]);
  }

  /** make_segment_name: "segment-<slug>-<episode, zero-padded to 3>". */
  function MakeSegmentName(townName: string, episodeIdx: int): (name: string)
    ensures '/' !in name
    ensures |name| >= |"segment-"| + |TownSlug(townName)| + 4
  {
    "segment-" + TownSlug(townName) + "-" + FormatPadded(episodeIdx, 3)
  }

  /** A segment name is "segment-", the slug, "-", then at least three digits that
      read back as a non-negative episode index. */
  lemma SegmentNameParts(townName: string, episodeIdx: nat)
    ensures var name := MakeSegmentName(townName, episodeIdx);
            var d := FormatPadded(episodeIdx, 3);
            name == "segment-" + TownSlug(townName) + "-" + d &&
            |d| >= 3 && (forall i :: 0 <= i < |d| ==> IsDigit(d[i])) && DecimalValue(d) == episodeIdx
  {
    FormatPaddedNonNegative(episodeIdx, 3);
  }

  /** The segment names of two episodes of the same town differ. */
  lemma SegmentNamesDistinct(townName: string, a: nat, b: nat)
    requires a != b
    ensures MakeSegmentName(townName, a) != MakeSegmentName(townName, b)
  {
    SegmentNameParts(townName, a);
    SegmentNameParts(townName, b);
    var p := "segment-" + TownSlug(townName) + "-";
    assert MakeSegmentName(townName, a)[|p|..] == FormatPadded(a, 3);
    assert MakeSegmentName(townName, b)[|p|..] == FormatPadded(b, 3);
  }

  // ---------------------------------------------------------------------
  // The --towns argument

  /** The item a piece gives: its stripped text, normalised, or nothing when
      that is empty. */
  function PieceItem(piece: string): Option<string> {
    if Strip(piece) != [] then Some(NormalizeTownName(Strip(piece))) else None
  }

  /** The kept items of "a, b,,c".split(','): each piece stripped, empty pieces
      dropped, the rest normalised. */
  function TownItems(pieces: seq<string>): (items: seq<string>)
    ensures |items| <= |pieces|
    ensures items == [] <==> forall i :: 0 <= i < |pieces| ==> Strip(pieces[i]) == []
  {
    KeptEmpty(PieceItem, pieces);
    Kept(PieceItem, pieces)
  }

  /** The item a piece gives, as a relation. */
  predicate ItemOf(piece: string, name: string) {
    Strip(piece) != [] && name == NormalizeTownName(Strip(piece))
  }

  /** A name is an item exactly when some non-blank piece strips and normalises to it. */
  lemma TownItemsMembers(pieces: seq<string>, name: string)
    ensures name in TownItems(pieces) <==> exists i :: 0 <= i < |pieces| && ItemOf(pieces[i], name)
  {
    KeptMembers(PieceItem, pieces, name);
    assert forall i :: 0 <= i < |pieces| ==> (PieceItem(pieces[i]) == Some(name) <==> ItemOf(pieces[i], name));
  }

  /** One piece gives its normalised stripped text, or nothing when it is blank. */
  lemma TownItemsOne(p: string)
    ensures TownItems([p]) == if Strip(p) != [] then [NormalizeTownName(Strip(p))] else []
  {
    assert [p][..0] == [];
  }

  /** The items of two runs of pieces are the items of each, in order: with
      TownItemsOne, TownItems keeps exactly the non-blank pieces, in order. */
  lemma TownItemsAppend(a: seq<string>, b: seq<string>)
    ensures TownItems(a + b) == TownItems(a) + TownItems(b)
  {
    KeptAppend(PieceItem, a, b);
  }

  /** The items of all pieces but the last, then the last one's. */
  lemma TownItemsSnoc(pieces: seq<string>)
    requires pieces != []
    ensures TownItems(pieces) == TownItems(pieces[..|pieces| - 1]) + OptionSeq(PieceItem(pieces[|pieces| - 1]))
  {}

  /** parse_towns_arg: the items of the list, or the normalised fallback when the
      argument is absent or yields no item. */
  function ParseTownsArg(towns: Option<string>, fallbackTown: string): (r: seq<string>)
    ensures |r| >= 1
    ensures towns.None? ==> r == [NormalizeTownName(fallbackTown)]
    ensures towns.Some? && (forall p :: p in Split(towns.value, ',') ==> Strip(p) == []) ==>
              r == [NormalizeTownName(fallbackTown)]
  {
    if towns.None? then [NormalizeTownName(fallbackTown)]
    else
      var items := TownItems(Split(towns.value, ','));
      if items != [] then items else [NormalizeTownName(fallbackTown)]
  }

  /** A name that the list parser reads back unchanged. */
  predicate CleanTownName(name: string) {
    name != [] && ',' !in name && !IsSpace(name[0]) && !IsSpace(name[|name| - 1]) &&
    NormalizeTownName(name) == name
  }

  lemma {:induction false} TownItemsOfClean(names: seq<string>)
    requires forall i :: 0 <= i < |names| ==> CleanTownName(names[i])
    ensures TownItems(names) == names
  {
    if names != [] {
      var init := names[..|names| - 1];
      var last := names[|names| - 1];
      assert forall i :: 0 <= i < |init| ==> init[i] == names[i];
      TownItemsOfClean(init);
      assert CleanTownName(last);
      StripUnspaced(last);
      TownItemsSnoc(names);
      assert TownItems(names) == TownItems(init) + [NormalizeTownName(last)];
      InitPlusLast(names);
    }
  }

  lemma InitPlusLast(names: seq<string>)
    requires names != []
    ensures names[..|names| - 1] + [names[|names| - 1]] == names
  {}

  /** A comma-separated list of clean town names parses back to the same list. */
  lemma ParseTownsArgRoundTrip(names: seq<string>, fallbackTown: string)
    requires names != [] && forall i :: 0 <= i < |names| ==> CleanTownName(names[i])
    ensures ParseTownsArg(Some(Join(names, [','])), fallbackTown) == names
  {
    JoinSplit(names, ',');
    TownItemsOfClean(names);
  }

  /** An absent argument, an empty one and one made only of commas and blanks all
      give the fallback. */
  lemma ParseTownsArgFallback(fallbackTown: string)
    ensures ParseTownsArg(None, fallbackTown) == [NormalizeTownName(fallbackTown)]
    ensures ParseTownsArg(Some(""), fallbackTown) == [NormalizeTownName(fallbackTown)]
    ensures ParseTownsArg(Some(" , "), fallbackTown) == [NormalizeTownName(fallbackTown)]
  {
    BlankItemsDropped();
    assert Strip("") == [];
  }

  /** A list such as "Town10HD,Town04,Town05": plain town names joined by commas
      parse back to the same names. */
  lemma ParseTownsArgPlain(names: seq<string>, fallbackTown: string)
    requires names != []
    requires forall i :: 0 <= i < |names| ==> PlainTownName(names[i])
    ensures ParseTownsArg(Some(Join(names, [','])), fallbackTown) == names
  {
    forall i | 0 <= i < |names| ensures CleanTownName(names[i]) {
      CleanPlainName(names[i]);
    }
    ParseTownsArgRoundTrip(names, fallbackTown);
  }

  /** No '.', '/' or ',' and no blank at either end. */
  predicate PlainTownName(name: string) {
    name != [] && '.' !in name && '/' !in name && ',' !in name &&
    !IsSpace(name[0]) && !IsSpace(name[|name| - 1])
  }

  /** A name with no '.', '/' or ',' and no blank at either end is clean. */
  lemma CleanPlainName(name: string)
    requires PlainTownName(name)
    ensures CleanTownName(name)
  {
    NormalizePlain([], name);
  }

  /** " , " splits into two blank pieces, and both are dropped. */
  lemma BlankItemsDropped()
    ensures TownItems(Split(" , ", ',')) == []
  {
    BlankPiecesOfCommaList();
    BlankStripsToNothing();
  }

  lemma BlankPiecesOfCommaList()
    ensures Split(" , ", ',') == [" ", " "]
  {
    SplitFirst(" ", ',');
    assert " , " == " " + [','] + " ";
    SplitAppend(" ", " ", ',');
  }

  lemma BlankStripsToNothing()
    ensures Strip(" ") == []
  {
    assert LeadingSpaces(" ") == 1;
  }

  // ---------------------------------------------------------------------
  // Scheduling

  /** pick_town_for_episode. `draw` stands for the random generator's index choice in
      'random' mode; every other mode is round-robin. An empty list raises ValueError. */
  function PickTownForEpisode(townList: seq<string>, episodeIdx: int, episodeStart: int,
                              mode: string, draw: nat): (r: Result<string, string>)
    ensures r.Err? <==> townList == []
    ensures r.Ok? ==> r.value in townList
    ensures r.Ok? && mode != "random" ==> r.value == townList[(episodeIdx - episodeStart) % |townList|]
  {
    if townList == [] then Err("ValueError: town_list is empty")
    else if mode == "random" then Ok(townList[draw % |townList|])
    else Ok(townList[(episodeIdx - episodeStart) % |townList|])
  }

  /** Round-robin visits the list in order from the start episode on. */
  lemma RoundRobinInOrder(townList: seq<string>, episodeStart: int, k: int, mode: string)
    requires mode != "random" && 0 <= k < |townList|
    ensures PickTownForEpisode(townList, episodeStart + k, episodeStart, mode, 0) == Ok(townList[k])
  {
    assert episodeStart + k - episodeStart == k;
  }

  /** Round-robin repeats with the list's length as period, also for episodes
      before the start. */
  lemma RoundRobinPeriodic(townList: seq<string>, episodeStart: int, k: int, mode: string)
    requires townList != [] && mode != "random"
    ensures PickTownForEpisode(townList, k + |townList|, episodeStart, mode, 0) ==
            PickTownForEpisode(townList, k, episodeStart, mode, 0)
  {
    var a := k - episodeStart;
    assert k + |townList| - episodeStart == a + |townList|;
    ModShift(a, |townList|);
  }

  lemma ModShift(a: int, n: int)
    requires n > 0
    ensures (a + n) % n == a % n
  {
    var q := a / n;
    var r := a % n;
    assert a + n == (q + 1) * n + r;
    var d := (a + n) / n - (q + 1);
    assert d * n == r - (a + n) % n;
    MultipleBetween(d, n);
  }

  /** The only multiple of n strictly between -n and n is 0. */
  lemma MultipleBetween(d: int, n: int)
    requires n > 0 && -n < d * n < n
    ensures d == 0
  {}

  // ---------------------------------------------------------------------
  // The look-up cache

  /** road id -> count for the ids of one entry, later ids overwriting earlier ones. */
  function AddIds(m: map<int, int>, ids: seq<int>, count: int): (r: map<int, int>)
    ensures forall rid :: rid in r <==> rid in m || rid in ids
    ensures forall rid :: rid in ids ==> r[rid] == count
    ensures forall rid :: rid in m && rid !in ids ==> r[rid] == m[rid]
  {
    if ids == [] then m
    else AddIds(m, ids[..|ids| - 1], count)[ids[|ids| - 1] := count]
  }

  /** The road -> count dictionary the cache builds: every entry in order, a later
      entry overwriting an earlier one for the same road. */
  function CountMap(lc: seq<(int, seq<int>)>): (m: map<int, int>)
    ensures forall rid :: rid in m <==> exists i :: 0 <= i < |lc| && rid in lc[i].1
    ensures forall rid :: rid in m ==> exists i :: 0 <= i < |lc| && rid in lc[i].1 && m[rid] == lc[i].0
  {
    if lc == [] then map[]
    else AddIds(CountMap(lc[..|lc| - 1]), lc[|lc| - 1].1, lc[|lc| - 1].0)
  }

  /** No road is listed under two lane counts. */
  ghost predicate DisjointCounts(lc: seq<(int, seq<int>)>) {
    forall i, j, rid :: 0 <= i < j < |lc| && rid in lc[i].1 ==> rid !in lc[j].1
  }

  /** With disjoint entries the dictionary agrees with the first-match search. */
  lemma {:induction false} CountMapAgrees(lc: seq<(int, seq<int>)>, roadId: int)
    requires DisjointCounts(lc)
    ensures FirstMatch(lc, roadId).None? ==> roadId !in CountMap(lc)
    ensures FirstMatch(lc, roadId).Some? ==> roadId in CountMap(lc) && CountMap(lc)[roadId] == FirstMatch(lc, roadId).value
  {
    if lc != [] {
      var init := lc[..|lc| - 1];
      var last := lc[|lc| - 1];
      assert forall k :: 0 <= k < |init| ==> init[k] == lc[k];
      assert DisjointCounts(init);
      CountMapAgrees(init, roadId);
      FirstMatchMeaning(init, roadId);
    }
  }

  /** What the cache holds for a town key: the tables' dictionary and bad-road set,
      or empty ones for a key without a table. */
  function CachedCounts(key: string): map<int, int> {
    match TownClass(key)
    case None => map[]
    case Some(t) => CountMap(t.laneCount)
  }

  function CachedBadRoads(key: string): set<int> {
    match TownClass(key)
    case None => {}
    case Some(t) => set r | r in t.badRoadIds
  }

  /** get_gt_lane_count_fast as a value: -1 for an unknown road or town, and
      otherwise the count of an entry of the town's table that lists the road. */
  function FastLaneCount(townName: string, roadId: int): (n: int)
    ensures var t := TownClass(TownKeyForGt(townName));
            t.None? || (forall i :: 0 <= i < |t.value.laneCount| ==> roadId !in t.value.laneCount[i].1) ==> n == -1
    ensures var t := TownClass(TownKeyForGt(townName));
            t.Some? && (exists i :: 0 <= i < |t.value.laneCount| && roadId in t.value.laneCount[i].1) ==>
              exists i :: 0 <= i < |t.value.laneCount| && roadId in t.value.laneCount[i].1 && n == t.value.laneCount[i].0
  {
    var m := CachedCounts(TownKeyForGt(townName));
    if roadId in m then m[roadId] else -1
  }

  /** is_bad_road_id_fast as a value: false for an unknown town. */
  function FastIsBad(townName: string, roadId: int): (bad: bool)
    ensures var t := TownClass(TownKeyForGt(townName));
            bad <==> t.Some? && roadId in t.value.badRoadIds
  {
    roadId in CachedBadRoads(TownKeyForGt(townName))
  }

  /** The module-level caches _road_to_lane_count_cache and _bad_road_cache. */
  class TownCache {
    var roadToLaneCount: map<string, map<int, int>>
    var badRoads: map<string, set<int>>

    /** Every cached key holds what the tables give for it, in both caches. */
    ghost predicate Valid()
      reads this
    {
      (forall key :: key in roadToLaneCount ==>
         roadToLaneCount[key] == CachedCounts(key) && key in badRoads && badRoads[key] == CachedBadRoads(key))
    }

    constructor ()
      ensures Valid() && roadToLaneCount == map[] && badRoads == map[]
    {
      roadToLaneCount := map[];
      badRoads := map[];
    }

    /** _build_cache_for_town: fills both caches for the town's key unless the
        dictionary cache already has it. */
    method BuildCacheForTown(townName: string)
      requires Valid()
      modifies this
      ensures Valid()
      ensures var key := TownKeyForGt(townName);
              if key in old(roadToLaneCount) then
                roadToLaneCount == old(roadToLaneCount) && badRoads == old(badRoads)
              else
                roadToLaneCount == old(roadToLaneCount)[key := CachedCounts(key)] &&
                badRoads == old(badRoads)[key := CachedBadRoads(key)]
    {
      var tkey := TownKeyForGt(townName);
      if tkey in roadToLaneCount {
        return;
      }
      var cls := TownClass(tkey);
      if cls.None? {
        roadToLaneCount := roadToLaneCount[tkey := map[]];
        badRoads := badRoads[tkey := {}];
        return;
      }
      var road2count := BuildCountMap(cls.value.laneCount);
      roadToLaneCount := roadToLaneCount[tkey := road2count];
      badRoads := badRoads[tkey := set r | r in cls.value.badRoadIds];
    }

    /** get_gt_lane_count_fast: builds the town's cache, then looks the road up. */
    method GetGtLaneCountFast(townName: string, roadId: int) returns (n: int)
      requires Valid()
      modifies this
      ensures Valid() && TownKeyForGt(townName) in roadToLaneCount
      ensures n == FastLaneCount(townName, roadId)
      ensures var key := TownKeyForGt(townName);
              if key in old(roadToLaneCount) then
                roadToLaneCount == old(roadToLaneCount) && badRoads == old(badRoads)
              else
                roadToLaneCount == old(roadToLaneCount)[key := CachedCounts(key)] &&
                badRoads == old(badRoads)[key := CachedBadRoads(key)]
    {
      BuildCacheForTown(townName);
      var tkey := TownKeyForGt(townName);
      var m := if tkey in roadToLaneCount then roadToLaneCount[tkey] else map[];
      n := if roadId in m then m[roadId] else -1;
    }

    /** is_bad_road_id_fast: builds the town's cache, then tests membership. */
    method IsBadRoadIdFast(townName: string, roadId: int) returns (bad: bool)
      requires Valid()
      modifies this
      ensures Valid() && TownKeyForGt(townName) in roadToLaneCount
      ensures bad == FastIsBad(townName, roadId)
      ensures var key := TownKeyForGt(townName);
              if key in old(roadToLaneCount) then
                roadToLaneCount == old(roadToLaneCount) && badRoads == old(badRoads)
              else
                roadToLaneCount == old(roadToLaneCount)[key := CachedCounts(key)] &&
                badRoads == old(badRoads)[key := CachedBadRoads(key)]
    {
      BuildCacheForTown(townName);
      var tkey := TownKeyForGt(townName);
      var s := if tkey in badRoads then badRoads[tkey] else {};
      bad := roadId in s;
    }
  }

  /** The nested loop of _build_cache_for_town over the lane_count entries. */
  method BuildCountMap(lc: seq<(int, seq<int>)>) returns (road2count: map<int, int>)
    ensures road2count == CountMap(lc)
  {
    road2count := map[];
    for i := 0 to |lc|
      invariant road2count == CountMap(lc[..i])
    {
      assert lc[..i + 1][..i] == lc[..i];
      var (count, roadIds) := lc[i];
      ghost var before := road2count;
      for j := 0 to |roadIds|
        invariant road2count == AddIds(before, roadIds[..j], count)
      {
        assert roadIds[..j + 1][..j] == roadIds[..j];
        road2count := road2count[roadIds[j] := count];
      }
      assert roadIds[..|roadIds|] == roadIds;
    }
    assert lc[..|lc|] == lc;
  }

  /** For a town without a table the fast look-ups give -1 and false. */
  lemma FastUnknownTown(townName: string, roadId: int)
    requires TownClass(TownKeyForGt(townName)).None?
    ensures FastLaneCount(townName, roadId) == -1 && !FastIsBad(townName, roadId)
  {}

  /** For a town name in table form, the fast look-ups agree with the slow ones:
      always for bad roads, and for lane counts when no road is listed twice. */
  lemma FastAgreesWithSlow(townName: string, roadId: int)
    requires NormalizeTownName(townName) == townName && GetTownInfo(townName).Ok?
    ensures IsBadRoadId(townName, roadId) == Ok(FastIsBad(townName, roadId))
    ensures DisjointCounts(GetTownInfo(townName).value.laneCount) ==>
              FastLaneCount(townName, roadId) ==
              match FirstMatch(GetTownInfo(townName).value.laneCount, roadId)
              case None => -1
              case Some(c) => c
  {
    var lc := GetTownInfo(townName).value.laneCount;
    if DisjointCounts(lc) {
      CountMapAgrees(lc, roadId);
    }
  }
}

=== FILE: marking.dfy ===
// Lane markings as the simulator reports them, and the OpenLane category
// code the generator derives from a marking's colour and type.

module Marking {

  /** The simulator's lane-marking types. */
  datatype MarkingType =
    | NONE | Other | Broken | Solid | SolidSolid | SolidBroken | BrokenSolid
    | BrokenBroken | BottsDots | Grass | Curb

  /** The simulator's lane-marking colours; its `Standard` colour is an alias of `White`. */
  datatype MarkingColor = White | Blue | Green | Red | Yellow | OtherColor

  datatype LaneMarking = LaneMarking(kind: MarkingType, color: MarkingColor)

  /** The six paired line types, numbered in the order the category table lists them. */
  function PairedIndex(t: MarkingType): (k: int)
    ensures 0 <= k <= 6
  {
    match t
    case Broken => 1
    case Solid => 2
    case BrokenBroken => 3
    case SolidSolid => 4
    case BrokenSolid => 5
    case SolidBroken => 6
    case _ => 0
  }

  /** Category code: white lines 1-6, yellow lines 7-12, curbs 20, everything else 0. */
  function GetCategory(t: MarkingType, c: MarkingColor): (code: int)
    ensures code in {0, 1, 2, 3, 4, 5, 6, 7, 8, 9, 10, 11, 12, 20}
  {
    if c == White && t == Broken then 1
    else if c == White && t == Solid then 2
    else if c == White && t == BrokenBroken then 3
    else if c == White && t == SolidSolid then 4
    else if c == White && t == BrokenSolid then 5
    else if c == White && t == SolidBroken then 6
    else if c == Yellow && t == Broken then 7
    else if c == Yellow && t == Solid then 8
    else if c == Yellow && t == BrokenBroken then 9
    else if c == Yellow && t == SolidSolid then 10
    else if c == Yellow && t == BrokenSolid then 11
    else if c == Yellow && t == SolidBroken then 12
    else if t == Curb then 20
    else 0
  }

  /** The table against an independent description: colour selects the block of six,
      the paired type the position in it; a curb of any colour is 20. */
  lemma CategoryByBlocks(t: MarkingType, c: MarkingColor)
    ensures c == White && PairedIndex(t) > 0 ==> GetCategory(t, c) == PairedIndex(t)
    ensures c == Yellow && PairedIndex(t) > 0 ==> GetCategory(t, c) == 6 + PairedIndex(t)
    ensures t == Curb ==> GetCategory(t, c) == 20
    ensures GetCategory(t, c) == 0 <==>
              t != Curb && (PairedIndex(t) == 0 || (c != White && c != Yellow))
  {}

  /** Inverse of the table on the line codes 1-12: the yellow flag and the type. */
  function DecodeCategory(code: int): (r: (bool, MarkingType))
    requires 1 <= code <= 12
    ensures PairedIndex(r.1) == (if code <= 6 then code else code - 6)
    ensures r.0 == (code > 6)
  {
    var k := if code <= 6 then code else code - 6;
    var t := if k == 1 then Broken else if k == 2 then Solid else if k == 3 then BrokenBroken
             else if k == 4 then SolidSolid else if k == 5 then BrokenSolid else SolidBroken;
    (code > 6, t)
  }

  /** A line code determines the colour and the type that produced it. */
  lemma CategoryRoundTrip(t: MarkingType, c: MarkingColor)
    requires 1 <= GetCategory(t, c) <= 12
    ensures DecodeCategory(GetCategory(t, c)) == (c == Yellow, t)
  {
    CategoryByBlocks(t, c);
  }
}

=== FILE: monotonic.dfy ===
// The forward-monotonic filter the generator applies to a sampled lane
// boundary: order the ground points by their forward coordinate y, then keep
// a point only when it lies more than min_dy ahead of the last point kept.
// A boundary is a sequence of ground points (x right, y forward, z up).

module Monotonic {
  import opened LinAlg

  // ---------------------------------------------------------------------
  // Subsequences

  /** `a` can be obtained from `b` by deleting elements, keeping the order. */
  ghost predicate IsSubsequence<T>(a: seq<T>, b: seq<T>)
    decreases |b|
  {
    a == [] ||
    (b != [] &&
     ((a[|a| - 1] == b[|b| - 1] && IsSubsequence(a[..|a| - 1], b[..|b| - 1])) ||
      IsSubsequence(a, b[..|b| - 1])))
  }

  /** Every element of a subsequence occurs in the sequence, and no more often. */
  lemma {:induction false} SubsequenceMultiset<T>(a: seq<T>, b: seq<T>)
    requires IsSubsequence(a, b)
    ensures multiset(a) <= multiset(b)
    decreases |b|
  {
    if a == [] {
    } else if a[|a| - 1] == b[|b| - 1] && IsSubsequence(a[..|a| - 1], b[..|b| - 1]) {
      SubsequenceMultiset(a[..|a| - 1], b[..|b| - 1]);
      assert a == a[..|a| - 1] + [a[|a| - 1]];
      assert b == b[..|b| - 1] + [b[|b| - 1]];
    } else {
      SubsequenceMultiset(a, b[..|b| - 1]);
      assert b == b[..|b| - 1] + [b[|b| - 1]];
    }
  }

  // ---------------------------------------------------------------------
  // Ordering by the forward coordinate

  ghost predicate SortedByY(s: seq<Vec3>) {
    forall i, j :: 0 <= i < j < |s| ==> s[i].y <= s[j].y
  }

  /** Inserts `p` before the first element whose y is not smaller. */
  function InsertByY(p: Vec3, s: seq<Vec3>): (r: seq<Vec3>)
    ensures multiset(r) == multiset(s) + multiset{p}
    ensures |r| == |s| + 1
  {
    if s == [] || p.y <= s[0].y then [p] + s
    else
      assert s == [s[0]] + s[1..];
      [s[0]] + InsertByY(p, s[1..])
  }

  lemma {:induction false} InsertByYSorted(p: Vec3, s: seq<Vec3>)
    requires SortedByY(s)
    ensures SortedByY(InsertByY(p, s))
    ensures forall q :: q in InsertByY(p, s) ==> q == p || q in s
  {
    if s == [] || p.y <= s[0].y {
    } else {
      InsertByYSorted(p, s[1..]);
      var r := InsertByY(p, s[1..]);
      assert forall q :: q in r ==> q.y >= s[0].y;
    }
  }

  /** The argsort by y: an insertion sort that keeps equal-y points in input order. */
  function SortByY(s: seq<Vec3>): (r: seq<Vec3>)
    ensures multiset(r) == multiset(s)
    ensures |r| == |s|
  {
    if s == [] then []
    else
      assert s == [s[0]] + s[1..];
      InsertByY(s[0], SortByY(s[1..]))
  }

  lemma {:induction false} SortByYSorted(s: seq<Vec3>)
    ensures SortedByY(SortByY(s))
  {
    if s != [] {
      SortByYSorted(s[1..]);
      InsertByYSorted(s[0], SortByY(s[1..]));
    }
  }

  // ---------------------------------------------------------------------
  // The keep-if-ahead filter

  /** The points the filter keeps from `s`, scanning left to right: the first
      point, then every point more than minDy ahead of the last one kept. */
  function KeepAhead(s: seq<Vec3>, minDy: real): (kept: seq<Vec3>)
    requires |s| >= 1
    ensures 1 <= |kept| <= |s| && kept[0] == s[0]
  {
    if |s| == 1 then [s[0]]
    else
      var k := KeepAhead(s[..|s| - 1], minDy);
      if s[|s| - 1].y > k[|k| - 1].y + minDy then k + [s[|s| - 1]] else k
  }

  lemma {:induction false} KeepAheadProperties(s: seq<Vec3>, minDy: real)
    requires |s| >= 1
    ensures IsSubsequence(KeepAhead(s, minDy), s)
    ensures forall i :: 0 <= i < |KeepAhead(s, minDy)| - 1 ==>
              KeepAhead(s, minDy)[i + 1].y > KeepAhead(s, minDy)[i].y + minDy
  {
    if |s| > 1 {
      var init := s[..|s| - 1];
      KeepAheadProperties(init, minDy);
      var k := KeepAhead(init, minDy);
      assert s[..|s| - 1] == init;
      if s[|s| - 1].y > k[|k| - 1].y + minDy {
        var r := k + [s[|s| - 1]];
        assert r[..|r| - 1] == k;
      }
    }
  }

  /** A point the filter drops lies at most minDy ahead of the last point kept before it. */
  lemma {:induction false} KeepAheadDrops(s: seq<Vec3>, minDy: real)
    requires |s| >= 2
    ensures var k := KeepAhead(s[..|s| - 1], minDy);
            KeepAhead(s, minDy) == k <==> s[|s| - 1].y <= k[|k| - 1].y + minDy
  {
    var k := KeepAhead(s[..|s| - 1], minDy);
    if s[|s| - 1].y > k[|k| - 1].y + minDy {
      assert |k + [s[|s| - 1]]| != |k|;
    }
  }

  /** What the generator's monotonic step returns. */
  function YMonotonic(pts: seq<Vec3>, minDy: real): (out: seq<Vec3>)
  {
    if |pts| < 2 then pts
    else
      var kept := KeepAhead(SortByY(pts), minDy);
      if |kept| < 2 then [] else kept
  }

  /** The filter's shape: short inputs pass through; otherwise the result is empty
      or a subsequence of the ordered points with at least two points, and it
      never holds a point more often than the input does. */
  lemma {:induction false} YMonotonicShape(pts: seq<Vec3>, minDy: real)
    ensures |pts| < 2 ==> YMonotonic(pts, minDy) == pts
    ensures |pts| >= 2 ==> YMonotonic(pts, minDy) == [] || |YMonotonic(pts, minDy)| >= 2
    ensures |pts| >= 2 ==> IsSubsequence(YMonotonic(pts, minDy), SortByY(pts))
    ensures multiset(YMonotonic(pts, minDy)) <= multiset(pts)
  {
    if |pts| >= 2 {
      var sorted := SortByY(pts);
      KeepAheadProperties(sorted, minDy);
      SubsequenceMultiset(YMonotonic(pts, minDy), sorted);
    }
  }

  /** A non-empty result starts at a point of minimal y. */
  lemma {:induction false} YMonotonicStartsAtMinimum(pts: seq<Vec3>, minDy: real)
    requires |pts| >= 2 && YMonotonic(pts, minDy) != []
    ensures forall p :: p in pts ==> YMonotonic(pts, minDy)[0].y <= p.y
  {
    var sorted := SortByY(pts);
    SortByYSorted(pts);
    var out := YMonotonic(pts, minDy);
    assert out[0] == sorted[0];
    forall p | p in pts ensures out[0].y <= p.y {
      assert p in multiset(sorted);
      var j :| 0 <= j < |sorted| && sorted[j] == p;
    }
  }

  /** Consecutive points of the result are more than minDy apart in y. */
  lemma {:induction false} YMonotonicGaps(pts: seq<Vec3>, minDy: real)
    requires |pts| >= 2
    ensures forall i :: 0 <= i < |YMonotonic(pts, minDy)| - 1 ==>
              YMonotonic(pts, minDy)[i + 1].y > YMonotonic(pts, minDy)[i].y + minDy
  {
    KeepAheadProperties(SortByY(pts), minDy);
  }

  /** One step of the scan: the last point is appended exactly when it lies more
      than minDy ahead of the last point kept so far. */
  lemma KeepAheadStep(s: seq<Vec3>, i: int, minDy: real)
    requires 1 <= i < |s|
    ensures var k := KeepAhead(s[..i], minDy);
            KeepAhead(s[..i + 1], minDy) == if s[i].y > k[|k| - 1].y + minDy then k + [s[i]] else k
  {
    assert s[..i + 1][..i] == s[..i];
  }

  /** The one pass of _enforce_y_monotonic over the sorted points, tracking the
      y of the last point kept. */
  method ScanAhead(sorted: seq<Vec3>, minDy: real) returns (kept: seq<Vec3>)
    requires |sorted| >= 1
    ensures kept == KeepAhead(sorted, minDy)
  {
    kept := [sorted[0]];
    var lastY := sorted[0].y;
    for i := 1 to |sorted|
      invariant kept == KeepAhead(sorted[..i], minDy)
      invariant lastY == kept[|kept| - 1].y
    {
      KeepAheadStep(sorted, i, minDy);
      if sorted[i].y > lastY + minDy {
        kept := kept + [sorted[i]];
        lastY := sorted[i].y;
      }
    }
    assert sorted[..|sorted|] == sorted;
  }

  /** _enforce_y_monotonic: sort by y, then one pass keeping strictly-ahead points. */
  method EnforceYMonotonic(pts: seq<Vec3>, minDy: real) returns (out: seq<Vec3>)
    ensures out == YMonotonic(pts, minDy)
  {
    if |pts| < 2 {
      return pts;
    }
    var sorted := SortByY(pts);
    var kept := ScanAhead(sorted, minDy);
    if |kept| < 2 {
      return [];
    }
    return kept;
  }
}

=== FILE: progress.dfy ===
// Resuming a collection run: the next frame id is found from the image and
// label files already on disk. A frame counts only when both its image and its
// label exist; the next id follows the largest numeric id, or, when some name
// is not a number, is the number of complete frames.
//
// Directory listings are parameters: None stands for a directory that does not
// exist.

module Progress {
  import opened Wrappers
  import opened Text

  predicate EndsWith(s: string, suffix: string) {
    |suffix| <= |s| && s[|s| - |suffix|..] == suffix
  }

  /** The part of a file name before its first dot: a dot-free prefix that is the
      whole name or is followed by a dot. */
  function Stem(f: string): (stem: string)
    ensures stem <= f && '.' !in stem
    ensures |stem| < |f| ==> f[|stem|] == '.'
  {
    SplitFirst(f, '.');
    Split(f, '.')[0]
  }

  /** The stems of the listed files that carry the given extension. */
  function Stems(listing: seq<string>, ext: string): (stems: set<string>)
    ensures forall f :: f in listing && EndsWith(f, ext) ==> Stem(f) in stems
    ensures forall s :: s in stems ==> exists f :: f in listing && EndsWith(f, ext) && Stem(f) == s
  {
    set f | f in listing && EndsWith(f, ext) :: Stem(f)
  }

  /** The ids of frames whose image and label both exist. */
  function ValidIds(imgs: seq<string>, jsons: seq<string>): set<string> {
    Stems(imgs, ".jpg") * Stems(jsons, ".json")
  }

  /** Whether int() accepts every id. */
  predicate AllNumeric(ids: set<string>) {
    forall id :: id in ids ==> ParseInt(id).Some?
  }

  /** The integers the ids stand for. */
  function IdValues(ids: set<string>): (values: set<int>)
    requires AllNumeric(ids)
    ensures forall id :: id in ids ==> ParseInt(id).value in values
    ensures forall v :: v in values ==> exists id :: id in ids && ParseInt(id).value == v
    ensures ids != {} ==> values != {}
  {
    set id | id in ids :: ParseInt(id).value
  }

  predicate IsLargest(m: int, s: set<int>) {
    m in s && forall y :: y in s ==> y <= m
  }

  /** The larger of an element and the largest of the other elements is the largest. */
  lemma LargestOfInsert(s: set<int>, x: int, m: int)
    requires x in s && IsLargest(m, s - {x})
    ensures IsLargest(if x <= m then m else x, s)
  {
    var top := if x <= m then m else x;
    forall y | y in s ensures y <= top {
      if y != x {
        assert y in s - {x};
      }
    }
  }

  /** Every non-empty finite set of integers has a largest element. */
  lemma {:induction false} LargestExists(s: set<int>)
    requires s != {}
    ensures exists m :: IsLargest(m, s)
  {
    assert (forall y :: y !in s) ==> s == {};
    var x :| x in s;
    if s == {x} {
      assert IsLargest(x, s);
    } else {
      LargestExists(s - {x});
      var m :| IsLargest(m, s - {x});
      LargestOfInsert(s, x, m);
    }
  }

  /** max() of a non-empty set of integers. */
  function Largest(s: set<int>): (m: int)
    requires s != {}
    ensures m in s && forall y :: y in s ==> y <= m
  {
    LargestExists(s);
    var m :| IsLargest(m, s);
    m
  }

  /** The next id given the complete frames: 0 for none, one past the largest when
      every id is a number, else their count. */
  function NextFrameId(ids: set<string>): (next: int)
    ensures ids == {} ==> next == 0
    ensures AllNumeric(ids) ==> forall id :: id in ids ==> ParseInt(id).value < next
  {
    if |ids| == 0 then 0
    else if AllNumeric(ids) then Largest(IdValues(ids)) + 1
    else |ids|
  }

  /** _get_existing_progress: the id of the next frame to write. */
  function ExistingProgress(imgListing: Option<seq<string>>, jsonListing: Option<seq<string>>): (next: int)
    ensures imgListing.None? || jsonListing.None? ==> next == 0
    ensures imgListing.Some? && jsonListing.Some? ==>
              var ids := ValidIds(imgListing.value, jsonListing.value);
              AllNumeric(ids) ==> forall id :: id in ids ==> ParseInt(id).value < next
  {
    if imgListing.None? || jsonListing.None? then 0
    else NextFrameId(ValidIds(imgListing.value, jsonListing.value))
  }

  /** An image without its label, or a label without its image, does not count: with
      no complete frame the run starts from 0. */
  lemma ProgressNoCompleteFrame(imgs: seq<string>, jsons: seq<string>)
    requires forall f, g :: f in imgs && EndsWith(f, ".jpg") && g in jsons && EndsWith(g, ".json") ==> Stem(f) != Stem(g)
    ensures ExistingProgress(Some(imgs), Some(jsons)) == 0
  {
    var ids := ValidIds(imgs, jsons);
    assert ids == {};
  }

  /** With numeric ids, the run resumes just after the largest id: the next id is one
      more than some complete frame's number and larger than every one of them. */
  lemma ProgressAfterLargest(ids: set<string>)
    requires ids != {} && AllNumeric(ids)
    ensures exists id :: id in ids && NextFrameId(ids) == ParseInt(id).value + 1
    ensures forall id :: id in ids ==> ParseInt(id).value < NextFrameId(ids)
  {
    var values := IdValues(ids);
    var m := Largest(values);
    assert |ids| != 0;
    assert NextFrameId(ids) == m + 1;
    var id :| id in ids && ParseInt(id).value == m;
    assert NextFrameId(ids) == ParseInt(id).value + 1;
  }

  /** When some complete frame's name is not a number, the next id is the number of
      complete frames. */
  lemma ProgressFallsBackToCount(ids: set<string>, bad: string)
    requires bad in ids && ParseInt(bad).None?
    ensures NextFrameId(ids) == |ids|
  {}

  // ---------------------------------------------------------------------
  // The names the collection loop writes

  /** The id of frame n in file names: six digits, zero-padded. */
  function FileId(n: nat): (id: string)
    ensures |id| >= 6 && forall i :: 0 <= i < |id| ==> IsDigit(id[i])
  {
    FormatPaddedNonNegative(n, 6);
    FormatPadded(n, 6)
  }

  /** int() reads a file id back as its frame number. */
  lemma FileIdParses(n: nat)
    ensures ParseInt(FileId(n)) == Some(n)
  {
    FormatPaddedNonNegative(n, 6);
    ParseIntOfDigits(FileId(n));
  }

  /** The file names written for the given frames with one extension. */
  function WrittenNames(frames: seq<nat>, ext: string): (names: seq<string>)
    ensures |names| == |frames|
    ensures forall i :: 0 <= i < |frames| ==> names[i] == FileId(frames[i]) + ext
  {
    seq(|frames|, i requires 0 <= i < |frames| => FileId(frames[i]) + ext)
  }

  /** The stem of a written name is the frame's id. */
  lemma StemOfWritten(n: nat, e: string)
    requires '.' !in e
    ensures Stem(FileId(n) + ("." + e)) == FileId(n)
  {
    assert FileId(n) + ("." + e) == FileId(n) + ['.'] + e;
    SplitAppend(FileId(n), e, '.');
    assert '.' !in FileId(n);
    SplitFirst(FileId(n), '.');
  }

  /** The frames written, as file ids. */
  function WrittenIds(frames: seq<nat>): (ids: set<string>)
    ensures forall i :: 0 <= i < |frames| ==> FileId(frames[i]) in ids
    ensures forall id :: id in ids ==> exists i :: 0 <= i < |frames| && id == FileId(frames[i])
  {
    set i | 0 <= i < |frames| :: FileId(frames[i])
  }

  /** A written name carries its extension. */
  lemma WrittenEndsWith(id: string, ext: string)
    ensures EndsWith(id + ext, ext)
  {
    assert (id + ext)[|id|..] == ext;
  }

  /** The i-th written name has the i-th frame's id as its stem and carries the
      extension. */
  lemma WrittenNameAt(frames: seq<nat>, e: string, i: nat)
    requires '.' !in e && i < |frames|
    ensures Stem(WrittenNames(frames, "." + e)[i]) == FileId(frames[i])
    ensures EndsWith(WrittenNames(frames, "." + e)[i], "." + e)
  {
    StemOfWritten(frames[i], e);
    WrittenEndsWith(FileId(frames[i]), "." + e);
  }

  /** Every id found among the names written with one extension is a written frame's. */
  lemma StemsOfWrittenSub(frames: seq<nat>, e: string, id: string)
    requires '.' !in e && id in Stems(WrittenNames(frames, "." + e), "." + e)
    ensures id in WrittenIds(frames)
  {
    var names := WrittenNames(frames, "." + e);
    var f :| f in names && EndsWith(f, "." + e) && Stem(f) == id;
    var i :| 0 <= i < |names| && names[i] == f;
    WrittenNameAt(frames, e, i);
  }

  /** Every written frame's id is found among its names. */
  lemma StemsOfWrittenSuper(frames: seq<nat>, e: string, i: nat)
    requires '.' !in e && i < |frames|
    ensures FileId(frames[i]) in Stems(WrittenNames(frames, "." + e), "." + e)
  {
    var names := WrittenNames(frames, "." + e);
    WrittenNameAt(frames, e, i);
    assert names[i] in names;
  }

  /** The ids found among the names written with one extension are the ids of the
      written frames. */
  lemma StemsOfWritten(frames: seq<nat>, e: string)
    requires '.' !in e
    ensures Stems(WrittenNames(frames, "." + e), "." + e) == WrittenIds(frames)
  {
    var found := Stems(WrittenNames(frames, "." + e), "." + e);
    forall id | id in found ensures id in WrittenIds(frames) {
      StemsOfWrittenSub(frames, e, id);
    }
    forall id | id in WrittenIds(frames) ensures id in found {
      var i :| 0 <= i < |frames| && id == FileId(frames[i]);
      StemsOfWrittenSuper(frames, e, i);
    }
  }

  /** The complete frames found on disk are exactly the frames written with both
      files. */
  lemma ValidIdsOfWritten(frames: seq<nat>)
    ensures ValidIds(WrittenNames(frames, ".jpg"), WrittenNames(frames, ".json")) ==
            WrittenIds(frames)
  {
    assert ".jpg" == "." + "jpg" && ".json" == "." + "json";
    StemsOfWritten(frames, "jpg");
    StemsOfWritten(frames, "json");
  }

  /** Resuming after a run that wrote frames 0 .. n-1 continues at frame n. */
  lemma ResumeAfterWrittenRun(n: nat)
    requires n > 0
    ensures var frames := seq(n, i requires 0 <= i < n => i as nat);
            ExistingProgress(Some(WrittenNames(frames, ".jpg")), Some(WrittenNames(frames, ".json"))) == n
  {
    var frames := seq(n, i requires 0 <= i < n => i as nat);
    ValidIdsOfWritten(frames);
    NextIdOfRun(n, frames);
  }

  lemma NextIdOfRun(n: nat, frames: seq<nat>)
    requires n > 0 && frames == seq(n, i requires 0 <= i < n => i as nat)
    ensures NextFrameId(WrittenIds(frames)) == n
  {
    var ids := WrittenIds(frames);
    RunIdsParse(n, frames);
    RunHasLast(n, frames);
    var values := IdValues(ids);
    assert n - 1 in values;
    assert Largest(values) == n - 1;
    assert NextFrameId(ids) == Largest(values) + 1;
  }

  /** The last frame of a run of n frames is among its ids and reads as n - 1. */
  lemma RunHasLast(n: nat, frames: seq<nat>)
    requires n > 0 && frames == seq(n, i requires 0 <= i < n => i as nat)
    ensures FileId(n - 1) in WrittenIds(frames) && ParseInt(FileId(n - 1)) == Some(n - 1)
  {
    assert frames[n - 1] == n - 1;
    FileIdParses(n - 1);
  }

  /** The ids of a run of n frames all read as numbers below n. */
  lemma RunIdsParse(n: nat, frames: seq<nat>)
    requires frames == seq(n, i requires 0 <= i < n => i as nat)
    ensures forall id :: id in WrittenIds(frames) ==> ParseInt(id).Some? && ParseInt(id).value < n
  {
    forall id | id in WrittenIds(frames) ensures ParseInt(id).Some? && ParseInt(id).value < n {
      var i :| 0 <= i < |frames| && id == FileId(frames[i]);
      FileIdParses(frames[i]);
    }
  }
}

=== FILE: projection.dfy ===
// The generator's pinhole projection of ground points into the image, with a
// visibility flag per point and the (-1, -1) sentinel for hidden points.
// The ground-to-camera map is the inverse of the camera-to-ground extrinsic E,
// taken as the rigid inverse; K is the 3x3 intrinsic matrix.

module Projection {
  import opened LinAlg

  datatype UV = UV(u: real, v: real)

  const Hidden: UV := UV(-1.0, -1.0)

  /** Default near-plane depth of the generator's projection. */
  const ZMin: real := 0.1

  /** K . inv(E)[0:3, :] . [p; 1]: the point in homogeneous pixel coordinates. */
  function ImagePlane(p: Vec3, e: Affine, k: Mat3): Vec3 {
    MatVec(k, Apply(RigidInverse(e), p))
  }

  /** One column of _project_ground_to_uv: its uv and its flag (1.0 or 0.0). */
  function ProjectPoint(p: Vec3, e: Affine, k: Mat3, w: int, h: int, zmin: real): (r: (UV, real))
    requires zmin >= 0.0
    ensures r.1 == 1.0 || r.1 == 0.0
    ensures var q := ImagePlane(p, e, k);
            r.1 == 1.0 <==>
              q.z > zmin && 0.0 <= q.x / q.z < w as real && 0.0 <= q.y / q.z < h as real
    ensures r.1 == 0.0 ==> r.0 == Hidden
  {
    var q := ImagePlane(p, e, k);
    var front := q.z > zmin;
    var zsafe := if front then q.z else 1.0;
    var u := q.x / zsafe;
    var v := q.y / zsafe;
    var inImage := 0.0 <= u && u < w as real && 0.0 <= v && v < h as real;
    if front && inImage then (UV(u, v), 1.0) else (Hidden, 0.0)
  }

  /** A visible point's uv is its perspective image: depth times (u, v, 1) is
      the homogeneous pixel vector, and it lies inside the image. */
  lemma VisibleIsPinholeImage(p: Vec3, e: Affine, k: Mat3, w: int, h: int, zmin: real)
    requires zmin >= 0.0
    requires ProjectPoint(p, e, k, w, h, zmin).1 == 1.0
    ensures var q := ImagePlane(p, e, k);
            var uv := ProjectPoint(p, e, k, w, h, zmin).0;
            q == Scale(q.z, Vec3(uv.u, uv.v, 1.0)) &&
            0.0 <= uv.u < w as real && 0.0 <= uv.v < h as real
  {
    var q := ImagePlane(p, e, k);
    assert q.z > 0.0;
    assert q.z * (q.x / q.z) == q.x;
    assert q.z * (q.y / q.z) == q.y;
  }

  /** The uv alone tells a visible point from a hidden one: the sentinel lies
      outside the image, every visible uv inside it. */
  lemma SentinelIsOutside(p: Vec3, e: Affine, k: Mat3, w: int, h: int, zmin: real)
    requires zmin >= 0.0
    ensures ProjectPoint(p, e, k, w, h, zmin).1 == 1.0 <==> ProjectPoint(p, e, k, w, h, zmin).0.u >= 0.0
  {}

  /** _project_ground_to_uv: the uv row pair and the flag row for N ground points. */
  function ProjectGroundToUv(pts: seq<Vec3>, e: Affine, k: Mat3, w: int, h: int, zmin: real)
    : (r: (seq<UV>, seq<real>))
    requires zmin >= 0.0
    ensures |r.0| == |pts| && |r.1| == |pts|
    ensures forall i :: 0 <= i < |pts| ==> (r.0[i], r.1[i]) == ProjectPoint(pts[i], e, k, w, h, zmin)
  {
    if |pts| == 0 then ([], [])
    else
      (seq(|pts|, i requires 0 <= i < |pts| => ProjectPoint(pts[i], e, k, w, h, zmin).0),
       seq(|pts|, i requires 0 <= i < |pts| => ProjectPoint(pts[i], e, k, w, h, zmin).1))
  }

  /** np.sum over a flag row. */
  function Sum(xs: seq<real>): real {
    if xs == [] then 0.0 else Sum(xs[..|xs| - 1]) + xs[|xs| - 1]
  }

  /** The number of visible points: the indices whose flag is 1. */
  function VisibleCount(flags: seq<real>): (n: nat)
    ensures n <= |flags|
  {
    if flags == [] then 0
    else VisibleCount(flags[..|flags| - 1]) + (if flags[|flags| - 1] == 1.0 then 1 else 0)
  }

  /** On a row of 0/1 flags, the sum is the number of visible points. */
  lemma {:induction false} SumOfFlags(flags: seq<real>)
    requires forall i :: 0 <= i < |flags| ==> flags[i] == 0.0 || flags[i] == 1.0
    ensures Sum(flags) == VisibleCount(flags) as real
  {
    if flags != [] {
      SumOfFlags(flags[..|flags| - 1]);
    }
  }
}

=== FILE: roadsampler.dfy ===
// Sampling one lane boundary in the ground frame by walking the road graph
// forward and backward from a waypoint ("centre diffusion"), keeping the
// boundary points inside a box around the ego vehicle.
//
// The simulator's road graph is an abstract oracle: a waypoint value carries
// its pose, lane width and markings; `next`, `previous`, `leftLane` and
// `rightLane` give the first waypoint the simulator returns, or None, and
// `locate` the waypoint the map reports for a world location.

module RoadSampler {
  import opened Wrappers
  import opened LinAlg
  import opened Marking
  import opened Monotonic

  datatype Waypoint = Waypoint(
    center: Vec3,          // world location of the lane centre
    rightVec: Vec3,        // the waypoint transform's right vector
    laneWidth: real,
    leftMarking: LaneMarking,
    rightMarking: LaneMarking,
    isJunction: bool)

  datatype RoadGraph = RoadGraph(
    locate: Vec3 -> Option<Waypoint>,   // the map's waypoint lookup, projected to the road
    next: Waypoint -> Option<Waypoint>,
    previous: Waypoint -> Option<Waypoint>,
    leftLane: Waypoint -> Option<Waypoint>,
    rightLane: Waypoint -> Option<Waypoint>)

  /** Which boundary of a lane: side -1 is the left one, side 1 the right one. */
  datatype Side = LeftSide | RightSide {
    function Sign(): (s: real)
      ensures s == 1.0 || s == -1.0
    {
      if this == LeftSide then -1.0 else 1.0
    }
  }

  const SampleStep: real := 0.5
  const MaxDist: real := 103.0
  const BackDist: real := 20.0
  const LateralRange: real := 35.0
  const MinDy: real := 0.001

  /** The marking of the boundary on the given side: side -1 reads the left one. */
  function SideMarking(wp: Waypoint, side: Side): (m: LaneMarking)
    ensures m == if side.Sign() == -1.0 then wp.leftMarking else wp.rightMarking
  {
    if side == LeftSide then wp.leftMarking else wp.rightMarking
  }

  function Abs(r: real): real { if r < 0.0 then -r else r }

  /** The lane centre moved half a lane width along the right vector, towards the side. */
  function BoundaryWorld(wp: Waypoint, side: Side): Vec3 {
    var half := wp.laneWidth / 2.0;
    var s := side.Sign();
    Vec3(wp.center.x + wp.rightVec.x * half * s,
         wp.center.y + wp.rightVec.y * half * s,
         wp.center.z + wp.rightVec.z * half * s)
  }

  /** The box a sampled ground point must lie in to be kept. */
  predicate InBox(p: Vec3) {
    p.y > -BackDist && p.y < MaxDist && Abs(p.x) < LateralRange
  }

  /** The two boundaries of a lane lie on either side of its centre: their
      midpoint is the centre, and they are a lane width apart along the right
      vector. */
  lemma BoundariesStraddleCentre(wp: Waypoint)
    ensures var l, r := BoundaryWorld(wp, LeftSide), BoundaryWorld(wp, RightSide);
            (l.x + r.x) / 2.0 == wp.center.x && (l.y + r.y) / 2.0 == wp.center.y &&
            (l.z + r.z) / 2.0 == wp.center.z
    ensures var l, r := BoundaryWorld(wp, LeftSide), BoundaryWorld(wp, RightSide);
            r.x - l.x == wp.rightVec.x * wp.laneWidth && r.y - l.y == wp.rightVec.y * wp.laneWidth &&
            r.z - l.z == wp.rightVec.z * wp.laneWidth
  {
  }

  /** The box looks at the ground point's y and |x| only: it ignores the height
      and is the same on both sides of the vehicle, and it bounds y to
      (-BackDist, MaxDist). */
  lemma InBoxMirror(p: Vec3, z: real)
    ensures InBox(p) <==> InBox(Vec3(-p.x, p.y, z))
    ensures InBox(p) ==> -BackDist < p.y < MaxDist && -LateralRange < p.x < LateralRange
  {
  }

  /** int(target / step) + 20, the iteration bound of one walk. */
  function MaxLoops(target: real): (n: int)
    requires target >= 0.0
    ensures n >= 20
  {
    (target / SampleStep).Floor + 20
  }

  lemma MaxLoopsValues()
    ensures MaxLoops(MaxDist) == 226 && MaxLoops(BackDist) == 60
  {
    assert MaxDist / SampleStep == 206.0;
    assert BackDist / SampleStep == 40.0;
  }

  /** The points one walk collects from `curr` onwards, with `dist` travelled and
      `guard` iterations done. The third postcondition writes SampleStep as its
      value 0.5, which keeps the product linear. */
  function Walk(g: RoadGraph, side: Side, tgw: Affine, forward: bool,
                curr: Waypoint, dist: real, guard: int, target: real, maxLoops: int): (w: seq<Vec3>)
    ensures forall p :: p in w ==> InBox(p)
    ensures guard <= maxLoops ==> |w| <= maxLoops - guard
    ensures |w| > 0 ==> (|w| - 1) as real * 0.5 < target - dist
    decreases maxLoops - guard
  {
    if !(dist < target && guard < maxLoops) then []
    else if SideMarking(curr, side).kind == NONE then []
    else
      var here := Emitted(tgw, curr, side);
      var step := Advance(g, forward, curr);
      if step.None? then here
      else here + Walk(g, side, tgw, forward, step.value, dist + SampleStep, guard + 1, target, maxLoops)
  }

  /** The boundary point of one iteration, in the ground frame, if it lies in the box. */
  function Emitted(tgw: Affine, curr: Waypoint, side: Side): (r: seq<Vec3>)
    ensures |r| <= 1 && (r != [] ==> InBox(r[0]))
  {
    var p := Apply(tgw, BoundaryWorld(curr, side));
    if InBox(p) then [p] else []
  }

  /** The waypoint one step further along the walk's direction. */
  function Advance(g: RoadGraph, forward: bool, curr: Waypoint): (r: Option<Waypoint>)
    ensures forward ==> r == g.next(curr)
    ensures !forward ==> r == g.previous(curr)
  {
    if forward then g.next(curr) else g.previous(curr)
  }

  /** collect_points: the forward walk starts at the waypoint itself, the backward
      walk one step behind it (and collects nothing when there is none). */
  function Collected(g: RoadGraph, side: Side, tgw: Affine, start: Waypoint, forward: bool): (pts: seq<Vec3>)
    ensures forall p :: p in pts ==> InBox(p)
    ensures |pts| <= if forward then 206 else 39
  {
    MaxLoopsValues();
    if forward then Walk(g, side, tgw, true, start, 0.0, 0, MaxDist, MaxLoops(MaxDist))
    else match g.previous(start)
      case None => []
      case Some(p) => Walk(g, side, tgw, false, p, SampleStep, 0, BackDist, MaxLoops(BackDist))
  }

  /** A walk that starts on a waypoint without the marking collects nothing. */
  lemma WalkStopsAtNone(g: RoadGraph, side: Side, tgw: Affine, forward: bool,
                        curr: Waypoint, dist: real, guard: int, target: real, maxLoops: int)
    requires SideMarking(curr, side).kind == NONE
    ensures Walk(g, side, tgw, forward, curr, dist, guard, target, maxLoops) == []
  {}

  /** One iteration of a walk that goes on: the point it emits, then the rest of the walk. */
  lemma WalkUnfold(g: RoadGraph, side: Side, tgw: Affine, forward: bool,
                   curr: Waypoint, dist: real, guard: int, target: real, maxLoops: int)
    requires dist < target && guard < maxLoops && SideMarking(curr, side).kind != NONE
    ensures var step := Advance(g, forward, curr);
            Walk(g, side, tgw, forward, curr, dist, guard, target, maxLoops)
            == Emitted(tgw, curr, side)
               + (if step.None? then []
                  else Walk(g, side, tgw, forward, step.value, dist + SampleStep, guard + 1, target, maxLoops))
  {}

  /** One iteration of a walk that goes on, seen from the points collected so far. */
  lemma WalkAdvance(g: RoadGraph, side: Side, tgw: Affine, forward: bool,
                    curr: Waypoint, dist: real, guard: int, target: real, maxLoops: int,
                    before: seq<Vec3>, here: seq<Vec3>, whole: seq<Vec3>)
    requires dist < target && guard < maxLoops && SideMarking(curr, side).kind != NONE
    requires here == Emitted(tgw, curr, side)
    requires before + Walk(g, side, tgw, forward, curr, dist, guard, target, maxLoops) == whole
    ensures var step := Advance(g, forward, curr);
            if step.None? then before + here == whole
            else before + here + Walk(g, side, tgw, forward, step.value, dist + SampleStep, guard + 1, target, maxLoops) == whole
  {
    WalkUnfold(g, side, tgw, forward, curr, dist, guard, target, maxLoops);
    var step := Advance(g, forward, curr);
    if step.Some? {
      AppendAssoc(before, Emitted(tgw, curr, side),
                  Walk(g, side, tgw, forward, step.value, dist + SampleStep, guard + 1, target, maxLoops));
    }
  }

  lemma AppendAssoc<T>(a: seq<T>, b: seq<T>, c: seq<T>)
    ensures (a + b) + c == a + (b + c)
  {}

  /** One iteration's point: the boundary point in the ground frame, kept when it
      lies in the box. */
  method BoundaryPointInBox(tgw: Affine, curr: Waypoint, side: Side) returns (here: seq<Vec3>)
    ensures here == Emitted(tgw, curr, side)
  {
    var pGround := Apply(tgw, BoundaryWorld(curr, side));
    here := [];
    if InBox(pGround) {
      here := [pGround];
    }
  }

  /** collect_points as the source runs it: the backward walk first steps back
      once, then the guarded while loop of WalkLoop runs. */
  method CollectPoints(g: RoadGraph, side: Side, tgw: Affine, start: Waypoint, forward: bool)
    returns (collected: seq<Vec3>)
    ensures collected == Collected(g, side, tgw, start, forward)
  {
    var curr := start;
    var dist := 0.0;
    if !forward {
      var prevs := g.previous(curr);
      if prevs.None? {
        return [];
      }
      curr := prevs.value;
      dist := dist + SampleStep;
    }
    var target := if forward then MaxDist else BackDist;
    collected := WalkLoop(g, side, tgw, forward, curr, dist, target, MaxLoops(target));
  }

  /** The guarded while loop of collect_points, from `curr` at distance `dist`. */
  method WalkLoop(g: RoadGraph, side: Side, tgw: Affine, forward: bool,
                  curr0: Waypoint, dist0: real, target: real, maxLoops: int)
    returns (collected: seq<Vec3>)
    requires maxLoops >= 0
    ensures collected == Walk(g, side, tgw, forward, curr0, dist0, 0, target, maxLoops)
  {
    collected := [];
    var curr := curr0;
    var dist := dist0;
    var loopGuard := 0;
    ghost var whole := Walk(g, side, tgw, forward, curr, dist, 0, target, maxLoops);
    while dist < target && loopGuard < maxLoops
      invariant 0 <= loopGuard <= maxLoops
      invariant collected + Walk(g, side, tgw, forward, curr, dist, loopGuard, target, maxLoops) == whole
      decreases maxLoops - loopGuard
    {
      var here, step := WalkIteration(g, side, tgw, forward, curr, dist, loopGuard, target, maxLoops,
                                      collected, whole);
      collected := collected + here;
      if step.None? {
        break;
      }
      loopGuard := loopGuard + 1;
      curr := step.value;
      dist := dist + SampleStep;
    }
  }

  /** The body of the loop: a missing marking stops the walk with no point;
      otherwise the point is kept when in the box and the walk advances, stopping
      when there is no next waypoint. */
  method WalkIteration(g: RoadGraph, side: Side, tgw: Affine, forward: bool,
                       curr: Waypoint, dist: real, guard: int, target: real, maxLoops: int,
                       ghost before: seq<Vec3>, ghost whole: seq<Vec3>)
    returns (here: seq<Vec3>, step: Option<Waypoint>)
    requires dist < target && guard < maxLoops
    requires before + Walk(g, side, tgw, forward, curr, dist, guard, target, maxLoops) == whole
    ensures step.None? ==> before + here == whole
    ensures step.Some? ==>
              before + here + Walk(g, side, tgw, forward, step.value, dist + SampleStep, guard + 1, target, maxLoops) == whole
  {
    var marking := SideMarking(curr, side);
    if marking.kind == NONE {
      WalkStopsAtNone(g, side, tgw, forward, curr, dist, guard, target, maxLoops);
      return [], None;
    }
    here := BoundaryPointInBox(tgw, curr, side);
    WalkAdvance(g, side, tgw, forward, curr, dist, guard, target, maxLoops, before, here, whole);
    step := Advance(g, forward, curr);
  }

  function Reverse<T>(s: seq<T>): (r: seq<T>)
    ensures |r| == |s| && forall i :: 0 <= i < |s| ==> r[i] == s[|s| - 1 - i]
  {
    seq(|s|, i requires 0 <= i < |s| => s[|s| - 1 - i])
  }

  lemma ReverseMember<T>(s: seq<T>, x: T)
    requires x in Reverse(s)
    ensures x in s
  {
    var i :| 0 <= i < |s| && Reverse(s)[i] == x;
    assert s[|s| - 1 - i] == x;
  }

  /** _sample_lane_boundary_in_ground: backward points reversed, then forward
      points; fewer than two gives nothing, otherwise the monotonic filter. */
  function SampledBoundary(g: RoadGraph, side: Side, tgw: Affine, start: Waypoint): (pts: seq<Vec3>)
    ensures pts == [] || |pts| >= 2
    ensures forall i :: 0 <= i < |pts| - 1 ==> pts[i + 1].y > pts[i].y + MinDy
  {
    var all := Reverse(Collected(g, side, tgw, start, false)) + Collected(g, side, tgw, start, true);
    if |all| < 2 then []
    else
      YMonotonicShape(all, MinDy);
      YMonotonicGaps(all, MinDy);
      YMonotonic(all, MinDy)
  }

  method SampleLaneBoundary(g: RoadGraph, side: Side, tgw: Affine, start: Waypoint)
    returns (pts: seq<Vec3>)
    ensures pts == SampledBoundary(g, side, tgw, start)
  {
    var fwd := CollectPoints(g, side, tgw, start, true);
    var bwd := CollectPoints(g, side, tgw, start, false);
    var all := Reverse(bwd) + fwd;
    if |all| < 2 {
      return [];
    }
    pts := EnforceYMonotonic(all, MinDy);
  }

  /** A sampled boundary is empty or has at least two points, all inside the box,
      strictly more than MinDy apart in y and in increasing y order. */
  lemma {:induction false} SampledBoundaryProperties(g: RoadGraph, side: Side, tgw: Affine, start: Waypoint)
    ensures var pts := SampledBoundary(g, side, tgw, start);
            (pts == [] || |pts| >= 2) &&
            (forall p :: p in pts ==> InBox(p)) &&
            (forall i :: 0 <= i < |pts| - 1 ==> pts[i + 1].y > pts[i].y + MinDy)
  {
    var bwd := Collected(g, side, tgw, start, false);
    var fwd := Collected(g, side, tgw, start, true);
    var all := Reverse(bwd) + fwd;
    if |all| >= 2 {
      YMonotonicShape(all, MinDy);
      YMonotonicGaps(all, MinDy);
      var pts := YMonotonic(all, MinDy);
      forall p | p in pts ensures InBox(p) {
        assert p in multiset(pts);
        assert p in multiset(all);
        assert p in all;
        if p in Reverse(bwd) {
          ReverseMember(bwd, p);
        }
      }
    }
  }
}

=== FILE: sampler.dfy ===
// The frame sampler of the generator: per-town statistics of scanned and saved
// frames by lane count, weather, road and junction scene, and the
// accept/reject decision built on them (weather quota, junction preference,
// lane-count balancing by rejection sampling).
//
// The nested default dictionaries stats[town][category][key] are one map from
// the triple to its counters; a read of a missing triple inserts zero
// counters, as the default dictionaries do. global_lane_counts is a map with
// its keys in insertion order, as a Python dictionary keeps them. The random
// draw of the balancing step is a parameter.

module Sampler {
  import opened Wrappers

  /** The scanned and saved counters of one statistics entry. */
  datatype Counter = Counter(scanned: nat, saved: nat)

  /** A statistics key: a lane count or road id, or a weather or scene name. */
  datatype StatKey = IntKey(n: int) | TextKey(t: string)

  /** stats[town][category][key]. */
  datatype StatId = StatId(town: string, category: string, key: StatKey)

  datatype Metric = Scanned | Saved

  /** The sampler's mutable state as a value. */
  datatype SamplerState = SamplerState(stats: map<StatId, Counter>, laneCounts: map<int, int>, laneOrder: seq<int>)

  /** The options that configure the sampler. */
  datatype Config = Config(balanceLane: bool, preferJunction: bool, weatherQuota: Option<int>)

  /** global_lane_counts has exactly the keys of its insertion order, each once. */
  ghost predicate ValidState(s: SamplerState) {
    (forall i, j :: 0 <= i < j < |s.laneOrder| ==> s.laneOrder[i] != s.laneOrder[j]) &&
    (forall i :: 0 <= i < |s.laneOrder| ==> s.laneOrder[i] in s.laneCounts) &&
    (forall k :: k in s.laneCounts ==> k in s.laneOrder)
  }

  /** The counters of an entry, zero when it was never touched. */
  function Get(stats: map<StatId, Counter>, id: StatId): Counter {
    if id in stats then stats[id] else Counter(0, 0)
  }

  function GetCount(counts: map<int, int>, lane: int): int {
    if lane in counts then counts[lane] else 0
  }

  function Bump(c: Counter, metric: Metric): (r: Counter)
    ensures metric == Scanned ==> r == Counter(c.scanned + 1, c.saved)
    ensures metric == Saved ==> r == Counter(c.scanned, c.saved + 1)
  {
    match metric
    case Scanned => c.(scanned := c.scanned + 1)
    case Saved => c.(saved := c.saved + 1)
  }

  /** _update_stat: exactly one counter of one entry grows by one. */
  function UpdateStat(s: SamplerState, id: StatId, metric: Metric): (r: SamplerState)
    ensures Get(r.stats, id) == Bump(Get(s.stats, id), metric)
    ensures forall other :: other != id ==> Get(r.stats, other) == Get(s.stats, other)
    ensures r.laneCounts == s.laneCounts && r.laneOrder == s.laneOrder
  {
    s.(stats := s.stats[id := Bump(Get(s.stats, id), metric)])
  }

  /** The entries one frame touches: its lane count, weather and road, and the
      junction scene when it is at a junction. */
  function FrameIds(town: string, weather: string, laneCount: int, roadId: int, isJunction: bool): (ids: seq<StatId>)
    ensures forall i, j :: 0 <= i < j < |ids| ==> ids[i] != ids[j]
    ensures StatId(town, "scene", TextKey("junction")) in ids <==> isJunction
    ensures StatId(town, "weather", TextKey(weather)) in ids
  {
    [StatId(town, "lane_count", IntKey(laneCount)), StatId(town, "weather", TextKey(weather)),
     StatId(town, "road_id", IntKey(roadId))] +
    (if isJunction then [StatId(town, "scene", TextKey("junction"))] else [])
  }

  /** The _update_stat calls for the given entries, in order. */
  function Record(s: SamplerState, ids: seq<StatId>, metric: Metric): (r: SamplerState)
    ensures r.laneCounts == s.laneCounts && r.laneOrder == s.laneOrder
    decreases |ids|
  {
    if ids == [] then s else Record(UpdateStat(s, ids[0], metric), ids[1..], metric)
  }

  /** Recording distinct entries bumps each of them once and nothing else. */
  lemma {:induction false} RecordEffect(s: SamplerState, ids: seq<StatId>, metric: Metric)
    requires forall i, j :: 0 <= i < j < |ids| ==> ids[i] != ids[j]
    ensures forall id :: Get(Record(s, ids, metric).stats, id) ==
                         if id in ids then Bump(Get(s.stats, id), metric) else Get(s.stats, id)
    decreases |ids|
  {
    if ids != [] {
      var s1 := UpdateStat(s, ids[0], metric);
      RecordEffect(s1, ids[1..], metric);
      forall id ensures Get(Record(s, ids, metric).stats, id) ==
                        if id in ids then Bump(Get(s.stats, id), metric) else Get(s.stats, id) {
        if id == ids[0] {
          assert id !in ids[1..] by {
            forall k | 0 <= k < |ids[1..]| ensures ids[1..][k] != id {
              assert ids[1..][k] == ids[k + 1];
            }
          }
        } else {
          assert id in ids <==> id in ids[1..];
        }
      }
    }
  }

  /** The sum of the dictionary's values, in key order. */
  function SumCounts(order: seq<int>, counts: map<int, int>): int
    requires forall i :: 0 <= i < |order| ==> order[i] in counts
  {
    if order == [] then 0 else SumCounts(order[..|order| - 1], counts) + counts[order[|order| - 1]]
  }

  /** A default-dictionary read of global_lane_counts[lane]: a missing key is
      inserted with zero, at the end of the order. */
  function TouchCount(s: SamplerState, lane: int): (r: SamplerState)
    requires ValidState(s)
    ensures ValidState(r) && lane in r.laneCounts && r.stats == s.stats
    ensures forall l :: GetCount(r.laneCounts, l) == GetCount(s.laneCounts, l)
    ensures |r.laneOrder| == |s.laneOrder| + (if lane in s.laneCounts then 0 else 1)
  {
    if lane in s.laneCounts then s
    else s.(laneCounts := s.laneCounts[lane := 0], laneOrder := s.laneOrder + [lane])
  }

  /** A default-dictionary read of stats[town][category][key]. */
  function TouchStat(s: SamplerState, id: StatId): (r: SamplerState)
    ensures id in r.stats && r.stats[id] == Get(s.stats, id)
    ensures forall other :: Get(r.stats, other) == Get(s.stats, other)
    ensures r.laneCounts == s.laneCounts && r.laneOrder == s.laneOrder
  {
    if id in s.stats then s else s.(stats := s.stats[id := Counter(0, 0)])
  }

  /** global_lane_counts[lane] += 1. */
  function AddLane(s: SamplerState, lane: int): (r: SamplerState)
    requires ValidState(s)
    ensures ValidState(r) && r.stats == s.stats
    ensures forall l :: GetCount(r.laneCounts, l) == GetCount(s.laneCounts, l) + (if l == lane then 1 else 0)
  {
    var t := TouchCount(s, lane);
    t.(laneCounts := t.laneCounts[lane := t.laneCounts[lane] + 1])
  }

  /** _commit_save: one save for every entry of the frame, and one more frame of
      its lane count. */
  function CommitSave(s: SamplerState, town: string, weather: string, laneCount: int, roadId: int,
                      isJunction: bool): (r: SamplerState)
    requires ValidState(s)
    ensures ValidState(r)
    ensures forall id :: Get(r.stats, id) ==
              Counter(Get(s.stats, id).scanned,
                      Get(s.stats, id).saved + (if id in FrameIds(town, weather, laneCount, roadId, isJunction) then 1 else 0))
    ensures forall l :: GetCount(r.laneCounts, l) == GetCount(s.laneCounts, l) + (if l == laneCount then 1 else 0)
  {
    RecordEffect(s, FrameIds(town, weather, laneCount, roadId, isJunction), Saved);
    AddLane(Record(s, FrameIds(town, weather, laneCount, roadId, isJunction), Saved), laneCount)
  }

  /** The scan bookkeeping at the top of check_and_update: one scan for every
      entry of the frame, unless simulating. */
  function Scan(s: SamplerState, ids: seq<StatId>, simulate: bool): (r: SamplerState)
    requires forall i, j :: 0 <= i < j < |ids| ==> ids[i] != ids[j]
    ensures r.laneCounts == s.laneCounts && r.laneOrder == s.laneOrder
    ensures forall id :: Get(r.stats, id) ==
              Counter(Get(s.stats, id).scanned + (if !simulate && id in ids then 1 else 0), Get(s.stats, id).saved)
  {
    RecordEffect(s, ids, Scanned);
    if simulate then s else Record(s, ids, Scanned)
  }

  /** The weather quota is reached for the frame's town and weather. */
  predicate QuotaReached(cfg: Config, s: SamplerState, town: string, weather: string)
    ensures cfg.weatherQuota.None? ==> !QuotaReached(cfg, s, town, weather)
    ensures cfg.weatherQuota == Some(0) ==> QuotaReached(cfg, s, town, weather)
  {
    cfg.weatherQuota.Some? && Get(s.stats, StatId(town, "weather", TextKey(weather))).saved >= cfg.weatherQuota.value
  }

  /** The quota step: rejects exactly when the quota is reached; its read inserts
      the weather entry. */
  function QuotaCheck(cfg: Config, s: SamplerState, town: string, weather: string): (r: (bool, SamplerState))
    ensures r.0 <==> QuotaReached(cfg, s, town, weather)
    ensures forall id :: Get(r.1.stats, id) == Get(s.stats, id)
    ensures r.1.laneCounts == s.laneCounts && r.1.laneOrder == s.laneOrder
  {
    var weatherId := StatId(town, "weather", TextKey(weather));
    if cfg.weatherQuota.None? then (false, s)
    else
      var t := TouchStat(s, weatherId);
      (t.stats[weatherId].saved >= cfg.weatherQuota.value, t)
  }

  /** Lane balancing rejects: balancing is on, some lane count was saved, the
      average over the keys (with the frame's lane count inserted at zero if
      missing) exceeds 10, the frame's lane count exceeds 1.5 times it, and the
      draw falls below 1 - average / current. */
  predicate BalanceRejects(cfg: Config, s: SamplerState, laneCount: int, draw: real)
    requires ValidState(s)
    ensures BalanceRejects(cfg, s, laneCount, draw) ==>
              cfg.balanceLane && |s.laneCounts| > 0 && GetCount(s.laneCounts, laneCount) > 15
  {
    var n := |s.laneOrder| + (if laneCount in s.laneCounts then 0 else 1);
    var current := GetCount(s.laneCounts, laneCount) as real;
    var avg := SumCounts(s.laneOrder, s.laneCounts) as real / n as real;
    cfg.balanceLane && |s.laneCounts| > 0 && avg > 10.0 && current > avg * 1.5 && draw < 1.0 - avg / current
  }

  /** The balancing step: rejects exactly as BalanceRejects says; its read inserts
      the frame's lane count at zero. */
  function BalanceCheck(cfg: Config, s: SamplerState, laneCount: int, draw: real): (r: (bool, SamplerState))
    requires ValidState(s)
    ensures r.0 <==> BalanceRejects(cfg, s, laneCount, draw)
    ensures ValidState(r.1) && r.1.stats == s.stats
    ensures forall l :: GetCount(r.1.laneCounts, l) == GetCount(s.laneCounts, l)
  {
    if !(cfg.balanceLane && |s.laneCounts| > 0) then (false, s)
    else
      var t := TouchCount(s, laneCount);
      SumCountsTouch(s, laneCount);
      var current := t.laneCounts[laneCount] as real;
      var avg := SumCounts(t.laneOrder, t.laneCounts) as real / |t.laneOrder| as real;
      (avg > 10.0 && current > avg * 1.5 && draw < 1.0 - avg / current, t)
  }

  /** Acceptance: a commit unless simulating. */
  function Accept(s: SamplerState, town: string, weather: string, laneCount: int, roadId: int,
                  isJunction: bool, simulate: bool): (r: SamplerState)
    requires ValidState(s)
    ensures ValidState(r)
    ensures forall id :: Get(r.stats, id) ==
              Counter(Get(s.stats, id).scanned,
                      Get(s.stats, id).saved + (if !simulate && id in FrameIds(town, weather, laneCount, roadId, isJunction) then 1 else 0))
    ensures forall l :: GetCount(r.laneCounts, l) == GetCount(s.laneCounts, l) + (if !simulate && l == laneCount then 1 else 0)
  {
    if simulate then s else CommitSave(s, town, weather, laneCount, roadId, isJunction)
  }

  /** check_and_update as a state transition: the decision and the new state. The
      frame is rejected exactly on a reached weather quota, or, when the junction
      preference does not accept it outright, when lane balancing rejects. */
  function CheckAndUpdate(cfg: Config, s: SamplerState, town: string, weather: string, laneCount: int,
                          roadId: int, isJunction: bool, simulate: bool, draw: real): (r: (bool, SamplerState))
    requires ValidState(s)
    ensures r.0 <==> !QuotaReached(cfg, s, town, weather) &&
                     ((cfg.preferJunction && isJunction) || !BalanceRejects(cfg, s, laneCount, draw))
  {
    var s1 := Scan(s, FrameIds(town, weather, laneCount, roadId, isJunction), simulate);
    var (quotaRejects, s2) := QuotaCheck(cfg, s1, town, weather);
    if quotaRejects then (false, s2)
    else if cfg.preferJunction && isJunction then
      (true, Accept(s2, town, weather, laneCount, roadId, isJunction, simulate))
    else
      var (balanceRejects, s3) := BalanceCheck(cfg, s2, laneCount, draw);
      if balanceRejects then (false, s3)
      else (true, Accept(s3, town, weather, laneCount, roadId, isJunction, simulate))
  }

  // ---------------------------------------------------------------------
  // Properties of the decision

  /** Inserting a zero-valued key leaves the sum unchanged. */
  lemma {:induction false} SumCountsTouch(s: SamplerState, lane: int)
    requires ValidState(s)
    ensures SumCounts(TouchCount(s, lane).laneOrder, TouchCount(s, lane).laneCounts) == SumCounts(s.laneOrder, s.laneCounts)
  {
    if lane !in s.laneCounts {
      SumCountsFrame(s.laneOrder, s.laneCounts, s.laneCounts[lane := 0]);
      var order := s.laneOrder + [lane];
      assert order[..|order| - 1] == s.laneOrder;
    }
  }

  /** The sum reads only the keys of the order. */
  lemma {:induction false} SumCountsFrame(order: seq<int>, a: map<int, int>, b: map<int, int>)
    requires forall i :: 0 <= i < |order| ==> order[i] in a && order[i] in b && a[order[i]] == b[order[i]]
    ensures SumCounts(order, a) == SumCounts(order, b)
  {
    if order != [] {
      SumCountsFrame(order[..|order| - 1], a, b);
    }
  }

  /** The three ways check_and_update ends: rejected by the quota, accepted by the
      junction preference, or decided by balancing. */
  lemma CheckAndUpdatePaths(cfg: Config, s: SamplerState, town: string, weather: string,
                            laneCount: int, roadId: int, isJunction: bool, simulate: bool, draw: real)
    requires ValidState(s)
    ensures var s2 := QuotaCheck(cfg, Scan(s, FrameIds(town, weather, laneCount, roadId, isJunction), simulate),
                                 town, weather).1;
            var s3 := BalanceCheck(cfg, s2, laneCount, draw).1;
            var result := CheckAndUpdate(cfg, s, town, weather, laneCount, roadId, isJunction, simulate, draw);
            if QuotaReached(cfg, s, town, weather) then result == (false, s2)
            else if cfg.preferJunction && isJunction then
              result == (true, Accept(s2, town, weather, laneCount, roadId, isJunction, simulate))
            else if BalanceRejects(cfg, s, laneCount, draw) then result == (false, s3)
            else result == (true, Accept(s3, town, weather, laneCount, roadId, isJunction, simulate))
  {
    var s1 := Scan(s, FrameIds(town, weather, laneCount, roadId, isJunction), simulate);
    assert QuotaReached(cfg, s1, town, weather) == QuotaReached(cfg, s, town, weather);
    var s2 := QuotaCheck(cfg, s1, town, weather).1;
    assert s2.laneCounts == s.laneCounts && s2.laneOrder == s.laneOrder;
    assert BalanceRejects(cfg, s2, laneCount, draw) == BalanceRejects(cfg, s, laneCount, draw);
  }

  /** What check_and_update does to the statistics: without simulate, each entry
      of the frame gains one scan, and one save too when the frame is accepted;
      with simulate nothing changes. Every other entry keeps its counters. */
  lemma CheckAndUpdateStats(cfg: Config, s: SamplerState, town: string, weather: string,
                            laneCount: int, roadId: int, isJunction: bool, simulate: bool, draw: real)
    requires ValidState(s)
    ensures var result := CheckAndUpdate(cfg, s, town, weather, laneCount, roadId, isJunction, simulate, draw);
            var ids := FrameIds(town, weather, laneCount, roadId, isJunction);
            forall id :: Get(result.1.stats, id) ==
              Counter(Get(s.stats, id).scanned + (if !simulate && id in ids then 1 else 0),
                      Get(s.stats, id).saved + (if !simulate && result.0 && id in ids then 1 else 0))
  {
    CheckAndUpdatePaths(cfg, s, town, weather, laneCount, roadId, isJunction, simulate, draw);
  }

  /** What check_and_update does to global_lane_counts: the frame's lane count
      gains one exactly when a non-simulated call accepts; the dictionary stays
      well formed. */
  lemma CheckAndUpdateLaneCounts(cfg: Config, s: SamplerState, town: string, weather: string,
                                 laneCount: int, roadId: int, isJunction: bool, simulate: bool, draw: real)
    requires ValidState(s)
    ensures var result := CheckAndUpdate(cfg, s, town, weather, laneCount, roadId, isJunction, simulate, draw);
            ValidState(result.1) &&
            forall l :: GetCount(result.1.laneCounts, l) ==
              GetCount(s.laneCounts, l) + (if !simulate && result.0 && l == laneCount then 1 else 0)
  {
    CheckAndUpdatePaths(cfg, s, town, weather, laneCount, roadId, isJunction, simulate, draw);
  }

  /** Simulated calls never change a counter. */
  lemma SimulateChangesNoCounter(cfg: Config, s: SamplerState, town: string, weather: string,
                                 laneCount: int, roadId: int, isJunction: bool, draw: real)
    requires ValidState(s)
    ensures var r := CheckAndUpdate(cfg, s, town, weather, laneCount, roadId, isJunction, true, draw).1;
            (forall id :: Get(r.stats, id) == Get(s.stats, id)) &&
            (forall l :: GetCount(r.laneCounts, l) == GetCount(s.laneCounts, l))
  {
    CheckAndUpdateStats(cfg, s, town, weather, laneCount, roadId, isJunction, true, draw);
    CheckAndUpdateLaneCounts(cfg, s, town, weather, laneCount, roadId, isJunction, true, draw);
  }

  /** A reached weather quota rejects the frame and saves nothing. */
  lemma QuotaRejects(cfg: Config, s: SamplerState, town: string, weather: string,
                     laneCount: int, roadId: int, isJunction: bool, simulate: bool, draw: real)
    requires ValidState(s) && QuotaReached(cfg, s, town, weather)
    ensures var (save, r) := CheckAndUpdate(cfg, s, town, weather, laneCount, roadId, isJunction, simulate, draw);
            !save && (forall id :: Get(r.stats, id).saved == Get(s.stats, id).saved) &&
            (forall l :: GetCount(r.laneCounts, l) == GetCount(s.laneCounts, l))
  {
    CheckAndUpdateStats(cfg, s, town, weather, laneCount, roadId, isJunction, simulate, draw);
    CheckAndUpdateLaneCounts(cfg, s, town, weather, laneCount, roadId, isJunction, simulate, draw);
  }

  /** With junction preference, a junction frame within the quota is accepted. */
  lemma JunctionAccepted(cfg: Config, s: SamplerState, town: string, weather: string,
                         laneCount: int, roadId: int, simulate: bool, draw: real)
    requires ValidState(s) && cfg.preferJunction && !QuotaReached(cfg, s, town, weather)
    ensures CheckAndUpdate(cfg, s, town, weather, laneCount, roadId, true, simulate, draw).0
  {
  }

  // ---------------------------------------------------------------------
  // The sampler object

  class DataSampler {
    const cfg: Config
    var stats: map<StatId, Counter>
    var laneCounts: map<int, int>
    var laneOrder: seq<int>

    function State(): SamplerState
      reads this
    {
      SamplerState(stats, laneCounts, laneOrder)
    }

    ghost predicate Valid()
      reads this
    {
      ValidState(State())
    }

    constructor (balanceLane: bool, preferJunction: bool, weatherQuota: Option<int>)
      ensures Valid() && cfg == Config(balanceLane, preferJunction, weatherQuota)
      ensures stats == map[] && laneCounts == map[] && laneOrder == []
    {
      cfg := Config(balanceLane, preferJunction, weatherQuota);
      stats := map[];
      laneCounts := map[];
      laneOrder := [];
    }

    /** _update_stat. */
    method UpdateStatOf(town: string, category: string, key: StatKey, metric: Metric)
      modifies this
      ensures State() == UpdateStat(old(State()), StatId(town, category, key), metric)
    {
      var id := StatId(town, category, key);
      var c := if id in stats then stats[id] else Counter(0, 0);
      stats := stats[id := Bump(c, metric)];
    }

    /** The _update_stat calls for one metric over the entries of a frame. */
    method RecordFrame(town: string, weather: string, laneCount: int, roadId: int, isJunction: bool, metric: Metric)
      modifies this
      ensures State() == Record(old(State()), FrameIds(town, weather, laneCount, roadId, isJunction), metric)
    {
      ghost var s0 := State();
      UpdateStatOf(town, "lane_count", IntKey(laneCount), metric);
      UpdateStatOf(town, "weather", TextKey(weather), metric);
      UpdateStatOf(town, "road_id", IntKey(roadId), metric);
      if isJunction {
        UpdateStatOf(town, "scene", TextKey("junction"), metric);
      }
      RecordUnfold(s0, town, weather, laneCount, roadId, isJunction, metric);
    }

    /** The default-dictionary read stats[town][category][key]. */
    method ReadStat(id: StatId) returns (c: Counter)
      modifies this
      ensures State() == TouchStat(old(State()), id) && c == Get(old(stats), id)
    {
      if id !in stats {
        stats := stats[id := Counter(0, 0)];
      }
      c := stats[id];
    }

    /** The default-dictionary read global_lane_counts[lane]. */
    method ReadLaneCount(lane: int) returns (n: int)
      requires Valid()
      modifies this
      ensures Valid()
      ensures State() == TouchCount(old(State()), lane) && n == GetCount(old(laneCounts), lane)
    {
      if lane !in laneCounts {
        laneCounts := laneCounts[lane := 0];
        laneOrder := laneOrder + [lane];
      }
      n := laneCounts[lane];
    }

    /** Step A of check_and_update: the weather quota. */
    method QuotaStep(town: string, weather: string) returns (rejects: bool)
      modifies this
      ensures (rejects, State()) == QuotaCheck(cfg, old(State()), town, weather)
    {
      rejects := false;
      if cfg.weatherQuota.Some? {
        var current := ReadStat(StatId(town, "weather", TextKey(weather)));
        if current.saved >= cfg.weatherQuota.value {
          rejects := true;
        }
      }
    }

    /** Step C of check_and_update: lane-count balancing by rejection sampling. */
    method BalanceStep(laneCount: int, draw: real) returns (rejects: bool)
      requires Valid()
      modifies this
      ensures Valid()
      ensures (rejects, State()) == BalanceCheck(cfg, old(State()), laneCount, draw)
    {
      rejects := false;
      if cfg.balanceLane && |laneCounts| > 0 {
        var currentCount := ReadLaneCount(laneCount);
        var avgCount := SumCounts(laneOrder, laneCounts) as real / |laneOrder| as real;
        if avgCount > 10.0 && currentCount as real > avgCount * 1.5 {
          var dropProb := 1.0 - avgCount / currentCount as real;
          if draw < dropProb {
            rejects := true;
          }
        }
      }
    }

    /** _commit_save. */
    method CommitSaveOf(town: string, weather: string, laneCount: int, roadId: int, isJunction: bool)
      requires Valid()
      modifies this
      ensures Valid()
      ensures State() == CommitSave(old(State()), town, weather, laneCount, roadId, isJunction)
    {
      RecordFrame(town, weather, laneCount, roadId, isJunction, Saved);
      var n := ReadLaneCount(laneCount);
      laneCounts := laneCounts[laneCount := n + 1];
    }

    /** commit: the save bookkeeping after a frame was written. */
    method Commit(town: string, weather: string, laneCount: int, roadId: int, isJunction: bool)
      requires Valid()
      modifies this
      ensures Valid()
      ensures State() == CommitSave(old(State()), town, weather, laneCount, roadId, isJunction)
    {
      CommitSaveOf(town, weather, laneCount, roadId, isJunction);
    }

    /** check_and_update, with the balancing step's random draw as a parameter. */
    method CheckAndUpdateOf(town: string, weather: string, laneCount: int, roadId: int, isJunction: bool,
                            simulate: bool, draw: real) returns (save: bool)
      requires Valid()
      modifies this
      ensures Valid()
      ensures (save, State()) ==
              CheckAndUpdate(cfg, old(State()), town, weather, laneCount, roadId, isJunction, simulate, draw)
    {
      ghost var s0 := State();
      if !simulate {
        RecordFrame(town, weather, laneCount, roadId, isJunction, Scanned);
      }
      assert State() == Scan(s0, FrameIds(town, weather, laneCount, roadId, isJunction), simulate);
      var quotaRejects := QuotaStep(town, weather);
      if quotaRejects {
        return false;
      }
      if cfg.preferJunction && isJunction {
        if !simulate {
          CommitSaveOf(town, weather, laneCount, roadId, isJunction);
        }
        return true;
      }
      var balanceRejects := BalanceStep(laneCount, draw);
      if balanceRejects {
        return false;
      }
      if !simulate {
        CommitSaveOf(town, weather, laneCount, roadId, isJunction);
      }
      return true;
    }
  }

  /** The four or three _update_stat calls of a frame are Record over its entries. */
  lemma RecordUnfold(s: SamplerState, town: string, weather: string, laneCount: int, roadId: int,
                     isJunction: bool, metric: Metric)
    ensures var s3 := UpdateStat(UpdateStat(UpdateStat(s, StatId(town, "lane_count", IntKey(laneCount)), metric),
                                            StatId(town, "weather", TextKey(weather)), metric),
                                 StatId(town, "road_id", IntKey(roadId)), metric);
            Record(s, FrameIds(town, weather, laneCount, roadId, isJunction), metric) ==
            if isJunction then UpdateStat(s3, StatId(town, "scene", TextKey("junction")), metric) else s3
  {
    var ids := FrameIds(town, weather, laneCount, roadId, isJunction);
    var s1 := UpdateStat(s, ids[0], metric);
    var s2 := UpdateStat(s1, ids[1], metric);
    var s3 := UpdateStat(s2, ids[2], metric);
    assert Record(s, ids, metric) == Record(s1, ids[1..], metric);
    assert Record(s1, ids[1..], metric) == Record(s2, ids[2..], metric);
    assert Record(s2, ids[2..], metric) == Record(s3, ids[3..], metric);
    if isJunction {
      assert Record(s3, ids[3..], metric) == Record(UpdateStat(s3, ids[3], metric), ids[4..], metric);
    }
  }
}

=== FILE: sensors.dfy ===
// The frame-alignment side of the sensor manager: each sensor wrapper owns a
// queue of delivered frames; asking for a frame drops older ones, and the
// manager hands out a frame only when all three cameras delivered it.
//
// The simulator's listen callback, which appends to the queue from another
// thread, is not modelled: the queue is a sequence and a timeout is the empty
// queue.

module Sensors {
  import opened Wrappers
  import opened LinAlg
  import opened Visibility

  /** One delivered image: its frame number, the BGRA pixels as rows (alpha
      dropped) and the camera pose at capture. */
  datatype SensorData = SensorData(frame: int, image: seq<seq<Pixel>>, transform: Affine)

  /** get_data on a queue: the item it returns, if any, and the queue it leaves.
      Older frames are discarded, the first frame not older is consumed whether it
      matches or not, and an exhausted queue times out. */
  function Consume(q: seq<SensorData>, target: int): (r: (Option<SensorData>, seq<SensorData>))
    ensures r.0.Some? ==> r.0.value.frame == target && r.0.value in q
    ensures |r.1| <= |q| && r.1 == q[|q| - |r.1|..]
    ensures q != [] ==> |r.1| < |q|
    decreases |q|
  {
    if q == [] then (None, [])
    else if q[0].frame < target then Consume(q[1..], target)
    else if q[0].frame > target then (None, q[1..])
    else (Some(q[0]), q[1..])
  }

  /** The whole behaviour of get_data, given the position k of the first frame
      that is not older than the target: everything before it is dropped; that
      frame is consumed and returned only when it is the target. */
  lemma {:induction false} ConsumeAt(q: seq<SensorData>, target: int, k: nat)
    requires k <= |q|
    requires forall i :: 0 <= i < k ==> q[i].frame < target
    requires k < |q| ==> q[k].frame >= target
    ensures k == |q| ==> Consume(q, target) == (None, [])
    ensures k < |q| && q[k].frame == target ==> Consume(q, target) == (Some(q[k]), q[k + 1..])
    ensures k < |q| && q[k].frame > target ==> Consume(q, target) == (None, q[k + 1..])
  {
    if k > 0 {
      ConsumeAt(q[1..], target, k - 1);
      if k < |q| {
        assert q[1..][k..] == q[k + 1..];
      }
    }
  }

  /** When no queued frame is newer than the target, an item is returned exactly when
      the queue holds the target frame. */
  lemma {:induction false} ConsumeFindsTarget(q: seq<SensorData>, target: int)
    requires forall i :: 0 <= i < |q| ==> q[i].frame <= target
    ensures Consume(q, target).0.Some? <==> exists i :: 0 <= i < |q| && q[i].frame == target
    decreases |q|
  {
    if q != [] {
      ConsumeFindsTarget(q[1..], target);
      if q[0].frame < target {
        forall i | 0 <= i < |q| && q[i].frame == target ensures exists j :: 0 <= j < |q[1..]| && q[1..][j].frame == target {
          assert q[1..][i - 1] == q[i];
        }
        forall j | 0 <= j < |q[1..]| && q[1..][j].frame == target ensures exists i :: 0 <= i < |q| && q[i].frame == target {
          assert q[j + 1] == q[1..][j];
        }
      }
    }
  }

  /** A sensor wrapper: the frame queue and whether it still holds a sensor. */
  class SensorWrapper {
    var queue: seq<SensorData>
    var hasSensor: bool

    constructor (q: seq<SensorData>)
      ensures queue == q && hasSensor
    {
      queue := q;
      hasSensor := true;
    }

    /** get_data: pops until the target frame, a later frame or timeout. */
    method GetData(target: int) returns (data: Option<SensorData>)
      modifies this
      ensures (data, queue) == Consume(old(queue), target)
      ensures hasSensor == old(hasSensor)
    {
      while true
        invariant Consume(queue, target) == Consume(old(queue), target)
        invariant hasSensor == old(hasSensor)
        decreases |queue|
      {
        if queue == [] {
          return None;
        }
        var item := queue[0];
        queue := queue[1..];
        if item.frame < target {
          continue;
        }
        if item.frame > target {
          return None;
        }
        return Some(item);
      }
    }

    /** destroy: drops the sensor and clears the queue. */
    method Destroy()
      modifies this
      ensures queue == [] && !hasSensor
    {
      hasSensor := false;
      queue := [];
    }
  }

  /** After destroy, every request times out. */
  lemma ConsumeEmpty(target: int)
    ensures Consume([], target) == (None, [])
  {}

  // ---------------------------------------------------------------------
  // Depth and segmentation decoding of the synced frames

  /** The manager's depth code: channel 0 as the least significant byte. */
  function SensorDepthCode(p: Pixel): (code: int)
    ensures IsBytePixel(p) ==> 0 <= code <= MaxCode
  {
    p.c0 + p.c1 * 256 + p.c2 * 256 * 256
  }

  /** The manager's depth in metres for one pixel. */
  function SensorDepth(p: Pixel): (metres: real)
    ensures IsBytePixel(p) ==> 0.0 <= metres <= 1000.0
  {
    (SensorDepthCode(p) as real / MaxCode as real) * 1000.0
  }

  /** The manager's decoder is the visibility handler's with channels 0 and 2 swapped. */
  lemma SensorDepthSwapsChannels(p: Pixel)
    ensures SensorDepth(p) == DecodePixel(Pixel(p.c2, p.c1, p.c0))
  {}

  /** The two decoders read the same pixel differently: a blue-only pixel is near in
      one and far in the other. */
  lemma DecodersDisagree()
    ensures SensorDepth(Pixel(1, 0, 0)) < 0.001
    ensures DecodePixel(Pixel(1, 0, 0)) > 3.0
  {}

  function DepthImage(img: seq<seq<Pixel>>): (metres: seq<seq<real>>)
    ensures |metres| == |img|
    ensures forall r :: 0 <= r < |img| ==> |metres[r]| == |img[r]|
    ensures forall r, c :: 0 <= r < |img| && 0 <= c < |img[r]| ==> metres[r][c] == SensorDepth(img[r][c])
  {
    seq(|img|, r requires 0 <= r < |img| =>
      seq(|img[r]|, c requires 0 <= c < |img[r]| => SensorDepth(img[r][c])))
  }

  /** The segmentation class map: channel 2 (red) of each pixel. */
  function SegClassMap(img: seq<seq<Pixel>>): (classes: seq<seq<int>>)
    ensures |classes| == |img|
    ensures forall r :: 0 <= r < |img| ==> |classes[r]| == |img[r]|
    ensures forall r, c :: 0 <= r < |img| && 0 <= c < |img[r]| ==> classes[r][c] == img[r][c].c2
  {
    seq(|img|, r requires 0 <= r < |img| =>
      seq(|img[r]|, c requires 0 <= c < |img[r]| => img[r][c].c2))
  }

  /** What get_synced_frames returns when all three cameras delivered the frame. */
  datatype SyncedFrames = SyncedFrames(rgb: SensorData, depthMetres: seq<seq<real>>,
                                       segClasses: seq<seq<int>>, transform: Affine)

  /** The three-camera manager. */
  class SyncSensorManager {
    const rgbWrapper: SensorWrapper
    const depthWrapper: SensorWrapper
    const segWrapper: SensorWrapper

    constructor (rgb: SensorWrapper, depth: SensorWrapper, seg: SensorWrapper)
      requires rgb != depth && depth != seg && rgb != seg
      ensures rgbWrapper == rgb && depthWrapper == depth && segWrapper == seg
    {
      rgbWrapper := rgb;
      depthWrapper := depth;
      segWrapper := seg;
    }

    /** get_synced_frames: every wrapper is asked for the frame first, then the
        result exists only when all three answered. */
    method GetSyncedFrames(target: int) returns (r: Option<SyncedFrames>)
      requires rgbWrapper != depthWrapper && depthWrapper != segWrapper && rgbWrapper != segWrapper
      modifies rgbWrapper, depthWrapper, segWrapper
      ensures rgbWrapper.queue == Consume(old(rgbWrapper.queue), target).1
      ensures depthWrapper.queue == Consume(old(depthWrapper.queue), target).1
      ensures segWrapper.queue == Consume(old(segWrapper.queue), target).1
      ensures rgbWrapper.hasSensor == old(rgbWrapper.hasSensor)
      ensures depthWrapper.hasSensor == old(depthWrapper.hasSensor)
      ensures segWrapper.hasSensor == old(segWrapper.hasSensor)
      ensures r.Some? <==> Consume(old(rgbWrapper.queue), target).0.Some? &&
                           Consume(old(depthWrapper.queue), target).0.Some? &&
                           Consume(old(segWrapper.queue), target).0.Some?
      ensures r.Some? ==>
                var rgb := Consume(old(rgbWrapper.queue), target).0.value;
                var depth := Consume(old(depthWrapper.queue), target).0.value;
                var seg := Consume(old(segWrapper.queue), target).0.value;
                r.value == SyncedFrames(rgb, DepthImage(depth.image), SegClassMap(seg.image), rgb.transform)
    {
      var rgbData := rgbWrapper.GetData(target);
      var depthData := depthWrapper.GetData(target);
      var segData := segWrapper.GetData(target);
      if !(rgbData.Some? && depthData.Some? && segData.Some?) {
        return None;
      }
      var depthMetres := DepthImage(depthData.value.image);
      var segClasses := SegClassMap(segData.value.image);
      return Some(SyncedFrames(rgbData.value, depthMetres, segClasses, rgbData.value.transform));
    }

    /** destroy: destroys the three wrappers. */
    method Destroy()
      requires rgbWrapper != depthWrapper && depthWrapper != segWrapper && rgbWrapper != segWrapper
      modifies rgbWrapper, depthWrapper, segWrapper
      ensures rgbWrapper.queue == [] && depthWrapper.queue == [] && segWrapper.queue == []
      ensures !rgbWrapper.hasSensor && !depthWrapper.hasSensor && !segWrapper.hasSensor
    {
      rgbWrapper.Destroy();
      depthWrapper.Destroy();
      segWrapper.Destroy();
    }
  }

  /** A frame all three cameras delivered is handed out whatever older frames sit
      before it; if any camera skipped it, nothing is. */
  lemma {:induction false} SyncAllOrNothing(rgb: seq<SensorData>, depth: seq<SensorData>, seg: seq<SensorData>,
                                            target: int, i: nat)
    requires i < |rgb| && rgb[i].frame == target && forall j :: 0 <= j < i ==> rgb[j].frame < target
    requires forall j :: 0 <= j < |depth| ==> depth[j].frame < target
    ensures Consume(rgb, target).0 == Some(rgb[i])
    ensures Consume(depth, target) == (None, [])
  {
    ConsumeAt(rgb, target, i);
    ConsumeAt(depth, target, |depth|);
  }
}

=== FILE: seqs.dfy ===
// Filtering and mapping a sequence in one pass: the shape of the loops that
// append a value for some elements and skip the others.

module Seqs {
  import opened Wrappers

  /** The values f gives for xs, in order, skipping the Nones. */
  function Kept<X, Y>(f: X -> Option<Y>, xs: seq<X>): (ys: seq<Y>)
    ensures |ys| <= |xs|
  {
    if xs == [] then [] else Kept(f, xs[..|xs| - 1]) + OptionSeq(f(xs[|xs| - 1]))
  }

  /** None as no value, Some(y) as the one value y. */
  function OptionSeq<Y>(o: Option<Y>): seq<Y> {
    match o case None => [] case Some(y) => [y]
  }

  lemma {:induction false} KeptAppend<X, Y>(f: X -> Option<Y>, a: seq<X>, b: seq<X>)
    ensures Kept(f, a + b) == Kept(f, a) + Kept(f, b)
    decreases |b|
  {
    if b == [] {
      assert a + b == a;
    } else {
      assert (a + b)[..|a + b| - 1] == a + b[..|b| - 1];
      assert (a + b)[|a + b| - 1] == b[|b| - 1];
      KeptAppend(f, a, b[..|b| - 1]);
    }
  }

  /** Exactly the values f gives are kept. */
  lemma {:induction false} KeptMembers<X, Y>(f: X -> Option<Y>, xs: seq<X>, y: Y)
    ensures y in Kept(f, xs) <==> exists i :: 0 <= i < |xs| && f(xs[i]) == Some(y)
  {
    if xs != [] {
      var init, last := xs[..|xs| - 1], xs[|xs| - 1];
      KeptMembers(f, init, y);
      assert Kept(f, xs) == Kept(f, init) + OptionSeq(f(last));
      assert y in OptionSeq(f(last)) <==> f(last) == Some(y);
      if y in Kept(f, xs) {
        if y in Kept(f, init) {
          var i :| 0 <= i < |init| && f(init[i]) == Some(y);
          assert xs[i] == init[i];
        } else {
          assert f(xs[|xs| - 1]) == Some(y);
        }
      }
      if exists i :: 0 <= i < |xs| && f(xs[i]) == Some(y) {
        var i :| 0 <= i < |xs| && f(xs[i]) == Some(y);
        if i < |init| {
          assert init[i] == xs[i];
        }
      }
    }
  }

  /** Nothing is kept exactly when f gives None everywhere. */
  lemma KeptEmpty<X, Y>(f: X -> Option<Y>, xs: seq<X>)
    ensures Kept(f, xs) == [] <==> forall i :: 0 <= i < |xs| ==> f(xs[i]).None?
  {
    if Kept(f, xs) != [] {
      var y := Kept(f, xs)[0];
      KeptMembers(f, xs, y);
    } else {
      forall i | 0 <= i < |xs|
        ensures f(xs[i]).None?
      {
        if f(xs[i]).Some? {
          KeptMembers(f, xs, f(xs[i]).value);
        }
      }
    }
  }
}

=== FILE: text.dfy ===
// Python string operations the pipeline's helpers rely on, over ASCII:
// character classes, lower/upper/title case, str.strip, str.split with a
// one-character separator, str.join, decimal formatting and int() parsing.

module Text {
  import opened Wrappers

  predicate IsUpper(c: char) { 'A' <= c <= 'Z' }
  predicate IsLower(c: char) { 'a' <= c <= 'z' }
  predicate IsCased(c: char) { IsUpper(c) || IsLower(c) }
  predicate IsDigit(c: char) { '0' <= c <= '9' }

  /** The `\w` class of a regular expression. */
  predicate IsWordChar(c: char) { IsCased(c) || IsDigit(c) || c == '_' }

  /** str.isspace on ASCII: tab to carriage return, the four separators 0x1c-0x1f, space. */
  predicate IsSpace(c: char) { '\t' <= c <= '\r' || '\U{1c}' <= c <= '\U{1f}' || c == ' ' }

  function ToLower(c: char): (r: char)
    ensures IsUpper(c) ==> IsLower(r) && r as int == c as int + 32
    ensures !IsUpper(c) ==> r == c
  {
    if IsUpper(c) then (c as int + 32) as char else c
  }

  function ToUpper(c: char): (r: char)
    ensures IsLower(c) ==> IsUpper(r) && r as int == c as int - 32
    ensures !IsLower(c) ==> r == c
  {
    if IsLower(c) then (c as int - 32) as char else c
  }

  /** str.lower. */
  function Lower(s: string): (r: string)
    ensures |r| == |s| && forall i :: 0 <= i < |s| ==> r[i] == ToLower(s[i])
  {
    seq(|s|, i requires 0 <= i < |s| => ToLower(s[i]))
  }

  /** str.title at position i: upper-cased when the character before it is not a
      cased letter, lower-cased otherwise. */
  function TitleChar(s: string, i: nat): char
    requires i < |s|
  {
    if i == 0 || !IsCased(s[i - 1]) then ToUpper(s[i]) else ToLower(s[i])
  }

  function Title(s: string): (r: string)
    ensures |r| == |s| && forall i :: 0 <= i < |s| ==> r[i] == TitleChar(s, i)
  {
    seq(|s|, i requires 0 <= i < |s| => TitleChar(s, i))
  }

  /** str.title changes only letters: a cased character stays cased and is upper
      exactly at the start of a cased run; other characters are unchanged. */
  lemma TitleCasing(s: string)
    ensures forall i :: 0 <= i < |s| ==> (IsCased(Title(s)[i]) <==> IsCased(s[i]))
    ensures forall i :: 0 <= i < |s| && !IsCased(s[i]) ==> Title(s)[i] == s[i]
    ensures forall i :: 0 <= i < |s| && IsCased(s[i]) ==>
              (IsUpper(Title(s)[i]) <==> (i == 0 || !IsCased(s[i - 1])))
  {}

  /** Every character of `s` is replaced by `to` where it equals `from`. */
  function ReplaceChar(s: string, from: char, to: char): (r: string)
    ensures |r| == |s|
    ensures forall i :: 0 <= i < |s| ==> r[i] == if s[i] == from then to else s[i]
  {
    seq(|s|, i requires 0 <= i < |s| => if s[i] == from then to else s[i])
  }

  // ---------------------------------------------------------------------
  // strip

  function LeadingSpaces(s: string): (n: nat)
    ensures n <= |s| && forall i :: 0 <= i < n ==> IsSpace(s[i])
    ensures n < |s| ==> !IsSpace(s[n])
  {
    if s == [] || !IsSpace(s[0]) then 0 else 1 + LeadingSpaces(s[1..])
  }

  function TrailingSpaces(s: string): (n: nat)
    ensures n <= |s| && forall i :: |s| - n <= i < |s| ==> IsSpace(s[i])
    ensures n < |s| ==> !IsSpace(s[|s| - n - 1])
  {
    if s == [] || !IsSpace(s[|s| - 1]) then 0 else 1 + TrailingSpaces(s[..|s| - 1])
  }

  /** str.strip(): the slice between the leading and the trailing whitespace. */
  function Strip(s: string): (r: string)
    ensures |r| <= |s|
    ensures r == [] || (!IsSpace(r[0]) && !IsSpace(r[|r| - 1]))
  {
    var rest := s[LeadingSpaces(s)..];
    rest[..|rest| - TrailingSpaces(rest)]
  }

  /** strip() removes whitespace only, from both ends only, and leaves none there. */
  lemma StripSlice(s: string)
    ensures var r := Strip(s);
            (r == [] || (!IsSpace(r[0]) && !IsSpace(r[|r| - 1]))) &&
            exists i, j :: 0 <= i <= j <= |s| && r == s[i..j] &&
              (forall k :: 0 <= k < i ==> IsSpace(s[k])) &&
              (forall k :: j <= k < |s| ==> IsSpace(s[k]))
  {
    var i := LeadingSpaces(s);
    var rest := s[i..];
    var t := TrailingSpaces(rest);
    var j := i + |rest| - t;
    assert Strip(s) == s[i..j];
    forall k | j <= k < |s| ensures IsSpace(s[k]) {
      assert s[k] == rest[k - i];
    }
  }

  // ---------------------------------------------------------------------
  // split and join

  /** str.split(sep) for a one-character separator: the pieces between separators. */
  function Split(s: string, sep: char): (parts: seq<string>)
    ensures |parts| == Occurrences(s, sep) + 1
  {
    if s == [] then [[]]
    else
      var init := Split(s[..|s| - 1], sep);
      var c := s[|s| - 1];
      if c == sep then init + [[]]
      else init[..|init| - 1] + [init[|init| - 1] + [c]]
  }

  /** The number of times c occurs in s. */
  function Occurrences(s: string, c: char): nat {
    if s == [] then 0 else Occurrences(s[..|s| - 1], c) + (if s[|s| - 1] == c then 1 else 0)
  }

  /** sep.join(parts). */
  function Join(parts: seq<string>, sep: string): (r: string)
    ensures parts != [] ==> parts[0] <= r
  {
    if parts == [] then []
    else if |parts| == 1 then parts[0]
    else Join(parts[..|parts| - 1], sep) + sep + parts[|parts| - 1]
  }

  lemma JoinSnoc(parts: seq<string>, last: string, sep: string)
    requires parts != []
    ensures Join(parts + [last], sep) == Join(parts, sep) + sep + last
  {
    assert (parts + [last])[..|parts|] == parts;
  }

  lemma JoinExtendLast(parts: seq<string>, c: char, sep: string)
    requires parts != []
    ensures Join(parts[..|parts| - 1] + [parts[|parts| - 1] + [c]], sep) == Join(parts, sep) + [c]
  {
    var init := parts[..|parts| - 1];
    if init != [] {
      JoinSnoc(init, parts[|parts| - 1] + [c], sep);
      JoinSnoc(init, parts[|parts| - 1], sep);
      assert init + [parts[|parts| - 1]] == parts;
    }
  }

  /** Splitting and joining back with the same separator gives the string back. */
  lemma {:induction false} SplitJoin(s: string, sep: char)
    ensures Join(Split(s, sep), [sep]) == s
  {
    if s != [] {
      var init := Split(s[..|s| - 1], sep);
      SplitJoin(s[..|s| - 1], sep);
      var c := s[|s| - 1];
      assert s == s[..|s| - 1] + [c];
      if c == sep {
        JoinSnoc(init, [], [sep]);
      } else {
        JoinExtendLast(init, c, [sep]);
      }
    }
  }

  /** No piece of split(sep) holds the separator. */
  lemma {:induction false} SplitPiecesFree(s: string, sep: char)
    ensures forall p :: p in Split(s, sep) ==> sep !in p
  {
    if s != [] {
      var init := Split(s[..|s| - 1], sep);
      SplitPiecesFree(s[..|s| - 1], sep);
      var c := s[|s| - 1];
      if c != sep {
        forall p | p in Split(s, sep) ensures sep !in p {
          if p != init[|init| - 1] + [c] {
            assert p in init[..|init| - 1];
          }
        }
      }
    }
  }

  /** The first piece of split(sep) is the text before the first separator, and
      there is a single piece exactly when the separator does not occur. */
  lemma {:induction false} SplitFirst(s: string, sep: char)
    ensures var p := Split(s, sep)[0];
            sep !in p && p <= s && (|p| < |s| ==> s[|p|] == sep)
    ensures sep !in s <==> |Split(s, sep)| == 1
    ensures sep !in s ==> Split(s, sep) == [s]
  {
    if s != [] {
      var init := s[..|s| - 1];
      var c := s[|s| - 1];
      SplitFirst(init, sep);
      assert s == init + [c];
      if c != sep && sep !in init {
        assert Split(s, sep) == [init + [c]];
      }
    }
  }

  /** Splitting a text, a separator and a piece without the separator gives the
      pieces of the text, then that piece. */
  lemma {:induction false} SplitAppend(x: string, y: string, sep: char)
    requires sep !in y
    ensures Split(x + [sep] + y, sep) == Split(x, sep) + [y]
    decreases |y|
  {
    var s := x + [sep] + y;
    if y == [] {
      assert s[..|s| - 1] == x;
    } else {
      var y' := y[..|y| - 1];
      SplitAppend(x, y', sep);
      assert s[..|s| - 1] == x + [sep] + y';
      assert y' + [y[|y| - 1]] == y;
    }
  }

  /** Joining with a separator and splitting again gives the pieces back when none
      holds the separator. */
  lemma {:induction false} JoinSplit(parts: seq<string>, sep: char)
    requires parts != [] && forall i :: 0 <= i < |parts| ==> sep !in parts[i]
    ensures Split(Join(parts, [sep]), sep) == parts
  {
    if |parts| == 1 {
      SplitFirst(parts[0], sep);
    } else {
      var init := parts[..|parts| - 1];
      var last := parts[|parts| - 1];
      assert init + [last] == parts;
      assert forall i :: 0 <= i < |init| ==> init[i] == parts[i];
      JoinSplit(init, sep);
      JoinSnoc(init, last, [sep]);
      SplitAppend(Join(init, [sep]), last, sep);
    }
  }

  /** Prepending a piece to a non-empty list puts it and a separator in front. */
  lemma {:induction false} JoinCons(first: string, parts: seq<string>, sep: string)
    requires parts != []
    ensures Join([first] + parts, sep) == first + sep + Join(parts, sep)
    decreases |parts|
  {
    if |parts| == 1 {
      assert [first] + parts == [first, parts[0]];
      assert [first, parts[0]][..1] == [first];
    } else {
      var init := parts[..|parts| - 1];
      var last := parts[|parts| - 1];
      JoinCons(first, init, sep);
      assert init + [last] == parts;
      assert [first] + parts == ([first] + init) + [last];
      JoinSnoc([first] + init, last, sep);
      JoinSnoc(init, last, sep);
    }
  }

  // ---------------------------------------------------------------------
  // title case across dots

  /** Each piece title-cased. */
  function TitleEach(ws: seq<string>): (ts: seq<string>)
    ensures |ts| == |ws| && forall i :: 0 <= i < |ws| ==> ts[i] == Title(ws[i])
  {
    seq(|ws|, i requires 0 <= i < |ws| => Title(ws[i]))
  }

  /** Dropping the first word drops its title-cased form. */
  lemma TitleEachTail(w: string, ws: seq<string>)
    ensures TitleEach([w] + ws)[1..] == TitleEach(ws)
  {
    var l, r := TitleEach([w] + ws)[1..], TitleEach(ws);
    forall i | 0 <= i < |ws| ensures l[i] == r[i] {
      assert ([w] + ws)[i + 1] == ws[i];
    }
  }

  /** Title case restarts after a '.', which is not a cased letter. */
  lemma TitleDot(x: string, y: string)
    ensures Title(x + "." + y) == Title(x) + "." + Title(y)
  {
    var s := x + "." + y;
    var q := Title(x) + "." + Title(y);
    forall i | 0 <= i < |s| ensures Title(s)[i] == q[i] {
      if i < |x| {
        TitleCharAgree(s, i, x, i);
        assert q[i] == Title(x)[i];
      } else if i == |x| {
        assert s[i] == '.' && q[i] == '.';
        assert TitleChar(s, i) == '.';
      } else {
        var j := i - |x| - 1;
        TitleCharAgree(s, i, y, j);
        assert q[i] == Title(y)[j];
      }
    }
  }

  /** A character title-cases alike wherever it follows the same kind of character. */
  lemma TitleCharAgree(s: string, i: nat, t: string, j: nat)
    requires i < |s| && j < |t| && s[i] == t[j]
    requires (i == 0 || !IsCased(s[i - 1])) == (j == 0 || !IsCased(t[j - 1]))
    ensures TitleChar(s, i) == TitleChar(t, j)
  {}

  /** Title-casing a dot-joined text title-cases each piece. */
  lemma {:induction false} TitleJoin(ws: seq<string>)
    ensures Title(Join(ws, ".")) == Join(TitleEach(ws), ".")
  {
    if |ws| > 1 {
      var init := ws[..|ws| - 1];
      var last := ws[|ws| - 1];
      TitleJoin(init);
      TitleDot(Join(init, "."), last);
      assert TitleEach(init) + [Title(last)] == TitleEach(ws);
      JoinSnoc(TitleEach(init), Title(last), ".");
    } else if |ws| == 1 {
      assert TitleEach(ws) == [Title(ws[0])];
    } else {
      assert TitleEach(ws) == [];
    }
  }

  /** A title-cased text holds a '.' exactly where the text does. */
  lemma TitleKeepsDots(w: string)
    ensures '.' in Title(w) <==> '.' in w
  {
    var r := Title(w);
    TitleCasing(w);
    if '.' in r {
      var i :| 0 <= i < |r| && r[i] == '.';
      assert !IsCased(r[i]);
    }
    if '.' in w {
      var i :| 0 <= i < |w| && w[i] == '.';
      assert r[i] == '.';
    }
  }

  // ---------------------------------------------------------------------
  // decimal numbers

  function DigitChar(d: int): (c: char)
    requires 0 <= d < 10
    ensures IsDigit(c)
  {
    ('0' as int + d) as char
  }

  function DigitValue(c: char): int
    requires IsDigit(c)
  {
    c as int - '0' as int
  }

  /** The value of a string of decimal digits. */
  function DecimalValue(s: string): nat
    requires forall i :: 0 <= i < |s| ==> IsDigit(s[i])
  {
    if s == [] then 0 else DecimalValue(s[..|s| - 1]) * 10 + DigitValue(s[|s| - 1])
  }

  /** str(n) for a non-negative integer. */
  function NatToDecimal(n: nat): (s: string)
    ensures |s| >= 1 && forall i :: 0 <= i < |s| ==> IsDigit(s[i])
  {
    if n < 10 then [DigitChar(n)] else NatToDecimal(n / 10) + [DigitChar(n % 10)]
  }

  /** Reading the digits back gives the number. */
  lemma {:induction false} NatToDecimalValue(n: nat)
    ensures DecimalValue(NatToDecimal(n)) == n
  {
    var s := NatToDecimal(n);
    if n >= 10 {
      NatToDecimalValue(n / 10);
      assert s[..|s| - 1] == NatToDecimal(n / 10);
    }
  }

  function Zeros(n: nat): (s: string)
    ensures |s| == n && forall i :: 0 <= i < n ==> s[i] == '0'
  {
    seq(n, i => '0')
  }

  /** Leading zeros do not change the value of a digit string. */
  lemma {:induction false} LeadingZerosValue(n: nat, s: string)
    requires forall i :: 0 <= i < |s| ==> IsDigit(s[i])
    ensures forall i :: 0 <= i < |Zeros(n) + s| ==> IsDigit((Zeros(n) + s)[i])
    ensures DecimalValue(Zeros(n) + s) == DecimalValue(s)
    decreases |s|
  {
    var z := Zeros(n) + s;
    if s == [] {
      ZerosValue(n);
      assert z == Zeros(n);
    } else {
      LeadingZerosValue(n, s[..|s| - 1]);
      assert z[..|z| - 1] == Zeros(n) + s[..|s| - 1];
    }
  }

  lemma {:induction false} ZerosValue(n: nat)
    ensures DecimalValue(Zeros(n)) == 0
  {
    if n > 0 {
      ZerosValue(n - 1);
      assert Zeros(n)[..n - 1] == Zeros(n - 1);
    }
  }

  /** format(n, '0<width>d'): the sign, then the digits zero-padded so that sign and
      digits together take at least `width` characters. */
  function FormatPadded(n: int, width: nat): (s: string)
    ensures |s| >= width && |s| >= 1
    ensures forall i :: 0 <= i < |s| ==> IsDigit(s[i]) || (i == 0 && s[i] == '-')
    ensures n < 0 <==> s[0] == '-'
  {
    var digits := NatToDecimal(if n < 0 then -n else n);
    var sign := if n < 0 then "-" else "";
    var pad := if |sign| + |digits| < width then width - |sign| - |digits| else 0;
    sign + Zeros(pad) + digits
  }

  /** A non-negative number is padded to at least `width` digits that read back as n. */
  lemma FormatPaddedNonNegative(n: nat, width: nat)
    ensures var s := FormatPadded(n, width);
            |s| >= width && (forall i :: 0 <= i < |s| ==> IsDigit(s[i])) && DecimalValue(s) == n
  {
    var digits := NatToDecimal(n);
    var pad := if |digits| < width then width - |digits| else 0;
    NatToDecimalValue(n);
    LeadingZerosValue(pad, digits);
    assert FormatPadded(n, width) == Zeros(pad) + digits;
  }

  /** A negative number is a minus sign followed by its magnitude padded to one
      character less. */
  lemma FormatPaddedNegative(n: int, width: nat)
    requires n < 0
    ensures FormatPadded(n, width) == "-" + FormatPadded(-n, if width > 0 then width - 1 else 0)
  {}

  // ---------------------------------------------------------------------
  // int() on a string

  /** The digits of a base-10 literal as int() accepts them: digits, with single
      underscores allowed between two digits. */
  predicate IsDigitGroups(s: string) {
    s != [] && IsDigit(s[0]) && IsDigit(s[|s| - 1]) &&
    (forall i :: 0 <= i < |s| ==> IsDigit(s[i]) || s[i] == '_') &&
    (forall i :: 0 <= i < |s| - 1 ==> !(s[i] == '_' && s[i + 1] == '_'))
  }

  function RemoveUnderscores(s: string): (r: string)
    ensures (forall i :: 0 <= i < |s| ==> IsDigit(s[i]) || s[i] == '_') ==>
              forall i :: 0 <= i < |r| ==> IsDigit(r[i])
  {
    if s == [] then []
    else if s[|s| - 1] == '_' then RemoveUnderscores(s[..|s| - 1])
    else RemoveUnderscores(s[..|s| - 1]) + [s[|s| - 1]]
  }

  /** int(s): surrounding whitespace stripped, an optional sign, then digit groups;
      None where int() raises ValueError. */
  function ParseInt(s: string): (r: Option<int>)
    ensures Strip(s) == [] ==> r.None?
    ensures r.Some? ==> (r.value < 0 ==> Strip(s)[0] == '-')
  {
    var t := Strip(s);
    if t == [] then None
    else
      var negative := t[0] == '-';
      var body := if t[0] == '-' || t[0] == '+' then t[1..] else t;
      if !IsDigitGroups(body) then None
      else
        var magnitude: int := DecimalValue(RemoveUnderscores(body));
        Some(if negative then -magnitude else magnitude)
  }

  lemma {:induction false} RemoveUnderscoresOfDigits(s: string)
    requires forall i :: 0 <= i < |s| ==> IsDigit(s[i])
    ensures RemoveUnderscores(s) == s
  {
    if s != [] {
      RemoveUnderscoresOfDigits(s[..|s| - 1]);
    }
  }

  lemma StripUnspaced(s: string)
    requires s != [] && !IsSpace(s[0]) && !IsSpace(s[|s| - 1])
    ensures Strip(s) == s
  {
    assert LeadingSpaces(s) == 0;
    assert s[0..] == s;
    assert TrailingSpaces(s) == 0;
  }

  /** int() of a plain digit string is its decimal value. */
  lemma ParseIntOfDigits(s: string)
    requires s != [] && forall i :: 0 <= i < |s| ==> IsDigit(s[i])
    ensures ParseInt(s) == Some(DecimalValue(s))
  {
    StripUnspaced(s);
    DigitsAreGroups(s);
    RemoveUnderscoresOfDigits(s);
    assert s[0] != '-' && s[0] != '+';
  }

  lemma DigitsAreGroups(s: string)
    requires s != [] && forall i :: 0 <= i < |s| ==> IsDigit(s[i])
    ensures IsDigitGroups(s)
  {
    forall i | 0 <= i < |s| - 1
      ensures !(s[i] == '_' && s[i + 1] == '_')
    {
      assert IsDigit(s[i]);
    }
  }

  /** int() reads back what str() writes, and fails on the empty string. */
  lemma ParseIntOfDecimal(n: nat)
    ensures ParseInt(NatToDecimal(n)) == Some(n)
    ensures ParseInt("") == None
  {
    ParseIntOfDigits(NatToDecimal(n));
    NatToDecimalValue(n);
  }
}

=== FILE: validate.dfy ===
// The consumer side: the batch validator's parsers for the stored arrays, its
// recovery of ground points from the OpenLane-camera points, its reprojection,
// the lane-filtering loop of validate_frame and the ok/reason decision.

module Validate {
  import opened Wrappers
  import opened LinAlg
  import opened Frames
  import opened Projection

  /** What np.array(field, dtype=float64) makes of a JSON value: a 2-D array
      (rows of equal length `cols`), an array of another dimension given by its
      flattened contents, a ValueError (ragged nesting, a string that is not a
      number) or a TypeError (a value float() rejects by its type, an object). */
  datatype NumArray =
    | Dims2(rows: seq<seq<real>>, cols: nat)
    | OtherDims(ndim: nat, flat: seq<real>)
    | NotNumeric
    | NotConvertible

  ghost predicate WellShaped(a: NumArray) {
    match a
    case Dims2(rows, cols) => forall r :: 0 <= r < |rows| ==> |rows[r]| == cols
    case OtherDims(ndim, _) => ndim != 2
    case NotNumeric => true
    case NotConvertible => true
  }

  /** The Python exceptions validate_frame can meet; LinAlgError is what
      np.linalg.inv raises for a singular matrix. */
  datatype Failure = ValueError | KeyError | TypeError | LinAlgError

  /** Common core of parse_xyz (k = 3) and parse_uv (k = 2): the array as k rows
      of N, reading a k-row array as is and transposing an N x k one. */
  function ParseRows(a: NumArray, k: nat): (r: Result<seq<seq<real>>, Failure>)
    requires WellShaped(a) && k >= 1
    ensures r.Ok? ==> (a.Dims2? && |r.value| == k &&
                       forall i :: 0 <= i < k ==> |r.value[i]| == |r.value[0]|)
    ensures r.Ok? <==> a.Dims2? && (|a.rows| == k || a.cols == k)
    ensures r.Ok? && |a.rows| == k ==> r.value == a.rows
    ensures r.Ok? && |a.rows| != k ==>
              (|r.value[0]| == |a.rows| &&
               forall i, j :: 0 <= i < k && 0 <= j < |a.rows| ==> r.value[i][j] == a.rows[j][i])
  {
    match a
    case NotNumeric => Err(ValueError)
    case NotConvertible => Err(TypeError)
    case OtherDims(_, _) => Err(ValueError)
    case Dims2(rows, cols) =>
      if |rows| == k then Ok(rows)
      else if cols == k then
        Ok(seq(k, i requires 0 <= i < k => seq(|rows|, j requires 0 <= j < |rows| => rows[j][i])))
      else Err(ValueError)
  }

  /** parse_xyz: the 3 x N points as N columns. */
  function ParseXyz(a: NumArray): (r: Result<seq<Vec3>, Failure>)
    requires WellShaped(a)
    ensures r.Ok? <==> a.Dims2? && (|a.rows| == 3 || a.cols == 3)
    ensures r.Ok? && |a.rows| == 3 ==> |r.value| == a.cols
  {
    match ParseRows(a, 3)
    case Err(e) => Err(e)
    case Ok(rows) =>
      Ok(seq(|rows[0]|, j requires 0 <= j < |rows[0]| => Vec3(rows[0][j], rows[1][j], rows[2][j])))
  }

  /** parse_uv: the 2 x N pixel coordinates as N pairs. */
  function ParseUv(a: NumArray): (r: Result<seq<UV>, Failure>)
    requires WellShaped(a)
    ensures r.Ok? <==> a.Dims2? && (|a.rows| == 2 || a.cols == 2)
  {
    match ParseRows(a, 2)
    case Err(e) => Err(e)
    case Ok(rows) =>
      Ok(seq(|rows[0]|, j requires 0 <= j < |rows[0]| => UV(rows[0][j], rows[1][j])))
  }

  /** The 3 x N rows the generator writes for a list of points. */
  function XyzRows(pts: seq<Vec3>): (a: NumArray)
    ensures WellShaped(a)
  {
    Dims2([seq(|pts|, j requires 0 <= j < |pts| => pts[j].x),
           seq(|pts|, j requires 0 <= j < |pts| => pts[j].y),
           seq(|pts|, j requires 0 <= j < |pts| => pts[j].z)], |pts|)
  }

  /** The same points written one per row (N x 3). */
  function XyzColumns(pts: seq<Vec3>): (a: NumArray)
    ensures WellShaped(a)
  {
    Dims2(seq(|pts|, j requires 0 <= j < |pts| => [pts[j].x, pts[j].y, pts[j].z]), 3)
  }

  /** Parsing what the generator writes gives back its points. */
  lemma ParseXyzRoundTrip(pts: seq<Vec3>)
    ensures ParseXyz(XyzRows(pts)) == Ok(pts)
  {
    var a := XyzRows(pts);
    var rows := a.rows;
    assert ParseRows(a, 3) == Ok(rows);
    var v := ParseXyz(a).value;
    assert |v| == |pts|;
    forall j | 0 <= j < |pts| ensures v[j] == pts[j] {
      assert v[j] == Vec3(rows[0][j], rows[1][j], rows[2][j]);
    }
    assert v == pts;
  }

  /** An N x 3 array is transposed, except when N is 3: a 3 x 3 array is
      always read as three rows of x, y and z. */
  lemma {:induction false} ParseXyzColumns(pts: seq<Vec3>)
    ensures |pts| != 3 ==> ParseXyz(XyzColumns(pts)) == Ok(pts)
    ensures |pts| == 3 ==>
              ParseXyz(XyzColumns(pts)) ==
              Ok([Vec3(pts[0].x, pts[1].x, pts[2].x),
                  Vec3(pts[0].y, pts[1].y, pts[2].y),
                  Vec3(pts[0].z, pts[1].z, pts[2].z)])
  {
    var a := XyzColumns(pts);
    var rows := ParseRows(a, 3).value;
    var v := ParseXyz(a).value;
    assert |v| == |rows[0]|;
    forall j | 0 <= j < |v| ensures v[j] == Vec3(rows[0][j], rows[1][j], rows[2][j]) {}
    if |pts| != 3 {
      assert |rows[0]| == |pts|;
      forall j | 0 <= j < |pts| ensures v[j] == pts[j] {
        assert rows[0][j] == a.rows[j][0];
        assert rows[1][j] == a.rows[j][1];
        assert rows[2][j] == a.rows[j][2];
      }
      assert v == pts;
    } else {
      assert rows == a.rows;
      assert v == [Vec3(pts[0].x, pts[1].x, pts[2].x),
                   Vec3(pts[0].y, pts[1].y, pts[2].y),
                   Vec3(pts[0].z, pts[1].z, pts[2].z)];
    }
  }

  // ---------------------------------------------------------------------
  // Geometry of the consumer

  /** The validator's own T_apollo_to_openlane, entry by entry. */
  const ConsumerApolloToOpenLane: Affine :=
    Affine(Mat3(Vec3(0.0, 0.0, 1.0), Vec3(-1.0, 0.0, 0.0), Vec3(0.0, -1.0, 0.0)), Zero)

  /** The validator and the generator use the same Apollo -> OpenLane matrix,
      so the validator's numeric inverse is OpenLaneToApollo. */
  lemma ConsumerMatrixAgrees()
    ensures ConsumerApolloToOpenLane == ApolloToOpenLane
    ensures RigidInverse(ConsumerApolloToOpenLane) == OpenLaneToApollo
  {
    ApolloToOpenLaneInverse();
  }

  /** openlane_to_ground: inv(T_A2O) . open, then E . apollo; the numeric inverse
      is OpenLaneToApollo (ConsumerMatrixAgrees). */
  function OpenLaneToGround(xyz: seq<Vec3>, e: Affine): (r: (seq<Vec3>, seq<Vec3>))
    ensures |r.0| == |xyz| && |r.1| == |xyz|
    ensures forall i :: 0 <= i < |xyz| ==>
              r.0[i] == Vec3(-xyz[i].y, -xyz[i].z, xyz[i].x) && r.1[i] == Apply(e, r.0[i])
  {
    var apollo := seq(|xyz|, i requires 0 <= i < |xyz| => Apply(OpenLaneToApollo, xyz[i]));
    forall i | 0 <= i < |xyz| ensures apollo[i] == Vec3(-xyz[i].y, -xyz[i].z, xyz[i].x) {
      OpenLaneToApolloApply(xyz[i]);
    }
    (apollo, seq(|xyz|, i requires 0 <= i < |xyz| => Apply(e, apollo[i])))
  }

  /** The generator's ground -> OpenLane step followed by the consumer's recovery
      with the same rigid E gives back the ground point. */
  lemma {:induction false} GroundRoundTrip(e: Affine, p: Vec3)
    requires Orthonormal(e.rot)
    ensures var open := Apply(ApolloToOpenLane, Apply(RigidInverse(e), p));
            OpenLaneToGround([open], e).1 == [p]
  {
    var apollo := Apply(RigidInverse(e), p);
    var open := Apply(ApolloToOpenLane, apollo);
    ApolloToOpenLaneApply(apollo);
    assert OpenLaneToGround([open], e).0[0] == apollo;
    RigidInverseRoundTrip(e, p);
  }

  // The file stores CompatibleExtrinsic(E), whose rotation is re-expressed for
  // the downstream preprocessing, but openlane_to_ground uses the stored matrix
  // as E. A level camera at height h (E.rot = Rgc, E.trans = (0, 0, h)) sees a
  // road point (x, y, 0) at camera point (x, h, y); its stored rotation is the
  // identity, so the validator recovers (x, h, y + h) instead of (x, y, 0).

  /** A level camera at height a.y maps the camera point a to the road point (a.x, a.z, 0). */
  lemma LevelCameraSees(e: Affine, a: Vec3)
    requires e.rot == Rgc && e.trans == Vec3(0.0, 0.0, a.y)
    ensures Apply(e, a) == Vec3(a.x, a.z, 0.0)
  {}

  /** The stored rotation of a level camera is the identity. */
  lemma {:induction false} LevelCameraStoredIdentity(e: Affine)
    requires e.rot == Rgc
    ensures CompatibleExtrinsic(e).rot == Identity3
  {
    LevelCameraStoredAsIdentity(e.rot, Vec3(1.0, 0.0, 0.0));
    LevelCameraStoredAsIdentity(e.rot, Vec3(0.0, 1.0, 0.0));
    LevelCameraStoredAsIdentity(e.rot, Vec3(0.0, 0.0, 1.0));
  }

  /** With an identity stored rotation, openlane_to_ground returns the camera
      point shifted by the stored translation, whatever the true ground point. */
  lemma {:induction false} IdentityStoredRecovers(stored: Affine, a: Vec3)
    requires stored.rot == Identity3
    ensures OpenLaneToGround([Apply(ApolloToOpenLane, a)], stored).1[0] == Add(a, stored.trans)
  {
    ApolloToOpenLaneApply(a);
    MatVecIdentity(a);
  }

  lemma {:induction false} LevelCameraStoredAsIdentity(r: Mat3, v: Vec3)
    requires r == Rgc
    ensures MatVec(ReexpressRotation(r), v) == v
  {
    FixedRotationsOrthonormal();
    var v1 := MatVec(Transpose(Rvg), v);
    var v2 := MatVec(Transpose(r), v1);
    MatVecMul(MatMul(MatMul(Rvg, r), Transpose(r)), Transpose(Rvg), v);
    MatVecMul(MatMul(Rvg, r), Transpose(r), v1);
    MatVecMul(Rvg, r, v2);
    MatVecMul(r, Transpose(r), v1);
    MatVecIdentity(v1);
    MatVecMul(Rvg, Transpose(Rvg), v);
    MatVecIdentity(v);
  }

  /** The extrinsic the ground recovery should use: the rotation the downstream
      preprocessing derives from the stored one, and the stored translation. */
  function RecoveryExtrinsic(stored: Affine): (e: Affine)
    ensures e.trans == stored.trans
  {
    Affine(ConsumerRotation(stored.rot), stored.trans)
  }

  /** Recovering with RecoveryExtrinsic undoes the generator's re-expression, so
      the generator's points come back as the original ground points. */
  lemma {:induction false} CorrectedGroundRoundTrip(e: Affine, p: Vec3)
    requires Orthonormal(e.rot)
    ensures RecoveryExtrinsic(CompatibleExtrinsic(e)) == e
    ensures var open := Apply(ApolloToOpenLane, Apply(RigidInverse(e), p));
            OpenLaneToGround([open], RecoveryExtrinsic(CompatibleExtrinsic(e))).1 == [p]
  {
    CompatibleExtrinsicRecovered(e);
    assert RecoveryExtrinsic(CompatibleExtrinsic(e)) == e;
    GroundRoundTrip(e, p);
  }

  /** One column of project_ground_to_uv: an exactly-zero depth is replaced by
      1e-9 before dividing; the raw depth is returned. */
  function ReprojectPoint(p: Vec3, e: Affine, k: Mat3): (r: (UV, real))
    ensures var q := ImagePlane(p, e, k);
            r.1 == q.z && (q.z != 0.0 ==> r.0 == UV(q.x / q.z, q.y / q.z)) &&
            (q.z == 0.0 ==> r.0 == UV(q.x / 0.000000001, q.y / 0.000000001))
  {
    var q := ImagePlane(p, e, k);
    var zsafe := if q.z != 0.0 then q.z else 0.000000001;
    (UV(q.x / zsafe, q.y / zsafe), q.z)
  }

  function ProjectGroundToUvRaw(pts: seq<Vec3>, e: Affine, k: Mat3): (r: (seq<UV>, seq<real>))
    ensures |r.0| == |pts| && |r.1| == |pts|
    ensures forall i :: 0 <= i < |pts| ==> (r.0[i], r.1[i]) == ReprojectPoint(pts[i], e, k)
  {
    (seq(|pts|, i requires 0 <= i < |pts| => ReprojectPoint(pts[i], e, k).0),
     seq(|pts|, i requires 0 <= i < |pts| => ReprojectPoint(pts[i], e, k).1))
  }

  /** The reprojection check reproduces the generator's uv for every visible point
      whatever rigid extrinsic is stored: the stored matrix cancels out. */
  lemma {:induction false} ReprojectionAgrees(e: Affine, stored: Affine, k: Mat3, w: int, h: int, p: Vec3)
    requires Orthonormal(stored.rot)
    requires ProjectPoint(p, e, k, w, h, ZMin).1 == 1.0
    ensures var open := Apply(ApolloToOpenLane, Apply(RigidInverse(e), p));
            var ground := OpenLaneToGround([open], stored).1[0];
            ReprojectPoint(ground, stored, k).0 == ProjectPoint(p, e, k, w, h, ZMin).0
  {
    var apollo := Apply(RigidInverse(e), p);
    var open := Apply(ApolloToOpenLane, apollo);
    ApolloToOpenLaneApply(apollo);
    assert OpenLaneToGround([open], stored).0[0] == apollo;
    var ground := OpenLaneToGround([open], stored).1[0];
    assert ground == Apply(stored, apollo);
    RigidInverseRoundTrip(stored, apollo);
    assert ImagePlane(ground, stored, k) == ImagePlane(p, e, k);
  }

  // ---------------------------------------------------------------------
  // validate_frame

  /** An entry of lane_lines: an object, whose missing keys are None, or another
      JSON value. For another value, containsXyz is what `"xyz" in lane` gives: a
      list or string answers, a number, boolean or null raises TypeError (None). */
  datatype LaneJson =
    | LaneObject(xyz: Option<NumArray>, visibility: Option<NumArray>, uv: Option<NumArray>)
    | NotAnObject(containsXyz: Option<bool>)

  ghost predicate LaneShaped(l: LaneJson) {
    l.LaneObject? ==>
      (l.xyz.Some? ==> WellShaped(l.xyz.value)) &&
      (l.visibility.Some? ==> WellShaped(l.visibility.value)) &&
      (l.uv.Some? ==> WellShaped(l.uv.value))
  }

  /** What the lane loop accumulates: the ground points of each usable lane, the
      point count and the count of flags above 0.5. */
  datatype LaneTotals = LaneTotals(grounds: seq<seq<Vec3>>, nPoints: nat, nVis: nat)

  /** np.array(vis).reshape(-1). */
  function Flatten(a: NumArray): (r: Result<seq<real>, Failure>)
    ensures a.NotNumeric? ==> r == Err(ValueError)
    ensures a.NotConvertible? ==> r == Err(TypeError)
    ensures a.OtherDims? ==> r == Ok(a.flat)
    ensures a.Dims2? ==>
              r.Ok? && (forall x :: x in r.value <==> exists i :: 0 <= i < |a.rows| && x in a.rows[i])
    ensures a.Dims2? && WellShaped(a) ==> |r.value| == |a.rows| * a.cols
    ensures a.Dims2? && WellShaped(a) ==> r.Ok? && RowMajor(r.value, a.rows, a.cols)
  {
    match a
    case NotNumeric => Err(ValueError)
    case NotConvertible => Err(TypeError)
    case OtherDims(_, flat) => Ok(flat)
    case Dims2(rows, cols) =>
      ConcatLength(rows, cols);
      ConcatMembers(rows);
      ConcatRowMajor(rows, cols);
      Ok(Concat(rows))
  }

  function Concat(rows: seq<seq<real>>): seq<real> {
    if rows == [] then [] else Concat(rows[..|rows| - 1]) + rows[|rows| - 1]
  }

  /** Concatenating rows of c entries gives |rows| * c entries. */
  lemma {:induction false} ConcatLength(rows: seq<seq<real>>, c: nat)
    ensures (forall k :: 0 <= k < |rows| ==> |rows[k]| == c) ==> |Concat(rows)| == |rows| * c
  {
    if rows != [] && forall k :: 0 <= k < |rows| ==> |rows[k]| == c {
      var init := rows[..|rows| - 1];
      ConcatLength(init, c);
      assert |Concat(rows)| == |init| * c + c;
      assert |rows| * c == (|init| + 1) * c;
    }
  }

  /** The position of entry j of row i in a row-major buffer c entries wide. */
  function FlatIndex(i: int, j: int, c: int): int {
    i * c + j
  }

  /** Row i's entry j sits at FlatIndex(i, j, c) in flat. */
  ghost predicate RowMajor(flat: seq<real>, rows: seq<seq<real>>, c: nat) {
    forall i, j :: 0 <= i < |rows| && 0 <= j < |rows[i]| ==>
      FlatIndex(i, j, c) < |flat| && flat[FlatIndex(i, j, c)] == rows[i][j]
  }

  /** The concatenation of rows of c entries is row-major. */
  lemma ConcatRowMajor(rows: seq<seq<real>>, c: nat)
    ensures (forall k :: 0 <= k < |rows| ==> |rows[k]| == c) ==> RowMajor(Concat(rows), rows, c)
  {
    if forall k :: 0 <= k < |rows| ==> |rows[k]| == c {
      forall i, j | 0 <= i < |rows| && 0 <= j < |rows[i]|
        ensures FlatIndex(i, j, c) < |Concat(rows)| && Concat(rows)[FlatIndex(i, j, c)] == rows[i][j]
      {
        ConcatEntry(rows, c, i, j);
      }
    }
  }

  lemma {:induction false} ConcatEntry(rows: seq<seq<real>>, c: nat, i: nat, j: nat)
    requires forall k :: 0 <= k < |rows| ==> |rows[k]| == c
    requires i < |rows| && j < c
    ensures FlatIndex(i, j, c) < |Concat(rows)| && Concat(rows)[FlatIndex(i, j, c)] == rows[i][j]
    decreases |rows|
  {
    var init := rows[..|rows| - 1];
    assert forall k :: 0 <= k < |init| ==> init[k] == rows[k];
    ConcatLength(init, c);
    RowOffset(i, j, |init|, c);
    if i < |init| {
      ConcatEntry(init, c, i, j);
    }
  }

  /** Entry j of row i lies in the first n rows exactly when i < n, and in row n
      at offset j when i == n. */
  lemma RowOffset(i: nat, j: nat, n: nat, c: nat)
    requires i <= n && j < c
    ensures i < n ==> i * c + j < n * c
    ensures i == n ==> i * c + j - n * c == j
  {
    if i < n {
      assert (i + 1) * c <= n * c by {
        assert n * c - (i + 1) * c == (n - i - 1) * c;
      }
    }
  }

  /** The concatenation holds exactly the entries of the rows. */
  lemma {:induction false} ConcatMembers(rows: seq<seq<real>>)
    ensures forall x :: x in Concat(rows) <==> exists i :: 0 <= i < |rows| && x in rows[i]
  {
    if rows != [] {
      var init := rows[..|rows| - 1];
      ConcatMembers(init);
      forall x ensures x in Concat(rows) <==> exists i :: 0 <= i < |rows| && x in rows[i] {
        if x in Concat(init) {
          var i :| 0 <= i < |init| && x in init[i];
          assert x in rows[i];
        }
        if exists i :: 0 <= i < |rows| && x in rows[i] {
          var i :| 0 <= i < |rows| && x in rows[i];
          if i < |init| {
            assert x in init[i];
          }
        }
      }
    }
  }

  function CountAbove(xs: seq<real>, t: real): (n: nat)
    ensures n <= |xs|
  {
    if xs == [] then 0 else CountAbove(xs[..|xs| - 1], t) + (if xs[|xs| - 1] > t then 1 else 0)
  }

  function Ones(n: nat): (r: seq<real>)
    ensures |r| == n && forall i :: 0 <= i < n ==> r[i] == 1.0
  {
    seq(n, i => 1.0)
  }

  /** The flags a lane's points are counted with: all ones when "visibility" is
      absent or flattens to another length than the point count, the flattened
      values otherwise; a value that does not flatten raises. */
  function LaneVisibility(vis: Option<NumArray>, n: nat): (r: Result<seq<real>, Failure>)
    ensures r.Ok? ==> |r.value| == n
    ensures vis.None? ==> r == Ok(Ones(n))
    ensures vis.Some? ==> (r.Err? <==> Flatten(vis.value).Err?)
  {
    if vis.None? then Ok(Ones(n))
    else match Flatten(vis.value)
      case Err(f) => Err(f)
      case Ok(flat) => Ok(if |flat| != n then Ones(n) else flat)
  }

  /** Whether the reprojection check runs for a lane of n points: its "uv" is
      present and parses with n columns. */
  predicate Reprojected(l: LaneJson, n: nat)
    requires LaneShaped(l) && l.LaneObject?
  {
    l.uv.Some? && ParseUv(l.uv.value).Ok? && |ParseUv(l.uv.value).value| == n
  }

  /** An object lane that gets as far as the reprojection check: its "xyz" parses
      to at least two points, its visibility flattens, and its "uv" parses with
      as many columns. */
  predicate ReachesReprojection(l: LaneJson)
    requires LaneShaped(l)
  {
    l.LaneObject? && l.xyz.Some? && ParseXyz(l.xyz.value).Ok? && |ParseXyz(l.xyz.value).value| >= 2 &&
    LaneVisibility(l.visibility, |ParseXyz(l.xyz.value).value|).Ok? && Reprojected(l, |ParseXyz(l.xyz.value).value|)
  }

  /** One lane's contribution: None when it is skipped, an error when it raises. A
      value that is not an object is skipped when it does not contain "xyz" and
      otherwise raises TypeError, at the membership test or at lane["xyz"]. When
      the reprojection check runs, np.linalg.inv(E) raises for a singular E. */
  function LaneStep(l: LaneJson, e: Affine, singular: bool): (r: Result<Option<(seq<Vec3>, nat, nat)>, Failure>)
    requires LaneShaped(l)
    ensures l.NotAnObject? ==> (r == Ok(None) <==> l.containsXyz == Some(false)) && (r.Err? ==> r.error == TypeError)
    ensures l.LaneObject? && l.xyz.Some? && ParseXyz(l.xyz.value).Err? ==> r == Err(ParseXyz(l.xyz.value).error)
    ensures r.Ok? && r.value.Some? ==>
              l.LaneObject? && l.xyz.Some? && ParseXyz(l.xyz.value).Ok? &&
              r.value.value.0 == OpenLaneToGround(ParseXyz(l.xyz.value).value, e).1 &&
              r.value.value.1 == |ParseXyz(l.xyz.value).value| >= 2 &&
              r.value.value.2 <= r.value.value.1
  {
    if l.NotAnObject? then (if l.containsXyz == Some(false) then Ok(None) else Err(TypeError))
    else if l.xyz.None? then Ok(None)
    else match ParseXyz(l.xyz.value)
      case Err(f) => Err(f)
      case Ok(xyz) =>
        var n := |xyz|;
        if n < 2 then Ok(None)
        else
          var visR := if l.visibility.None? then Ok(Ones(n)) else Flatten(l.visibility.value);
          if visR.Err? then Err(visR.error)
          else
            var vis := if |visR.value| != n then Ones(n) else visR.value;
            var uvR := if l.uv.None? then Ok([]) else ParseUv(l.uv.value);
            if uvR.Err? then Err(uvR.error)
            else if singular && l.uv.Some? && |uvR.value| == n then Err(LinAlgError)
            else Ok(Some((OpenLaneToGround(xyz, e).1, n, CountAbove(vis, 0.5))))
  }

  /** An object lane without "xyz" is skipped. */
  lemma LaneStepWithoutXyz(l: LaneJson, e: Affine, singular: bool)
    requires LaneShaped(l) && l.LaneObject? && l.xyz.None?
    ensures LaneStep(l, e, singular) == Ok(None)
  {}

  /** An object lane whose "xyz" parses: fewer than two points skip it; otherwise
      a visibility that does not flatten raises, then a uv that does not parse
      raises, then a singular E raises LinAlgError when the reprojection check
      runs, and else the lane adds its ground points, its point count and the
      count of its flags above 0.5. */
  lemma LaneStepOfPoints(l: LaneJson, e: Affine, singular: bool)
    requires LaneShaped(l) && l.LaneObject? && l.xyz.Some? && ParseXyz(l.xyz.value).Ok?
    ensures var xyz := ParseXyz(l.xyz.value).value;
            var vis := LaneVisibility(l.visibility, |xyz|);
            var uv := if l.uv.None? then Ok([]) else ParseUv(l.uv.value);
            var r := LaneStep(l, e, singular);
            (|xyz| < 2 ==> r == Ok(None)) &&
            (|xyz| >= 2 && vis.Err? ==> r == Err(vis.error)) &&
            (|xyz| >= 2 && vis.Ok? && uv.Err? ==> r == Err(uv.error)) &&
            (|xyz| >= 2 && vis.Ok? && uv.Ok? && singular && Reprojected(l, |xyz|) ==> r == Err(LinAlgError)) &&
            (|xyz| >= 2 && vis.Ok? && uv.Ok? && !(singular && Reprojected(l, |xyz|)) ==>
               r == Ok(Some((OpenLaneToGround(xyz, e).1, |xyz|, CountAbove(vis.value, 0.5)))))
  {}

  /** The number of points over all recovered lanes. */
  function PointCount(grounds: seq<seq<Vec3>>): nat {
    if grounds == [] then 0 else PointCount(grounds[..|grounds| - 1]) + |grounds[|grounds| - 1]|
  }

  /** The lane loop over a prefix of the lanes. A usable lane has at least two
      points; visible points never outnumber points. */
  function LaneLoop(lanes: seq<LaneJson>, e: Affine, singular: bool): (r: Result<LaneTotals, Failure>)
    requires forall i :: 0 <= i < |lanes| ==> LaneShaped(lanes[i])
    ensures r.Ok? ==>
              var t := r.value;
              t.nVis <= t.nPoints && |t.grounds| <= |lanes| &&
              (forall g :: g in t.grounds ==> |g| >= 2) &&
              2 * |t.grounds| <= t.nPoints
  {
    if lanes == [] then Ok(LaneTotals([], 0, 0))
    else AddLane(LaneLoop(lanes[..|lanes| - 1], e, singular), LaneStep(lanes[|lanes| - 1], e, singular))
  }

  /** One more lane folded into the totals: an earlier exception stands, this
      lane's exception ends the loop, a skipped lane changes nothing. */
  function AddLane(acc: Result<LaneTotals, Failure>, step: Result<Option<(seq<Vec3>, nat, nat)>, Failure>)
    : Result<LaneTotals, Failure>
  {
    match acc
    case Err(f) => Err(f)
    case Ok(t) =>
      match step
      case Err(f) => Err(f)
      case Ok(None) => Ok(t)
      case Ok(Some(lane)) => Ok(LaneTotals(t.grounds + [lane.0], t.nPoints + lane.1, t.nVis + lane.2))
  }

  /** The point total counts every recovered ground point. */
  lemma {:induction false} LaneLoopPointCount(lanes: seq<LaneJson>, e: Affine, singular: bool)
    requires forall i :: 0 <= i < |lanes| ==> LaneShaped(lanes[i])
    ensures LaneLoop(lanes, e, singular).Ok? ==> LaneLoop(lanes, e, singular).value.nPoints == PointCount(LaneLoop(lanes, e, singular).value.grounds)
  {
    if lanes != [] && LaneLoop(lanes, e, singular).Ok? {
      var init := lanes[..|lanes| - 1];
      LaneLoopPointCount(init, e, singular);
      var acc := LaneLoop(init, e, singular).value;
      var step := LaneStep(lanes[|lanes| - 1], e, singular);
      if step.value.Some? {
        var (ground, n, nv) := step.value.value;
        assert (acc.grounds + [ground])[..|acc.grounds|] == acc.grounds;
      }
    }
  }

  /** An exception ends the loop: once a prefix raises, the whole loop raises it. */
  lemma {:induction false} LaneLoopErrorPersists(lanes: seq<LaneJson>, e: Affine, singular: bool, i: nat)
    requires forall j :: 0 <= j < |lanes| ==> LaneShaped(lanes[j])
    requires i <= |lanes| && LaneLoop(lanes[..i], e, singular).Err?
    ensures LaneLoop(lanes, e, singular) == LaneLoop(lanes[..i], e, singular)
    decreases |lanes|
  {
    if i < |lanes| {
      var init := lanes[..|lanes| - 1];
      assert init[..i] == lanes[..i];
      LaneLoopErrorPersists(init, e, singular, i);
    } else {
      assert lanes[..i] == lanes;
    }
  }

  /** For a level camera at height h, the as-written recovery places the road point
      (x, y, 0) at (x, h, y + h). */
  lemma {:induction false} LevelCameraRecoveredPoint(e: Affine, h: real, x: real, y: real)
    requires e.rot == Rgc && e.trans == Vec3(0.0, 0.0, h)
    ensures var open := Apply(ApolloToOpenLane, Apply(RigidInverse(e), Vec3(x, y, 0.0)));
            OpenLaneToGround([open], CompatibleExtrinsic(e)).1 == [Vec3(x, h, y + h)]
  {
    LevelCameraStoredIdentity(e);
    IdentityStoredLevel(e, CompatibleExtrinsic(e), h, x, y);
  }

  lemma {:induction false} IdentityStoredLevel(e: Affine, stored: Affine, h: real, x: real, y: real)
    requires e.rot == Rgc && e.trans == Vec3(0.0, 0.0, h)
    requires stored.rot == Identity3 && stored.trans == e.trans
    ensures var open := Apply(ApolloToOpenLane, Apply(RigidInverse(e), Vec3(x, y, 0.0)));
            OpenLaneToGround([open], stored).1 == [Vec3(x, h, y + h)]
  {
    var a := Vec3(x, h, y);
    assert Transpose(e.rot) == Mat3(Vec3(1.0, 0.0, 0.0), Vec3(0.0, 0.0, -1.0), Vec3(0.0, 1.0, 0.0));
    assert RigidInverse(e).trans == Vec3(0.0, h, 0.0);
    assert Apply(RigidInverse(e), Vec3(x, y, 0.0)) == a;
    IdentityStoredRecovers(stored, a);
  }

  /** The file's extrinsic for a level camera at height h: identity rotation,
      translation (0, 0, h). */
  lemma LevelCameraStored(h: real)
    ensures CompatibleExtrinsic(Affine(Rgc, Vec3(0.0, 0.0, h))) == Affine(Identity3, Vec3(0.0, 0.0, h))
  {
    LevelCameraStoredIdentity(Affine(Rgc, Vec3(0.0, 0.0, h)));
  }

  /** The lane loop as written, for a level camera at height h (whose file holds
      the extrinsic of LevelCameraStored): every ground point of a usable lane
      whose xyz the generator wrote from road points (x, y, 0) is (x, h, y + h),
      not the road point. */
  lemma {:induction false} LevelCameraLaneGrounds(l: LaneJson, h: real, road: seq<Vec3>, singular: bool)
    requires forall i :: 0 <= i < |road| ==> road[i].z == 0.0
    requires LaneShaped(l) && l.LaneObject? && l.xyz.Some?
    requires ParseXyz(l.xyz.value) ==
             Ok(seq(|road|, i requires 0 <= i < |road| =>
                  Apply(ApolloToOpenLane, Apply(RigidInverse(Affine(Rgc, Vec3(0.0, 0.0, h))), road[i]))))
    ensures var r := LaneStep(l, Affine(Identity3, Vec3(0.0, 0.0, h)), singular);
            r.Ok? && r.value.Some? ==>
              |r.value.value.0| == |road| &&
              forall i :: 0 <= i < |road| ==> r.value.value.0[i] == Vec3(road[i].x, h, road[i].y + h)
  {
    var stored := Affine(Identity3, Vec3(0.0, 0.0, h));
    IdentityStoredRoad(Affine(Rgc, Vec3(0.0, 0.0, h)), stored, h, ParseXyz(l.xyz.value).value, road);
  }

  lemma {:induction false} IdentityStoredRoad(e: Affine, stored: Affine, h: real, xyz: seq<Vec3>, road: seq<Vec3>)
    requires e.rot == Rgc && e.trans == Vec3(0.0, 0.0, h)
    requires stored.rot == Identity3 && stored.trans == e.trans
    requires forall i :: 0 <= i < |road| ==> road[i].z == 0.0
    requires xyz == seq(|road|, i requires 0 <= i < |road| => Apply(ApolloToOpenLane, Apply(RigidInverse(e), road[i])))
    ensures |OpenLaneToGround(xyz, stored).1| == |road|
    ensures forall i :: 0 <= i < |road| ==> OpenLaneToGround(xyz, stored).1[i] == Vec3(road[i].x, h, road[i].y + h)
  {
    var g := OpenLaneToGround(xyz, stored).1;
    forall i | 0 <= i < |road|
      ensures g[i] == Vec3(road[i].x, h, road[i].y + h)
    {
      assert road[i] == Vec3(road[i].x, road[i].y, 0.0);
      IdentityStoredLevel(e, stored, h, road[i].x, road[i].y);
      assert g[i] == OpenLaneToGround([xyz[i]], stored).1[0];
    }
  }

  /** One more lane: skipped lanes leave the totals, usable ones add to them. */
  lemma LaneLoopSnoc(lanes: seq<LaneJson>, e: Affine, singular: bool, i: nat, acc: LaneTotals)
    requires forall j :: 0 <= j < |lanes| ==> LaneShaped(lanes[j])
    requires i < |lanes| && LaneLoop(lanes[..i], e, singular) == Ok(acc)
    ensures var step := LaneStep(lanes[i], e, singular);
            var after := LaneLoop(lanes[..i + 1], e, singular);
            (step.Err? ==> after == Err(step.error)) &&
            (step == Ok(None) ==> after == Ok(acc)) &&
            (step.Ok? && step.value.Some? ==>
               after == Ok(LaneTotals(acc.grounds + [step.value.value.0], acc.nPoints + step.value.value.1, acc.nVis + step.value.value.2)))
  {
    LaneLoopPrefixStep(lanes, e, singular, i);
    AddLaneCases(acc, LaneStep(lanes[i], e, singular));
  }

  /** What folding one step into totals does, case by case. */
  lemma AddLaneCases(acc: LaneTotals, step: Result<Option<(seq<Vec3>, nat, nat)>, Failure>)
    ensures step.Err? ==> AddLane(Ok(acc), step) == Err(step.error)
    ensures step == Ok(None) ==> AddLane(Ok(acc), step) == Ok(acc)
    ensures step.Ok? && step.value.Some? ==>
              AddLane(Ok(acc), step) == Ok(LaneTotals(acc.grounds + [step.value.value.0], acc.nPoints + step.value.value.1, acc.nVis + step.value.value.2))
  {}

  /** The loop over lanes[..i + 1] is lane i's step folded into the loop over lanes[..i]. */
  lemma LaneLoopAdd(lanes: seq<LaneJson>, e: Affine, singular: bool, i: nat, step: Result<Option<(seq<Vec3>, nat, nat)>, Failure>)
    requires forall j :: 0 <= j < |lanes| ==> LaneShaped(lanes[j])
    requires i < |lanes| && step == LaneStep(lanes[i], e, singular)
    ensures LaneLoop(lanes[..i + 1], e, singular) == AddLane(LaneLoop(lanes[..i], e, singular), step)
  {
    LaneLoopPrefixStep(lanes, e, singular, i);
  }

  /** The loop over lanes[..i + 1] folds lane i into the loop over lanes[..i]. */
  lemma LaneLoopPrefixStep(lanes: seq<LaneJson>, e: Affine, singular: bool, i: nat)
    requires forall j :: 0 <= j < |lanes| ==> LaneShaped(lanes[j])
    requires i < |lanes|
    ensures LaneLoop(lanes[..i + 1], e, singular) == AddLane(LaneLoop(lanes[..i], e, singular), LaneStep(lanes[i], e, singular))
  {
    var prefix := lanes[..i + 1];
    assert prefix[..|prefix| - 1] == lanes[..i];
    assert prefix[|prefix| - 1] == lanes[i];
  }

  /** With a singular E, the first lane that reaches the reprojection check ends
      the loop with LinAlgError. */
  lemma {:induction false} SingularLaneRaises(lanes: seq<LaneJson>, e: Affine, i: nat)
    requires forall j :: 0 <= j < |lanes| ==> LaneShaped(lanes[j])
    requires i < |lanes| && LaneLoop(lanes[..i], e, true).Ok? && ReachesReprojection(lanes[i])
    ensures LaneLoop(lanes, e, true) == Err(LinAlgError)
  {
    LaneStepOfPoints(lanes[i], e, true);
    LaneLoopPrefixStep(lanes, e, true, i);
    LaneLoopErrorPersists(lanes, e, true, i + 1);
  }

  /** With an invertible E the loop never raises LinAlgError. */
  lemma {:induction false} LaneLoopInvertible(lanes: seq<LaneJson>, e: Affine)
    requires forall j :: 0 <= j < |lanes| ==> LaneShaped(lanes[j])
    ensures LaneLoop(lanes, e, false) != Err(LinAlgError)
  {
    if lanes != [] {
      LaneLoopInvertible(lanes[..|lanes| - 1], e);
    }
  }

  /** One iteration of the lane loop: None where the source continues, the
      lane's contribution otherwise, or the exception it raises. */
  method LaneBody(lane: LaneJson, e: Affine, singular: bool) returns (step: Result<Option<(seq<Vec3>, nat, nat)>, Failure>)
    requires LaneShaped(lane)
    ensures step == LaneStep(lane, e, singular)
  {
    if lane.NotAnObject? {
      if lane.containsXyz == Some(false) {
        return Ok(None);
      }
      return Err(TypeError);
    }
    if lane.xyz.None? {
      return Ok(None);
    }
    var xyzR := ParseXyz(lane.xyz.value);
    if xyzR.Err? {
      return Err(xyzR.error);
    }
    var xyz := xyzR.value;
    var n: nat := |xyz|;
    if n < 2 {
      return Ok(None);
    }
    var vis := Ones(n);
    if lane.visibility.Some? {
      var flat := Flatten(lane.visibility.value);
      if flat.Err? {
        return Err(flat.error);
      }
      vis := if |flat.value| != n then Ones(n) else flat.value;
    }
    if lane.uv.Some? {
      var uvR := ParseUv(lane.uv.value);
      if uvR.Err? {
        return Err(uvR.error);
      }
      if singular && |uvR.value| == n {
        return Err(LinAlgError);
      }
    }
    var ground := OpenLaneToGround(xyz, e).1;
    return Ok(Some((ground, n, CountAbove(vis, 0.5))));
  }

  /** The accumulation loop of validate_frame, with the exception path. */
  method RunLaneLoop(lanes: seq<LaneJson>, e: Affine, singular: bool) returns (r: Result<LaneTotals, Failure>)
    requires forall i :: 0 <= i < |lanes| ==> LaneShaped(lanes[i])
    ensures r == LaneLoop(lanes, e, singular)
  {
    var totals := LaneTotals([], 0, 0);
    for i := 0 to |lanes|
      invariant LaneLoop(lanes[..i], e, singular) == Ok(totals)
    {
      var next := AccumulateLane(lanes, e, singular, i, totals);
      if next.Err? {
        LaneLoopErrorPersists(lanes, e, singular, i + 1);
        return next;
      }
      totals := next.value;
    }
    assert lanes[..|lanes|] == lanes;
    return Ok(totals);
  }

  /** The body of the lane loop: lane i raises, is skipped, or adds its ground
      points, its point count and its visible count to the totals. */
  method AccumulateLane(lanes: seq<LaneJson>, e: Affine, singular: bool, i: nat, acc: LaneTotals)
    returns (next: Result<LaneTotals, Failure>)
    requires forall j :: 0 <= j < |lanes| ==> LaneShaped(lanes[j])
    requires i < |lanes| && LaneLoop(lanes[..i], e, singular) == Ok(acc)
    ensures next == LaneLoop(lanes[..i + 1], e, singular)
  {
    var step := LaneBody(lanes[i], e, singular);
    LaneLoopAdd(lanes, e, singular, i, step);
    AddLaneCases(acc, step);
    match step {
      case Err(f) =>
        next := Err(f);
      case Ok(None) =>
        next := Ok(acc);
      case Ok(Some(lane)) =>
        next := Ok(LaneTotals(acc.grounds + [lane.0], acc.nPoints + lane.1, acc.nVis + lane.2));
    }
  }

  // ---------------------------------------------------------------------
  // The decision

  /** The aggregate statistics the decision reads; None stands for NaN. */
  datatype Metrics = Metrics(
    reprojMean: Option<real>,
    reprojMax: Option<real>,
    yNonmonoRatio: Option<real>,
    maxAbsX: real,
    maxY: real,
    visUvMismatch: Option<real>)

  datatype Reason =
    | ReprojMeanHigh(mean: real)
    | ReprojMaxHigh(max: real)
    | YNonmonoHigh(ratio: real)
    | XOutOfExpected
    | YTooShort
    | VisUvMismatchHigh(mismatch: real)

  /** The reason field: "ok", the reasons joined by ';', "failed_thresholds",
      "no_valid_lanes", or "exception:..." */
  datatype ReasonText = ReasonOk | Joined(reasons: seq<Reason>) | FailedThresholds | NoValidLanes | ExceptionText(f: Failure)

  predicate Above(m: Option<real>, t: real) { m.Some? && m.value > t }

  /** The checks that fail a frame. */
  predicate ThresholdFailure(m: Metrics) {
    Above(m.reprojMean, 2.0) || Above(m.reprojMax, 10.0) || Above(m.yNonmonoRatio, 0.20)
  }

  /** Each reason is backed by the statistic it reports. */
  predicate Justified(r: Reason, m: Metrics, xLimit: real) {
    match r
    case ReprojMeanHigh(v) => m.reprojMean == Some(v) && v > 2.0
    case ReprojMaxHigh(v) => m.reprojMax == Some(v) && v > 10.0
    case YNonmonoHigh(v) => m.yNonmonoRatio == Some(v) && v > 0.20
    case XOutOfExpected => m.maxAbsX > xLimit + 10.0
    case YTooShort => m.maxY < 10.0
    case VisUvMismatchHigh(v) => m.visUvMismatch == Some(v) && v > 0.10
  }

  /** The position of each check in the order validate_frame runs them. */
  function Rank(r: Reason): nat {
    match r
    case ReprojMeanHigh(_) => 0
    case ReprojMaxHigh(_) => 1
    case YNonmonoHigh(_) => 2
    case XOutOfExpected => 3
    case YTooShort => 4
    case VisUvMismatchHigh(_) => 5
  }

  /** One threshold check: whether it failed and the reason it reports. */
  datatype Check = Check(failed: bool, reason: Reason)

  function ValueOr(m: Option<real>): real { if m.Some? then m.value else 0.0 }

  /** The six checks of validate_frame, in the order it runs them. */
  function Checks(m: Metrics, xLimit: real): (cs: seq<Check>)
    ensures |cs| == 6
  {
    [Check(Above(m.reprojMean, 2.0), ReprojMeanHigh(ValueOr(m.reprojMean))),
     Check(Above(m.reprojMax, 10.0), ReprojMaxHigh(ValueOr(m.reprojMax))),
     Check(Above(m.yNonmonoRatio, 0.20), YNonmonoHigh(ValueOr(m.yNonmonoRatio))),
     Check(m.maxAbsX > xLimit + 10.0, XOutOfExpected),
     Check(m.maxY < 10.0, YTooShort),
     Check(Above(m.visUvMismatch, 0.10), VisUvMismatchHigh(ValueOr(m.visUvMismatch)))]
  }

  /** The reasons of the failed checks, in check order. */
  function Failed(cs: seq<Check>): seq<Reason> {
    if cs == [] then []
    else Failed(cs[..|cs| - 1]) + (if cs[|cs| - 1].failed then [cs[|cs| - 1].reason] else [])
  }

  function When(c: bool, r: Reason): seq<Reason> { if c then [r] else [] }

  /** The reasons validate_frame lists, check by check. */
  function FailedChecks(m: Metrics, xLimit: real): seq<Reason> {
    When(Above(m.reprojMean, 2.0), ReprojMeanHigh(ValueOr(m.reprojMean)))
    + When(Above(m.reprojMax, 10.0), ReprojMaxHigh(ValueOr(m.reprojMax)))
    + When(Above(m.yNonmonoRatio, 0.20), YNonmonoHigh(ValueOr(m.yNonmonoRatio)))
    + When(m.maxAbsX > xLimit + 10.0, XOutOfExpected)
    + When(m.maxY < 10.0, YTooShort)
    + When(Above(m.visUvMismatch, 0.10), VisUvMismatchHigh(ValueOr(m.visUvMismatch)))
  }

  /** The check-by-check list is the filter of the failed checks. */
  lemma FailedChecksFilter(m: Metrics, xLimit: real)
    ensures FailedChecks(m, xLimit) == Failed(Checks(m, xLimit))
  {
    var cs := Checks(m, xLimit);
    var c0, c1, c2, c3, c4, c5 := cs[0], cs[1], cs[2], cs[3], cs[4], cs[5];
    assert cs == [c0, c1, c2, c3, c4, c5];
    var w0, w1, w2 := When(c0.failed, c0.reason), When(c1.failed, c1.reason), When(c2.failed, c2.reason);
    var w3, w4, w5 := When(c3.failed, c3.reason), When(c4.failed, c4.reason), When(c5.failed, c5.reason);
    assert FailedChecks(m, xLimit) == w0 + w1 + w2 + w3 + w4 + w5;
    FailedSnoc([], c0);
    assert [] + [c0] == [c0] && [] + w0 == w0;
    FailedSnoc([c0], c1);
    assert [c0] + [c1] == [c0, c1];
    FailedSnoc([c0, c1], c2);
    assert [c0, c1] + [c2] == [c0, c1, c2];
    FailedSnoc([c0, c1, c2], c3);
    assert [c0, c1, c2] + [c3] == [c0, c1, c2, c3];
    FailedSnoc([c0, c1, c2, c3], c4);
    assert [c0, c1, c2, c3] + [c4] == [c0, c1, c2, c3, c4];
    FailedSnoc([c0, c1, c2, c3, c4], c5);
    assert [c0, c1, c2, c3, c4] + [c5] == cs;
  }

  lemma FailedSnoc(cs: seq<Check>, c: Check)
    ensures Failed(cs + [c]) == Failed(cs) + When(c.failed, c.reason)
  {
    assert (cs + [c])[..|cs|] == cs;
  }

  /** A reason is listed exactly when a check reporting it failed. */
  lemma {:induction false} FailedMembers(cs: seq<Check>)
    ensures forall r :: r in Failed(cs) ==> Check(true, r) in cs
    ensures forall c :: c in cs && c.failed ==> c.reason in Failed(cs)
  {
    if cs != [] {
      var init := cs[..|cs| - 1];
      FailedMembers(init);
      assert cs == init + [cs[|cs| - 1]];
    }
  }

  /** When the checks' ranks increase, so do the ranks of the listed reasons. */
  lemma {:induction false} FailedOrdered(cs: seq<Check>)
    requires forall i, j :: 0 <= i < j < |cs| ==> Rank(cs[i].reason) < Rank(cs[j].reason)
    ensures forall i, j :: 0 <= i < j < |Failed(cs)| ==> Rank(Failed(cs)[i]) < Rank(Failed(cs)[j])
  {
    if cs != [] {
      var init := cs[..|cs| - 1];
      var last := cs[|cs| - 1];
      FailedOrdered(init);
      FailedMembers(init);
      var out := Failed(cs);
      forall i, j | 0 <= i < j < |out| ensures Rank(out[i]) < Rank(out[j]) {
        if j >= |Failed(init)| {
          var r := out[i];
          assert r in Failed(init);
          assert Check(true, r) in init;
          var k :| 0 <= k < |init| && init[k] == Check(true, r);
          assert Rank(init[k].reason) < Rank(last.reason);
        }
      }
    }
  }

  /** FailedChecksOrdered, stated on the filter of the checks. */
  lemma CheckListOrdered(m: Metrics, xLimit: real)
    ensures forall r :: r in Failed(Checks(m, xLimit)) ==> Justified(r, m, xLimit)
    ensures forall i, j :: 0 <= i < j < |Failed(Checks(m, xLimit))| ==>
              Rank(Failed(Checks(m, xLimit))[i]) < Rank(Failed(Checks(m, xLimit))[j])
    ensures ThresholdFailure(m) ==> Failed(Checks(m, xLimit)) != [] && Rank(Failed(Checks(m, xLimit))[0]) <= 2
  {
    var cs := Checks(m, xLimit);
    ChecksRanked(m, xLimit);
    FailedOrdered(cs);
    CheckListJustified(m, xLimit);
    if ThresholdFailure(m) {
      CheckListLeads(m, xLimit);
    }
  }

  /** The six checks are listed in increasing rank. */
  lemma ChecksRanked(m: Metrics, xLimit: real)
    ensures forall i, j :: 0 <= i < j < |Checks(m, xLimit)| ==>
              Rank(Checks(m, xLimit)[i].reason) < Rank(Checks(m, xLimit)[j].reason)
  {
    var cs := Checks(m, xLimit);
    assert forall i :: 0 <= i < 6 ==> Rank(cs[i].reason) == i;
  }

  lemma CheckListJustified(m: Metrics, xLimit: real)
    ensures forall r :: r in Failed(Checks(m, xLimit)) ==> Justified(r, m, xLimit)
  {
    var cs := Checks(m, xLimit);
    FailedMembers(cs);
    forall r | r in Failed(cs) ensures Justified(r, m, xLimit) {
      assert Check(true, r) in cs;
    }
  }

  lemma CheckListLeads(m: Metrics, xLimit: real)
    requires ThresholdFailure(m)
    ensures Failed(Checks(m, xLimit)) != [] && Rank(Failed(Checks(m, xLimit))[0]) <= 2
  {
    var cs := Checks(m, xLimit);
    FailedMembers(cs);
    ChecksRanked(m, xLimit);
    FailedOrdered(cs);
    var k := if cs[0].failed then 0 else if cs[1].failed then 1 else 2;
    assert cs[k].failed && cs[k] in cs;
    var rs := Failed(cs);
    assert cs[k].reason in rs;
    var n :| 0 <= n < |rs| && rs[n] == cs[k].reason;
    assert Rank(rs[0]) <= Rank(rs[n]);
  }

  /** FailedChecksComplete, stated on the filter of the checks. */
  lemma CheckListComplete(m: Metrics, xLimit: real)
    ensures m.reprojMean.Some? && m.reprojMean.value > 2.0 ==> ReprojMeanHigh(m.reprojMean.value) in Failed(Checks(m, xLimit))
    ensures m.reprojMax.Some? && m.reprojMax.value > 10.0 ==> ReprojMaxHigh(m.reprojMax.value) in Failed(Checks(m, xLimit))
    ensures m.yNonmonoRatio.Some? && m.yNonmonoRatio.value > 0.20 ==> YNonmonoHigh(m.yNonmonoRatio.value) in Failed(Checks(m, xLimit))
    ensures m.maxAbsX > xLimit + 10.0 <==> XOutOfExpected in Failed(Checks(m, xLimit))
    ensures m.maxY < 10.0 <==> YTooShort in Failed(Checks(m, xLimit))
    ensures m.visUvMismatch.Some? && m.visUvMismatch.value > 0.10 ==> VisUvMismatchHigh(m.visUvMismatch.value) in Failed(Checks(m, xLimit))
  {
    var cs := Checks(m, xLimit);
    FailedMembers(cs);
    assert cs[0] in cs && cs[1] in cs && cs[2] in cs && cs[3] in cs && cs[4] in cs && cs[5] in cs;
    if XOutOfExpected in Failed(cs) {
      assert Check(true, XOutOfExpected) in cs;
    }
    if YTooShort in Failed(cs) {
      assert Check(true, YTooShort) in cs;
    }
  }

  /** Every listed reason is backed by its statistic, the reasons are in check
      order, and a frame that fails the thresholds always has a reprojection or
      monotonicity reason first. */
  lemma FailedChecksOrdered(m: Metrics, xLimit: real)
    ensures forall r :: r in FailedChecks(m, xLimit) ==> Justified(r, m, xLimit)
    ensures forall i, j :: 0 <= i < j < |FailedChecks(m, xLimit)| ==>
              Rank(FailedChecks(m, xLimit)[i]) < Rank(FailedChecks(m, xLimit)[j])
    ensures ThresholdFailure(m) ==> FailedChecks(m, xLimit) != [] && Rank(FailedChecks(m, xLimit)[0]) <= 2
  {
    FailedChecksFilter(m, xLimit);
    CheckListOrdered(m, xLimit);
  }

  /** Every failed check is listed, and the range checks are listed only when they fail. */
  lemma FailedChecksComplete(m: Metrics, xLimit: real)
    ensures m.reprojMean.Some? && m.reprojMean.value > 2.0 ==> ReprojMeanHigh(m.reprojMean.value) in FailedChecks(m, xLimit)
    ensures m.reprojMax.Some? && m.reprojMax.value > 10.0 ==> ReprojMaxHigh(m.reprojMax.value) in FailedChecks(m, xLimit)
    ensures m.yNonmonoRatio.Some? && m.yNonmonoRatio.value > 0.20 ==> YNonmonoHigh(m.yNonmonoRatio.value) in FailedChecks(m, xLimit)
    ensures m.maxAbsX > xLimit + 10.0 <==> XOutOfExpected in FailedChecks(m, xLimit)
    ensures m.maxY < 10.0 <==> YTooShort in FailedChecks(m, xLimit)
    ensures m.visUvMismatch.Some? && m.visUvMismatch.value > 0.10 ==> VisUvMismatchHigh(m.visUvMismatch.value) in FailedChecks(m, xLimit)
  {
    FailedChecksFilter(m, xLimit);
    CheckListComplete(m, xLimit);
  }

  /** A frame fails the thresholds exactly when one of the first three checks
      (reprojection mean, reprojection max, monotonicity) lists its reason. */
  lemma ThresholdFailureListed(m: Metrics, xLimit: real)
    ensures ThresholdFailure(m) <==> exists r :: r in FailedChecks(m, xLimit) && Rank(r) <= 2
  {
    FailedChecksOrdered(m, xLimit);
    if ThresholdFailure(m) {
      assert FailedChecks(m, xLimit)[0] in FailedChecks(m, xLimit);
    }
  }

  /** The ok flag and the reasons of lines 274-296: only the reprojection and
      monotonicity thresholds clear ok (NaN never does), every failed check adds
      its reason in check order, and the reason text is "ok" exactly when ok holds. */
  method Decide(m: Metrics, xLimit: real) returns (ok: bool, reasons: seq<Reason>, reason: ReasonText)
    ensures ok <==> !ThresholdFailure(m)
    ensures reasons == FailedChecks(m, xLimit)
    ensures reason == (if ok then ReasonOk else Joined(reasons))
  {
    ok := true;
    reasons := [];
    if Above(m.reprojMean, 2.0) {
      ok := false;
      reasons := reasons + [ReprojMeanHigh(m.reprojMean.value)];
    }
    ghost var a := reasons;
    assert a == When(Above(m.reprojMean, 2.0), ReprojMeanHigh(ValueOr(m.reprojMean)));
    if Above(m.reprojMax, 10.0) {
      ok := false;
      reasons := reasons + [ReprojMaxHigh(m.reprojMax.value)];
    }
    ghost var ab := reasons;
    assert ab == a + When(Above(m.reprojMax, 10.0), ReprojMaxHigh(ValueOr(m.reprojMax)));
    if Above(m.yNonmonoRatio, 0.20) {
      ok := false;
      reasons := reasons + [YNonmonoHigh(m.yNonmonoRatio.value)];
    }
    ghost var abc := reasons;
    assert abc == ab + When(Above(m.yNonmonoRatio, 0.20), YNonmonoHigh(ValueOr(m.yNonmonoRatio)));
    assert ok <==> abc == [];
    if m.maxAbsX > xLimit + 10.0 {
      reasons := reasons + [XOutOfExpected];
    }
    ghost var abcd := reasons;
    assert abcd == abc + When(m.maxAbsX > xLimit + 10.0, XOutOfExpected);
    if m.maxY < 10.0 {
      reasons := reasons + [YTooShort];
    }
    ghost var abcde := reasons;
    assert abcde == abcd + When(m.maxY < 10.0, YTooShort);
    if Above(m.visUvMismatch, 0.10) {
      reasons := reasons + [VisUvMismatchHigh(m.visUvMismatch.value)];
    }
    assert reasons == abcde + When(Above(m.visUvMismatch, 0.10), VisUvMismatchHigh(ValueOr(m.visUvMismatch)));
    assert !ok ==> abc != [] && reasons[0] == abc[0];
    reason := if ok then ReasonOk else if reasons != [] then Joined(reasons) else FailedThresholds;
  }

  /** The frame file as read: the intrinsic and extrinsic values (None when the
      key is missing) and the lane_lines value (missing, a list, or another value). */
  datatype LanesField = Missing | LaneList(lanes: seq<LaneJson>) | NotAList
  datatype FrameJson = FrameJson(intrinsic: Option<NumArray>, extrinsic: Option<NumArray>, laneLines: LanesField)

  datatype Report = Report(ok: bool, reason: ReasonText, nLanes: nat, nPointsTotal: nat, nVisTotal: nat)

  ghost predicate FrameShaped(f: FrameJson) {
    (f.intrinsic.Some? ==> WellShaped(f.intrinsic.value)) &&
    (f.extrinsic.Some? ==> WellShaped(f.extrinsic.value)) &&
    (f.laneLines.LaneList? ==> forall i :: 0 <= i < |f.laneLines.lanes| ==> LaneShaped(f.laneLines.lanes[i]))
  }

  predicate HasShape(a: NumArray, r: nat, c: nat) {
    a.Dims2? && |a.rows| == r && a.cols == c
  }

  /** safe_np(frame[key], shape): KeyError for a missing key, TypeError or
      ValueError from the conversion, ValueError for any other shape. */
  function SafeNp(a: Option<NumArray>, r: nat, c: nat): (res: Result<NumArray, Failure>)
    ensures res.Ok? <==> a.Some? && HasShape(a.value, r, c)
    ensures res.Ok? ==> res.value == a.value
    ensures a.None? ==> res == Err(KeyError)
    ensures a == Some(NotConvertible) ==> res == Err(TypeError)
    ensures a.Some? && a.value != NotConvertible && !HasShape(a.value, r, c) ==> res == Err(ValueError)
  {
    if a.None? then Err(KeyError)
    else if a.value.NotConvertible? then Err(TypeError)
    else if HasShape(a.value, r, c) then Ok(a.value)
    else Err(ValueError)
  }

  /** E[:3, :3] and E[:3, 3]: the transform read from the top three rows. The
      fourth row only matters to np.linalg.inv(E), through Singular. */
  function ExtrinsicOf(a: NumArray): (e: Affine)
    requires HasShape(a, 4, 4) && WellShaped(a)
    ensures forall i, j :: 0 <= i < 3 && 0 <= j < 4 ==> Rows4(e)[i][j] == a.rows[i][j]
  {
    var rows := a.rows;
    Affine(Mat3(Vec3(rows[0][0], rows[0][1], rows[0][2]),
                Vec3(rows[1][0], rows[1][1], rows[1][2]),
                Vec3(rows[2][0], rows[2][1], rows[2][2])),
           Vec3(rows[0][3], rows[1][3], rows[2][3]))
  }

  /** Reading back the four rows the generator writes gives the transform again. */
  lemma ExtrinsicOfRows4(t: Affine)
    ensures HasShape(Dims2(Rows4(t), 4), 4, 4) && WellShaped(Dims2(Rows4(t), 4))
    ensures ExtrinsicOf(Dims2(Rows4(t), 4)) == t
  {
  }

  /** np.linalg.inv(E) raises LinAlgError: the 4x4 matrix, fourth row included,
      has determinant zero. */
  predicate Singular(a: NumArray)
    requires HasShape(a, 4, 4) && WellShaped(a)
  {
    Det4(a.rows) == 0.0
  }

  /** The extrinsic the generator writes for a camera pose with an orthonormal
      rotation is never singular, so the validator never raises LinAlgError for it. */
  lemma {:induction false} GeneratedExtrinsicInvertible(e: Affine)
    requires Orthonormal(e.rot)
    ensures HasShape(Dims2(Rows4(CompatibleExtrinsic(e)), 4), 4, 4) && WellShaped(Dims2(Rows4(CompatibleExtrinsic(e)), 4))
    ensures !Singular(Dims2(Rows4(CompatibleExtrinsic(e)), 4))
  {
    var stored := CompatibleExtrinsic(e);
    ExtrinsicOfRows4(stored);
    Rows4Det(stored);
    ReexpressDet(e.rot);
    OrthonormalDet(e.rot);
  }

  /** A 4x4 matrix whose last row is zero is singular, whatever its top three rows. */
  lemma ZeroLastRowSingular(a: NumArray)
    requires HasShape(a, 4, 4) && WellShaped(a)
    requires a.rows[3] == [0.0, 0.0, 0.0, 0.0]
    ensures Singular(a)
  {}

  /** What validate_frame reads before the lane loop, in its order: K, then E,
      then the type of lane_lines; the first of them that raises decides the error.
      E is passed on with whether it is singular. */
  function FrameSetup(f: FrameJson): (r: Result<(Affine, bool, seq<LaneJson>), Failure>)
    requires FrameShaped(f)
    ensures f.intrinsic.None? ==> r == Err(KeyError)
    ensures SafeNp(f.intrinsic, 3, 3).Ok? && f.extrinsic.None? ==> r == Err(KeyError)
    ensures r.Ok? <==> SafeNp(f.intrinsic, 3, 3).Ok? && SafeNp(f.extrinsic, 4, 4).Ok? && !f.laneLines.NotAList?
    ensures r.Ok? ==> r.value.0 == ExtrinsicOf(f.extrinsic.value) && r.value.1 == Singular(f.extrinsic.value)
    ensures r.Ok? ==> r.value.2 == (if f.laneLines.Missing? then [] else f.laneLines.lanes) &&
                      forall i :: 0 <= i < |r.value.2| ==> LaneShaped(r.value.2[i])
  {
    match SafeNp(f.intrinsic, 3, 3)
    case Err(err) => Err(err)
    case Ok(_) =>
      match SafeNp(f.extrinsic, 4, 4)
      case Err(err) => Err(err)
      case Ok(ext) =>
        if f.laneLines.NotAList? then Err(ValueError)
        else Ok((ExtrinsicOf(ext), Singular(ext), if f.laneLines.Missing? then [] else f.laneLines.lanes))
  }

  /** validate_frame with the statistics supplied as `m`: every exception gives
      ok = false with an exception reason and zero counts, LinAlgError only for a
      singular E; no usable lane gives "no_valid_lanes"; otherwise the decision
      over the metrics. */
  method ValidateFrame(f: FrameJson, m: Metrics, xLimit: real) returns (rep: Report)
    requires FrameShaped(f)
    ensures FrameSetup(f).Err? ==> rep == Report(false, ExceptionText(FrameSetup(f).error), 0, 0, 0)
    ensures rep.reason.ExceptionText? ==> !rep.ok && rep.nLanes == 0 && rep.nPointsTotal == 0
    ensures rep.reason == NoValidLanes ==> !rep.ok && rep.nPointsTotal == 0
    ensures rep.ok <==> !rep.reason.ExceptionText? && rep.reason != NoValidLanes && !ThresholdFailure(m)
    ensures rep.ok <==> rep.reason == ReasonOk
    ensures rep.reason != FailedThresholds
    ensures rep.reason == ExceptionText(LinAlgError) ==> FrameSetup(f).Ok? && FrameSetup(f).value.1
    ensures FrameSetup(f).Ok? ==>
              var (e, singular, lanes) := FrameSetup(f).value;
              match LaneLoop(lanes, e, singular)
              case Err(err) => rep == Report(false, ExceptionText(err), 0, 0, 0)
              case Ok(t) =>
                if t.grounds == [] then rep == Report(false, NoValidLanes, |lanes|, 0, 0)
                else rep.nLanes == |lanes| && rep.nPointsTotal == t.nPoints && rep.nVisTotal == t.nVis
  {
    var setup := FrameSetup(f);
    if setup.Err? {
      return Report(false, ExceptionText(setup.error), 0, 0, 0);
    }
    var (e, singular, lanes) := setup.value;
    var loop := RunLaneLoop(lanes, e, singular);
    if !singular {
      LaneLoopInvertible(lanes, e);
    }
    if loop.Err? {
      return Report(false, ExceptionText(loop.error), 0, 0, 0);
    }
    var t := loop.value;
    if |t.grounds| == 0 {
      return Report(false, NoValidLanes, |lanes|, 0, 0);
    }
    var ok, reasons, reason := Decide(m, xLimit);
    rep := Report(ok, reason, |lanes|, t.nPoints, t.nVis);
  }
}

=== FILE: visibility.dfy ===
// The occlusion test of the visibility handler: decoding the simulator's
// raw depth image into metres, and the per-point z-buffer comparison.

module Visibility {
  import opened Wrappers

  /** One raw depth pixel as stored: channel 0, 1, 2 in image order (B, G, R). */
  datatype Pixel = Pixel(c0: int, c1: int, c2: int)

  predicate IsByte(c: int) { 0 <= c <= 255 }

  predicate IsBytePixel(p: Pixel) { IsByte(p.c0) && IsByte(p.c1) && IsByte(p.c2) }

  const MaxCode: int := 256 * 256 * 256 - 1

  /** The 24-bit code with channel 0 as the most significant byte. */
  function DepthCode(p: Pixel): (code: int)
    ensures IsBytePixel(p) ==> 0 <= code <= MaxCode
  {
    p.c2 + p.c1 * 256 + p.c0 * 256 * 256
  }

  /** decode_carla_depth for one pixel: code / (256^3 - 1) * 1000 metres. */
  function DecodePixel(p: Pixel): (metres: real)
    ensures IsBytePixel(p) ==> 0.0 <= metres <= 1000.0
  {
    (DepthCode(p) as real / MaxCode as real) * 1000.0
  }

  /** Byte pixels with different channels decode to different depths. */
  lemma {:induction false} DecodePixelInjective(p: Pixel, q: Pixel)
    requires IsBytePixel(p) && IsBytePixel(q)
    requires DecodePixel(p) == DecodePixel(q)
    ensures p == q
  {
    assert DepthCode(p) == DepthCode(q);
    var a := p.c2 + p.c1 * 256;
    var b := q.c2 + q.c1 * 256;
    assert 0 <= a < 65536 && 0 <= b < 65536;
    assert (p.c0 - q.c0) * 65536 == b - a;
    if p.c0 != q.c0 {
      assert false;
    }
    assert (p.c1 - q.c1) * 256 == q.c2 - p.c2;
    if p.c1 != q.c1 {
      assert false;
    }
  }

  /** The whole image, pixel by pixel. */
  function DecodeCarlaDepth(img: seq<seq<Pixel>>): (metres: seq<seq<real>>)
    ensures |metres| == |img|
    ensures forall r :: 0 <= r < |img| ==> |metres[r]| == |img[r]|
    ensures forall r, c :: 0 <= r < |img| && 0 <= c < |img[r]| ==> metres[r][c] == DecodePixel(img[r][c])
    ensures forall r, c :: 0 <= r < |img| && 0 <= c < |img[r]| && IsBytePixel(img[r][c]) ==>
              0.0 <= metres[r][c] <= 1000.0
  {
    seq(|img|, r requires 0 <= r < |img| =>
      seq(|img[r]|, c requires 0 <= c < |img[r]| => DecodePixel(img[r][c])))
  }

  // ---------------------------------------------------------------------
  // Z-buffer test

  /** Python's int() on a float: truncation toward zero. */
  function Trunc(x: real): (n: int)
    ensures x >= 0.0 ==> n as real <= x < n as real + 1.0
    ensures x < 0.0 ==> n as real - 1.0 < x <= n as real
  {
    if x >= 0.0 then x.Floor else -((-x).Floor)
  }

  /** A coordinate just left of (or above) the image truncates to 0 and counts as inside. */
  lemma TruncSmallNegative(x: real)
    requires -1.0 < x < 0.0
    ensures Trunc(x) == 0
  {}

  /** Whether depth_map[vi, ui] exists. */
  predicate HasDepth(depth: seq<seq<real>>, vi: int, ui: int) {
    0 <= vi < |depth| && 0 <= ui < |depth[vi]|
  }

  /** Whether the truncated pixel lies inside the w x h image. */
  predicate InImage(u: real, v: real, w: int, h: int) {
    0 <= Trunc(u) < w && 0 <= Trunc(v) < h
  }

  /** The flag of one point: 0 outside the image or behind the camera, otherwise 1
      exactly when the point is no more than `threshold` behind the sensed depth.
      None stands for the IndexError of reading a pixel the depth map lacks. */
  function PointVisibility(u: real, v: real, z: real, depth: seq<seq<real>>, w: int, h: int, threshold: real)
    : (flag: Option<real>)
    ensures flag.Some? ==> flag.value == 0.0 || flag.value == 1.0
    ensures !InImage(u, v, w, h) ==> flag == Some(0.0)
    ensures InImage(u, v, w, h) && z <= 0.0 ==> flag == Some(0.0)
    ensures InImage(u, v, w, h) && z > 0.0 ==> (flag.None? <==> !HasDepth(depth, Trunc(v), Trunc(u)))
    ensures InImage(u, v, w, h) && z > 0.0 && HasDepth(depth, Trunc(v), Trunc(u)) ==>
              (flag == Some(1.0) <==> z <= depth[Trunc(v)][Trunc(u)] + threshold)
  {
    var ui := Trunc(u);
    var vi := Trunc(v);
    if ui < 0 || ui >= w || vi < 0 || vi >= h then Some(0.0)
    else if z <= 0.0 then Some(0.0)
    else if !HasDepth(depth, vi, ui) then None
    else if z > depth[vi][ui] + threshold then Some(0.0)
    else Some(1.0)
  }

  /** Raising the tolerance never hides a visible point, and never changes whether
      the read raises. */
  lemma ThresholdMonotone(u: real, v: real, z: real, depth: seq<seq<real>>, w: int, h: int, t1: real, t2: real)
    requires t1 <= t2
    ensures PointVisibility(u, v, z, depth, w, h, t1).None? <==> PointVisibility(u, v, z, depth, w, h, t2).None?
    ensures PointVisibility(u, v, z, depth, w, h, t1).Some? ==>
              PointVisibility(u, v, z, depth, w, h, t1).value <= PointVisibility(u, v, z, depth, w, h, t2).value
  {}

  /** A depth map covering the image: at least h rows of at least w entries. */
  ghost predicate InDepthMap(depth: seq<seq<real>>, w: int, h: int) {
    |depth| >= h && forall r :: 0 <= r < |depth| ==> |depth[r]| >= w
  }

  /** With a depth map covering the image, no point raises. */
  lemma CoveringMapNeverRaises(u: real, v: real, z: real, depth: seq<seq<real>>, w: int, h: int, threshold: real)
    requires InDepthMap(depth, w, h)
    ensures PointVisibility(u, v, z, depth, w, h, threshold).Some?
  {}

  /** Whether the i-th point is evaluated without raising: it has a z value and, if
      the depth map is read for it, the pixel exists. */
  predicate PointEvaluates(uv: seq<(real, real)>, zGeo: seq<real>, depth: seq<seq<real>>,
                           w: int, h: int, threshold: real, i: nat)
    requires i < |uv|
  {
    i < |zGeo| && PointVisibility(uv[i].0, uv[i].1, zGeo[i], depth, w, h, threshold).Some?
  }

  /** compute_visibility: one flag per uv point, appended in order; None when some
      point raises IndexError, which ends the call. */
  method ComputeVisibility(uv: seq<(real, real)>, zGeo: seq<real>, depth: seq<seq<real>>,
                           w: int, h: int, threshold: real)
    returns (visibility: Option<seq<real>>)
    ensures visibility.Some? <==> forall i :: 0 <= i < |uv| ==> PointEvaluates(uv, zGeo, depth, w, h, threshold, i)
    ensures visibility.Some? ==>
              |visibility.value| == |uv| &&
              forall i :: 0 <= i < |uv| ==>
                PointEvaluates(uv, zGeo, depth, w, h, threshold, i) &&
                PointVisibility(uv[i].0, uv[i].1, zGeo[i], depth, w, h, threshold) == Some(visibility.value[i])
  {
    var flags: seq<real> := [];
    for i := 0 to |uv|
      invariant |flags| == i
      invariant forall j :: 0 <= j < i ==>
                  PointEvaluates(uv, zGeo, depth, w, h, threshold, j) &&
                  PointVisibility(uv[j].0, uv[j].1, zGeo[j], depth, w, h, threshold) == Some(flags[j])
    {
      var (u, v) := uv[i];
      if i >= |zGeo| {
        assert !PointEvaluates(uv, zGeo, depth, w, h, threshold, i);
        return None;
      }
      var zReal := zGeo[i];
      var ui, vi := Trunc(u), Trunc(v);
      if ui < 0 || ui >= w || vi < 0 || vi >= h {
        flags := flags + [0.0];
        continue;
      }
      if zReal <= 0.0 {
        flags := flags + [0.0];
        continue;
      }
      if !HasDepth(depth, vi, ui) {
        assert !PointEvaluates(uv, zGeo, depth, w, h, threshold, i);
        return None;
      }
      var dSensor := depth[vi][ui];
      if zReal > dSensor + threshold {
        flags := flags + [0.0];
      } else {
        flags := flags + [1.0];
      }
    }
    return Some(flags);
  }
}

=== FILE: wrappers.dfy ===
// Optional values and results with an error, for the lookups that may find
// nothing and the parsers that may raise.

module Wrappers {
  datatype Option<T> = None | Some(value: T)

  datatype Result<T, E> = Ok(value: T) | Err(error: E)
}
